=== FILE: README.md ===
# LinkedIn ETL: a Dafny model of the DuckDB and pandas pipelines

The repository turns LinkedIn page exports into CSV files. The exports are Excel
workbooks stored as `raw/<category>/<year>/<month>/<file>`. Two near-duplicate
pipelines do the work. One runs on DuckDB (`data/etl_linkedin_duckdb.py`) and
one on pandas (`engines/method_1/etl_linkedin_pandas.py`). Each pipeline does
the following:

1. It walks the raw directory, classifies every workbook by a keyword in its
   name, and numbers the files of each month directory to build an
   extraction period.
2. It reads the sheets that the workbook's category lists.
3. It renames every sheet's columns by position from a fixed catalog, and
   coerces the date columns.
4. It stamps each table with the end date of its extraction period: the 15th
   for the first half of a month, the month's last day for the second.
5. It repairs negative engagement counts in `content_metrics` with a
   three-day moving average. pandas also recomputes the engagement rate.
6. It writes every table to a clean directory. It then concatenates the
   tables per (sheet kind, month) and per sheet kind, and writes those too.

The model keeps the two pipelines apart (`Duck*` and `Pandas*` names), as
the code does, and shares only the generic pieces: strings, the calendar,
tables and grouping.

| module | file | what it holds |
|---|---|---|
| `Common` | common.dfy | `Option`, `Result`, the error kinds, `IndexOf`, `MapResult` (a loop that stops at the first failure) |
| `Strings` | strings.dfy | `in`, `split`, `join`, `replace`, `str(n)`/`int(s)` and `os.path.join` |
| `Calendar` | calendar.dfy | Gregorian month lengths and day numbers |
| `Catalog` | catalog.dfy | `category_keys`, `table_attributes`, `translated_columns`, `date_columns` |
| `Tables` | tables.dfy | tables as column names plus rows; select, `UNION ALL`, `pd.concat` |
| `Periods` | periods.dfy | the period strings and both end-date resolvers |
| `Discovery` | discovery.dfy | `detect_file_category`, `get_raw_files`, `read_excel_file`, `extract_data` |
| `Loading` | loading.dfy | `load_data_from_pandas`, `translate_cols`, `convert_column_types` |
| `Imputation` | imputation.dfy | `process_content_metrics` and `clean_content_metrics_data` |
| `Transform` | transform.dfy | `add_final_date`, the per-table `transform_data` step, `load_to_clean` |
| `Grouping` | grouping.dfy | insertion-ordered grouping by key (the Python dicts) |
| `Aggregation` | aggregation.dfy | monthly and category concatenation, and their exports |
| `Pipeline` | pipeline.dfy | the list-level `transform_data` and both `main()` flows |

Cells are `Value`s: `Null`, `Int`, `Real`, `Text` or `DateV`. The model
passes in the things the code gets from libraries as parameters:

- `read` stands for `pd.read_excel`.
- `strptime` stands for DuckDB's `STRPTIME(…, '%m/%d/%Y')`.
- `parse` stands for `pd.to_datetime`.
- `choose` stands for the join partner that DuckDB's `UPDATE … FROM`
  happens to pick.

Every raised exception becomes a `Failure` that carries an `Error`.

## Model

| member | source | states |
|---|---|---|
| Discovery.DetectFileCategory | data/etl_linkedin_duckdb.py:43-51 | the result is the first category, in the order competitor, content, followers, visitors, whose word occurs in the name; it is `None` (the source's `0`) exactly when no word occurs |
| Discovery.ListSlotsSound | data/etl_linkedin_duckdb.py:64-87 | the walk yields exactly one slot per listed file: every slot is the `seqNo`-th file (1-based) of a listed month directory at that directory's joined path; every listed file has a slot, at its position in the walk; and a file listed before another (by category, year, month, then file) comes earlier |
| Discovery.MonthsSlotsSound | data/etl_linkedin_duckdb.py:70-87 | the same for the month loop of one year directory: every slot comes from one of the months, and the `i`-th file of the `d`-th month sits at its month position with sequence number `i + 1` |
| Discovery.YearsSlotsSound | data/etl_linkedin_duckdb.py:67-87 | the same for the year loop of one category directory: every slot comes from one of the years, and each listed file sits at its year position |
| Discovery.FlattenMiddle | data/etl_linkedin_duckdb.py:64-87 | in nested loops that concatenate one part per directory, element `k` of the `a`-th directory's part lands right after the parts of the directories before it |
| Discovery.ListSlotsAt | data/etl_linkedin_duckdb.py:64-87 | the `i`-th file of month `d` of year `b` of category `a` is found at its walk position, with its directory names, joined path and sequence number `i + 1` |
| Discovery.PositionsFollowListing | data/etl_linkedin_duckdb.py:64-87 | the nested loops visit files in listing order: a file listed before another gets a smaller position |
| Discovery.GetRawFilesDuckRecords | data/etl_linkedin_duckdb.py:53-88 | DuckDB makes one record per listed file; each record holds the file's category, its month directory path and the period `year_month_seqNo`; every listed file's record is at the file's walk position |
| Discovery.GetRawFilesPandasRecords | engines/method_1/etl_linkedin_pandas.py:57-82 | pandas makes one record per listed file; each record holds `[category, year, month]` as its directory and the period `year-month-seqNo`; every listed file's record is at the file's walk position |
| Discovery.LaterExportsUnresolved | data/etl_linkedin_duckdb.py:85 | a third or later workbook in a month directory gets a period that DuckDB's end-date lookup rejects |
| Discovery.ReadSheets | data/etl_linkedin_duckdb.py:127-142 | one frame per listed sheet, in order; each frame has the sheet's kind, the file's directory and period, and the sheet read at its position with its header skip |
| Discovery.ReadWorkbook | data/etl_linkedin_duckdb.py:124-144 | reading succeeds exactly when the file was classified, and then yields the sheets its category lists, read in order; an unclassified file fails with `UnknownCategory`, the KeyError of looking up category `0` |
| Discovery.ExtractData | data/etl_linkedin_duckdb.py:146-160 | extraction succeeds exactly when every file is classified, and then yields each file's workbook frames, file after file |
| Discovery.ExtractDataAt | data/etl_linkedin_duckdb.py:126-144 | sheet `j` of file `i` is the frame right after all frames of the earlier files: that sheet's kind, read from that file with its header skip, with the file's directory and period |
| Discovery.ExtractDataFileOrder | data/etl_linkedin_duckdb.py:157 | every frame of an earlier file comes before every frame of a later file |
| Discovery.ExtractDataFrames | data/etl_linkedin_duckdb.py:154-157 | extraction yields exactly as many frames as the categories list sheets; every frame carries the directory and period of a file whose category owns the frame's kind |
| Catalog.CategorySheetsWellFormed | data/etl_linkedin_duckdb.py:100-122 | the categories list 1, 2, 6 and 6 sheets, at positions 0..k-1; only competitor and content skip one header row |
| Catalog.EveryKindReadOnce | data/etl_linkedin_duckdb.py:100-122 | the catalog lists 15 sheets with pairwise different kinds; each kind belongs to exactly one category |
| Catalog.ColumnCounts | data/etl_linkedin_duckdb.py:171-275 | each kind's column count is the same in `table_attributes` and in pandas' `translated_columns`: 20, 20, 4, 25, 5, and 2 for every other kind |
| Catalog.CategoryOf | data/etl_linkedin_duckdb.py:100-122 | the category it returns lists the kind among its sheets |
| Catalog.DateColumnsTranslated | engines/method_1/etl_linkedin_pandas.py:312-317 | every date column pandas converts is one of the kind's translated names |
| Catalog.RangeNotTranslated | engines/method_1/etl_linkedin_pandas.py:163-259 | no translated column is called "Extraction Range", so the stamp always adds a new column |
| Calendar.DaysInMonth | engines/method_1/etl_linkedin_pandas.py:293 | `calendar.monthrange(y, m)[1]`: 28 to 31 days; February has 29 exactly in Gregorian leap years; the 31-day months are the usual seven |
| Calendar.DayNumberNextDay | data/etl_linkedin_duckdb.py:377 | day numbers, the basis of `"Date" - 2`, grow by exactly one from a date to the next |
| Periods.PeriodEndDay | engines/method_1/etl_linkedin_pandas.py:292-295 | the end day lies between the 15th and the month's length, and is the month's last day for the second half |
| Periods.DuckFinalDate | data/etl_linkedin_duckdb.py:476 | the lookup succeeds exactly on the keys of `map_months_period`; any other period fails with `InvalidPeriod` (the KeyError) |
| Periods.Shape2023 | data/etl_linkedin_duckdb.py:426-449 | the 24 entries for 2023 are the half-months in calendar order, each with the date the calendar rule gives |
| Periods.Shape2024 | data/etl_linkedin_duckdb.py:450-473 | the same for the 24 entries for 2024, including 2024-02-29 |
| Periods.DuckTableFollowsCalendar | data/etl_linkedin_duckdb.py:425-474 | the hard-coded table holds exactly the 48 half-months of 2023 and 2024 in order; every `_1` key maps to the 15th and every `_2` key to the month's last day |
| Periods.DuckFinalDateResolves | data/etl_linkedin_duckdb.py:425-476 | for every half-month of 2023 and 2024, the lookup of the period the walk builds returns the 15th or the last day of the month |
| Periods.DuckFinalDateIff | data/etl_linkedin_duckdb.py:425-476 | the lookup succeeds if and only if the period is `year_month_seq` with a year of 2023 or 2024, a month name from the table and a sequence of 1 or 2 |
| Periods.PandasFinalDate | engines/method_1/etl_linkedin_pandas.py:273-297 | on success the date is valid, and it falls on the 15th or on the month's last day |
| Periods.PandasFinalDateResolves | engines/method_1/etl_linkedin_pandas.py:273-297 | for any numeric year, known month name and sequence number, the result is the last day for sequence 2 and the 15th otherwise; no year limit applies |
| Periods.PandasFinalDateNeedsPlainDirs | engines/method_1/etl_linkedin_pandas.py:274 | a '-' inside the year or month directory name makes the three-way split, and so the resolver, fail |
| Periods.MonthTokensCompared | engines/method_1/etl_linkedin_pandas.py:276-289 | the two month tables agree on eleven names; May is "Mai" for DuckDB and "Maio" for pandas |
| Periods.ResolversAgree | engines/method_1/etl_linkedin_pandas.py:273-297 | outside May, for every half-month of 2023 and 2024, the DuckDB table and the pandas rule give the same date |
| Periods.DuckPeriodParts | data/etl_linkedin_duckdb.py:544 | a DuckDB period splits on '_' back into its year, month name and sequence number |
| Periods.NotDuckPeriod | data/etl_linkedin_duckdb.py:425-474 | a period built from a "Maio" directory is none of the table's keys |
| Periods.MayDirectoryDisagrees | engines/method_1/etl_linkedin_pandas.py:276-290 | a May directory works for only one pipeline: "Mai" fails pandas and "Maio" fails DuckDB |
| Loading.CoerceRow | data/etl_linkedin_duckdb.py:293-300 | a row is accepted exactly when every DATE cell is NULL, '' or parseable; DATE cells become NULL or the parsed date, and other cells are copied unchanged |
| Loading.TypedTable | data/etl_linkedin_duckdb.py:282-302 | the insert succeeds exactly when the width matches the catalog and every DATE cell is accepted; the result takes the catalog's names in order, keeps the row count, and holds each cell coerced by its column's type |
| Loading.CleanDir | data/etl_linkedin_duckdb.py:308 | after `replace("raw", "clean")` no "raw" is left, and the directory is unchanged exactly when it held no "raw" |
| Strings.JoinSplit | data/etl_linkedin_duckdb.py:544 | joining the parts of `split(c)` with `c` gives back the original string |
| Strings.SplitThree | engines/method_1/etl_linkedin_pandas.py:274 | a string of three separator-free parts joined by the separator splits into exactly those three parts |
| Strings.ParseNatToString | engines/method_1/etl_linkedin_pandas.py:293 | `int(str(n))` gives back `n` for every natural number |
| Strings.PathJoin | engines/method_1/etl_linkedin_pandas.py:470 | `os.path.join(a, b)` is `b` when `b` is absolute; otherwise it starts with `a` and ends with `b` |
| Strings.ReplaceRemovesAll | data/etl_linkedin_duckdb.py:308 | no "raw" survives the replacement, not even across a replaced occurrence |
| Strings.ReplaceIdentityIff | data/etl_linkedin_duckdb.py:308 | the replacement leaves a string unchanged if and only if it does not contain "raw" |
| Loading.LoadData | data/etl_linkedin_duckdb.py:277-311 | loading succeeds exactly when the width matches and the dates parse; the table is named `kind_period`, exported to the cleaned directory, and holds the typed rows |
| Loading.TranslateCols | engines/method_1/etl_linkedin_pandas.py:260 | the assignment succeeds exactly when the widths match; the names become the kind's list, and the rows are untouched |
| Loading.ToDatetime | engines/method_1/etl_linkedin_pandas.py:323 | the conversion succeeds exactly when every cell is missing, a date, or parseable; each cell becomes its converted value |
| Loading.ConvertColumns | engines/method_1/etl_linkedin_pandas.py:319-323 | the loop succeeds if and only if every named column exists and the column `df[name]` reaches holds only cells `pd.to_datetime` accepts; those cells are then converted; columns with other names and the shape are unchanged |
| Loading.ConvertRestConvertible | engines/method_1/etl_linkedin_pandas.py:322-323 | once the first named column is converted, the remaining names are convertible in the new table exactly when all names were in the old one |
| Loading.ConvertColumnsIdempotent | engines/method_1/etl_linkedin_pandas.py:322-323 | converting the named columns a second time changes nothing |
| Loading.ConvertColumnsFixed | engines/method_1/etl_linkedin_pandas.py:322-323 | a table whose named columns hold only missing values and dates is returned unchanged |
| Loading.ConvertColumnTypes | engines/method_1/etl_linkedin_pandas.py:312-325 | the step succeeds if and only if the kind's date columns and "Extraction Range" exist and hold only readable cells; those columns are converted, every other column and the shape, kind, directory and period are kept |
| Imputation.Positives | data/etl_linkedin_duckdb.py:321-324 | every positive value is ≥ 0, and it equals the total wherever the total is ≥ 0 |
| Imputation.DuckAverage | data/etl_linkedin_duckdb.py:377-380 | the window average exists only for a dated anchor with rows in `[d-2, d]`; it exists whenever the anchor is one of the row dates; it is ≥ 0 over non-negative values |
| Imputation.WindowCountIsRows | data/etl_linkedin_duckdb.py:377-380 | the running count equals the size of the set of rows whose date lies in `[d-2, d]` |
| Imputation.WindowSumIsMasked | data/etl_linkedin_duckdb.py:377-380 | the running sum equals the sum of the positive values with every row outside `[d-2, d]` zeroed |
| Imputation.DuckAverageIsWindowMean | data/etl_linkedin_duckdb.py:377-380 | `AVG(...) WHERE t2.Date BETWEEN t1.Date - 2 AND t1.Date` is the window's sum divided by its row count, and missing for an undated anchor or an empty window |
| Imputation.DuckFinals | data/etl_linkedin_duckdb.py:389-392 | every final value is missing or ≥ 0; a non-negative total is kept as is; any other total becomes the window mean around its join partner's date |
| Imputation.DuckWriteBack | data/etl_linkedin_duckdb.py:397-405 | undated rows keep their cell; a dated row gets the rounded final of the first row with the same date |
| Imputation.NearbyInt | data/etl_linkedin_duckdb.py:400-403 | the DOUBLE to INT cast rounds to the nearest integer, with ties going to the even one |
| Imputation.DuckImputeColumn | data/etl_linkedin_duckdb.py:317-407 | the repair succeeds exactly when every cell is numeric; undated rows are unchanged, and every dated row ends NULL or a non-negative INT; the value each dated row takes is stated by DuckImputeColumnValues |
| Imputation.DuckImputeColumnValues | data/etl_linkedin_duckdb.py:376-405 | a dated row ends as the rounded INT of the first same-date row's final: that row's total when non-negative, else the window mean around that row's partner's date |
| Imputation.DuckKeepsNonNegative | data/etl_linkedin_duckdb.py:389-405 | with unique dates, a non-negative count comes back unchanged |
| Imputation.DuckRepairsEveryDatedRow | data/etl_linkedin_duckdb.py:376-405 | with each row its own join partner and unique dates, every dated row gets an INT value, even in the first two rows |
| Imputation.DuckImputeMetrics | data/etl_linkedin_duckdb.py:397-405 | on success the four columns exist; only columns of those names change; undated rows are untouched; shape and names are kept |
| Imputation.DuckImputeMetricsRepairs | data/etl_linkedin_duckdb.py:397-405 | each repaired column, where `t."name"` reads it, ends with no negative count in a dated row |
| Imputation.DuckImputeMetricsColumn | data/etl_linkedin_duckdb.py:397-405 | with distinct names, each repaired column is exactly the one-column repair of its old cells |
| Imputation.DuckProcessContentMetrics | data/etl_linkedin_duckdb.py:313-412 | the repair needs "Date" and the four totals, and keeps the shape and every other column; rows with a NULL date are untouched |
| Imputation.ContentDates | data/etl_linkedin_duckdb.py:377 | reading "Date" succeeds exactly when the column exists and holds only NULLs and dates; a row is undated exactly when its cell is NULL |
| Imputation.DuckProcessContentMetricsColumn | data/etl_linkedin_duckdb.py:313-412 | each of the four totals becomes the one-column repair of its old cells under the table's dates, and no dated row keeps a negative count |
| Imputation.PandasRolling | engines/method_1/etl_linkedin_pandas.py:364-375 | `rolling(3).mean()` has no value exactly in rows 0 and 1; the mean itself is stated by RollingMeanOfThree |
| Imputation.RollingMeanOfThree | engines/method_1/etl_linkedin_pandas.py:362-375 | from row 2 on, `rolling(3).mean()` is the mean of the row and the two before it |
| Imputation.RollingNonNegative | engines/method_1/etl_linkedin_pandas.py:350-375 | the rolling mean of the zero-filled series is never negative |
| Imputation.PandasCleaned | engines/method_1/etl_linkedin_pandas.py:350-411 | a total is replaced exactly when it is < 0; the repaired value is missing or ≥ 0; a negative total in row 0 or 1 becomes NaN, and from row 2 on it becomes the mean of the two previous zero-filled positives and its own 0 |
| Imputation.AveragesAgreeOnConsecutiveDays | data/etl_linkedin_duckdb.py:377-380 | on one row per consecutive day, from the third row on, DuckDB's date window equals pandas' positional window |
| Imputation.DuckFinalIsRolling | data/etl_linkedin_duckdb.py:377-392 | when days are consecutive and rows are their own join partners, DuckDB's repaired value for a negative total from row 2 on is the three-row rolling mean pandas computes |
| Imputation.CleanedIsRolling | engines/method_1/etl_linkedin_pandas.py:364-411 | pandas' repaired value for a negative total from row 2 on is its rolling mean over the zero-filled positives |
| Imputation.FinalsAgreeOnConsecutiveDays | engines/method_1/etl_linkedin_pandas.py:377-411 | under the same conditions the two pipelines' repaired values agree from the third row on |
| Imputation.PipelinesAgreeAfterTwoRows | data/etl_linkedin_duckdb.py:376-405 | from the third row on, DuckDB's stored cell is pandas' repaired value rounded into the INT column |
| Imputation.BoundaryRowsDiffer | engines/method_1/etl_linkedin_pandas.py:364-375 | a negative total in row 0 or 1 gets an INT from DuckDB but NaN from pandas |
| Imputation.EngagementRateOf | engines/method_1/etl_linkedin_pandas.py:413-422 | the rate exists exactly when all five inputs exist and impressions ≠ 0, and then rate × impressions equals the sum of the four repaired counts |
| Imputation.CleanRow | engines/method_1/etl_linkedin_pandas.py:377-422 | Date, Impressions and Extraction Range are kept; the four counts take their repaired values; the rate is recomputed from them |
| Imputation.CleanedCounts | engines/method_1/etl_linkedin_pandas.py:350-411 | each of the four counts is repaired row by row: a missing count stays missing, a non-negative one is kept, and every result is missing or non-negative; the value a negative count takes is stated by CleanedCountsRepair |
| Imputation.CleanedCountsRepair | engines/method_1/etl_linkedin_pandas.py:350-411 | a negative count of each of the four columns takes the rolling repair: NaN in rows 0 and 1, the three-row mean of the zero-filled positives from row 2 on |
| Imputation.CleanSelected | engines/method_1/etl_linkedin_pandas.py:424-435 | the output has exactly the 8 output columns in order and the same row count; each row keeps Date, Impressions and Extraction Range, repairs the counts and has a consistent rate; the value a negative count takes is stated by CleanSelectedRepair |
| Imputation.CleanSelectedRepair | engines/method_1/etl_linkedin_pandas.py:377-435 | in the selected output, a negative count cell holds its rolling repair |
| Imputation.PandasCleanContentMetrics | engines/method_1/etl_linkedin_pandas.py:337-437 | cleaning succeeds exactly when the 8 input columns exist and the counts are numeric, and it yields the cleaned selection |
| Transform.DuckAddFinalDate | data/etl_linkedin_duckdb.py:476-486 | stamping succeeds exactly when the period is in the map, and fails with `InvalidPeriod` otherwise; every row gets the end date in "Extraction Range" and nothing else changes |
| Transform.PandasAddFinalDate | engines/method_1/etl_linkedin_pandas.py:273-299 | stamping succeeds exactly when the pandas resolver does; every row gets the end date and nothing else changes |
| Transform.DuckTransform | data/etl_linkedin_duckdb.py:501-505 | content metrics are repaired before stamping and other kinds are only stamped; it succeeds exactly when those steps do, and keeps the bookkeeping |
| Transform.DuckTransformNoNegativeCounts | data/etl_linkedin_duckdb.py:501-505 | after DuckDB's transform, no repaired count of a dated content-metrics row is negative |
| Transform.PandasPrepare | engines/method_1/etl_linkedin_pandas.py:451-453 | on success the width matched and the period resolved; the columns become the kind's translated list plus "Extraction Range"; the row count and bookkeeping are kept; every row carries the period's end date |
| Transform.PandasPrepareSucceeds | engines/method_1/etl_linkedin_pandas.py:451-453 | the first three steps succeed if and only if the width matches the catalog, the period resolves and the translated date columns hold only readable cells |
| Transform.PandasPrepareDateCells | engines/method_1/etl_linkedin_pandas.py:451-453 | after the first three steps each translated date column, where `df[name]` reads it, held only readable cells and now holds their conversions |
| Transform.PandasPrepareOtherCells | engines/method_1/etl_linkedin_pandas.py:451-453 | after the first three steps every translated column that is not a date column keeps the sheet's cells |
| Transform.TranslatedStamp | engines/method_1/etl_linkedin_pandas.py:451-452 | renaming then stamping a sheet of the catalog's width keeps every cell under the translated names and adds the end date as the last column |
| Transform.ConvertStampedSucceeds | engines/method_1/etl_linkedin_pandas.py:312-325 | converting a stamped sheet succeeds if and only if its date columns hold only readable cells; the stamp itself always converts |
| Transform.ConvertStampedDates | engines/method_1/etl_linkedin_pandas.py:319-323 | converting a stamped sheet converts each date column's cells |
| Transform.ConvertStampedOthers | engines/method_1/etl_linkedin_pandas.py:319-323 | converting a stamped sheet keeps the cells of every other column |
| Transform.PandasTransform | engines/method_1/etl_linkedin_pandas.py:449-455 | every other kind is just prepared; content metrics succeed if and only if preparation and cleaning both do, and then hold the cleaning of the prepared table; the row count and bookkeeping are kept |
| Transform.PandasTransformStamps | engines/method_1/etl_linkedin_pandas.py:452-455 | every transformed table, cleaned or not, carries its period's end date in "Extraction Range" |
| Transform.DuckExportFileName | data/etl_linkedin_duckdb.py:523-525 | a cleaned DuckDB table is written as `<db_table_name>.csv` |
| Transform.PandasExportFileNameOfPeriod | engines/method_1/etl_linkedin_pandas.py:474-479 | a cleaned pandas frame is written as `<kind>_<sequence>.csv`, the sequence being the last field of its period |
| Transform.PathJoinAll | engines/method_1/etl_linkedin_pandas.py:470 | joining relative parts onto the clean directory yields a path under it |
| Transform.DuckLoadToClean | data/etl_linkedin_duckdb.py:519-526 | one export per table, in order, holding that table, at `DuckExportPath`: directly inside its export directory, in a file named `<db_table_name>.csv` when the name has no '/' |
| Transform.PandasLoadToClean | engines/method_1/etl_linkedin_pandas.py:469-485 | one export per frame, in order, holding that frame's table, at `PandasExportPath`: under the clean directory (for relative directory names), in a file named `<kind>_<sequence>.csv` (`PandasExportFileName`, when it has no '/') |
| Transform.PandasExportPathShape | engines/method_1/etl_linkedin_pandas.py:470-482 | the pandas export path ends in the frame's file name and, for relative directory names, starts with the clean directory |
| Transform.PandasExportPathPlain | engines/method_1/etl_linkedin_pandas.py:470-482 | for a walk frame with plain names, the file is `<clean>/<category>/<year>/<month>/<kind>_<seq>.csv` |
| Common.MapResult | data/etl_linkedin_duckdb.py:501-505 | a loop over a list succeeds exactly when every step does, keeps the order, and otherwise reports the first failing element's error |
| Tables.UnionAll | data/etl_linkedin_duckdb.py:562-567 | `UNION ALL` of two tables is positional: it succeeds exactly when the widths agree, keeps the first table's column names and puts its rows before the second's |
| Tables.UnionAllSeq | data/etl_linkedin_duckdb.py:637-649 | a chain of `UNION ALL`s succeeds exactly when every width equals the first's, and holds all rows in order |
| Tables.Concat | engines/method_1/etl_linkedin_pandas.py:514-517 | `pd.concat` holds every row of its inputs, and its columns are exactly the union of theirs |
| Tables.Select | engines/method_1/etl_linkedin_pandas.py:337-348 | selecting columns by name succeeds exactly when all of them exist; the result has those columns in order, and each cell is the one under that name |
| Tables.RenameColumns | engines/method_1/etl_linkedin_pandas.py:260 | assigning `df.columns` succeeds exactly when the lengths agree, otherwise fails with the length mismatch; the rows are untouched |
| Tables.SetConstColumn | engines/method_1/etl_linkedin_pandas.py:299 | setting a constant column adds it at the end if new, writes the value into every row and leaves every other cell alone |
| Periods.Lookup | data/etl_linkedin_duckdb.py:476 | a dictionary lookup succeeds exactly when some entry has the key, and returns that entry's date |
| Grouping.Insert | data/etl_linkedin_duckdb.py:547-554 | inserting one entry into groups with distinct keys appends it to its key's group, or opens a new group at the end; other groups and every key, category and directory are unchanged |
| Grouping.TwoMembers | data/etl_linkedin_duckdb.py:558-559 | two entries with one key make a group with at least two members, so `tables[1]` exists |
| Grouping.GroupAll | data/etl_linkedin_duckdb.py:541-554 | the groups are the distinct keys in order of first appearance; each holds all items with its key in input order, and takes category and directory from the key's first entry |
| Grouping.GroupOf | data/etl_linkedin_duckdb.py:547-554 | every input entry lands in the group of its key |
| Grouping.MembersMultiplicity | data/etl_linkedin_duckdb.py:554 | a group has as many members as its key has entries |
| Grouping.GroupAllConserves | engines/method_1/etl_linkedin_pandas.py:501-512 | grouping neither loses nor duplicates an item: any additive weight of the groups equals that of the input |
| Aggregation.YearMonthOfThree | data/etl_linkedin_duckdb.py:544 | `"_".join(p.split(sep)[:2])` of a three-field period is `year_month` |
| Aggregation.DuckMonthKeyOfPeriod | data/etl_linkedin_duckdb.py:544-545 | the monthly key of a table from the walk is `kind_year_month` |
| Aggregation.UnionFirstTwo | data/etl_linkedin_duckdb.py:556-567 | a monthly table is the rows of the group's first table followed by those of its second; a group of fewer than two fails with `IncompleteMonthGroup`; different widths fail |
| Aggregation.UnionGroups | data/etl_linkedin_duckdb.py:556-570 | all groups are unioned in order, and the step fails if any group fails |
| Aggregation.DuckMonthlyNeedsPairs | data/etl_linkedin_duckdb.py:559 | a month key held by one table only makes the monthly step fail |
| Aggregation.DuckMonthlySucceeds | data/etl_linkedin_duckdb.py:541-568 | the monthly step succeeds when every key is shared by at least two tables of equal width |
| Aggregation.DuckMonthlyDropsThird | data/etl_linkedin_duckdb.py:558-567 | the monthly table holds only the first two members' rows, so a non-empty third member's rows are lost |
| Aggregation.ConcatenatedDirNoMatch | data/etl_linkedin_duckdb.py:621-625 | a directory without "clean/" or "clean\\" is left unchanged by the substitution |
| Aggregation.ConcatenatedDirPrefix | data/etl_linkedin_duckdb.py:621-625 | text before the first match passes through the substitution unchanged |
| Aggregation.ConcatenatedDirUnderClean | data/etl_linkedin_duckdb.py:621-625 | for a month directory under a clean directory ending in "clean", the result is `<clean>/concatenated_dataframes` |
| Aggregation.UnionMembers | data/etl_linkedin_duckdb.py:637-649 | a category table is all its monthly tables' rows in order; it fails when the widths differ |
| Aggregation.DuckConcatCategory | data/etl_linkedin_duckdb.py:616-651 | every category group is non-empty; the step succeeds exactly when every group's union does, and yields those unions in first-appearance order |
| Aggregation.DuckCategoryConserves | data/etl_linkedin_duckdb.py:633-649 | the category tables hold exactly as many rows as the monthly tables |
| Aggregation.PandasMonthTagOfPeriod | engines/method_1/etl_linkedin_pandas.py:502-503 | the pandas monthly tag of a frame from the walk is `year_month_kind` |
| Aggregation.ConcatGroups | engines/method_1/etl_linkedin_pandas.py:514-517 | each group's `pd.concat` keeps the group's name, category and directory; its row count is the members' total; its columns are the union of theirs |
| Aggregation.PandasConcatMonthly | engines/method_1/etl_linkedin_pandas.py:499-519 | the monthly frames are the concatenations of the tag groups, in first-appearance order; no group is empty |
| Aggregation.PandasConcatCategory | engines/method_1/etl_linkedin_pandas.py:555-576 | the category frames are the concatenations of the category groups of the monthly frames |
| Aggregation.PandasMonthlyConserves | engines/method_1/etl_linkedin_pandas.py:499-519 | the monthly frames hold exactly the rows of the transformed frames |
| Aggregation.PandasCategoryConserves | engines/method_1/etl_linkedin_pandas.py:555-576 | the category frames hold exactly the rows of the monthly frames |
| Aggregation.DuckExportTables | data/etl_linkedin_duckdb.py:586-594 | one export per table, holding that table, directly inside the table's export directory, in a file named `{export_type}_{name}.csv` when neither part has a '/' |
| Aggregation.PandasExportDataframes | engines/method_1/etl_linkedin_pandas.py:532-542 | one export per frame, holding that frame, under its export directory, in a file named `{file_prefix}_{category}.csv` when neither part has a '/' |
| Aggregation.ExportFileNamed | engines/method_1/etl_linkedin_pandas.py:534-538 | a `{tag}_{name}.csv` file joined or appended to a directory has that file name as its last component, and the join keeps the directory as a prefix |
| Aggregation.CategoryGroupNamed | engines/method_1/etl_linkedin_pandas.py:558-565 | a pandas category frame is named after its category and lives in `<clean>/concatenated_dataframes` |
| Aggregation.PandasCategoryExportsDistinct | engines/method_1/etl_linkedin_pandas.py:532-542 | two different category frames are written to different files |
| Pipeline.DuckConvert | data/etl_linkedin_duckdb.py:161-168 | on a fresh in-memory connection, conversion succeeds exactly when every frame loads and no two frames' `kind_period` table names agree ignoring case (line 290's plain `CREATE TABLE`); each table is that frame's load, well formed with the frame's rows; when every frame loads on its own, a failure is `TableExists` |
| Pipeline.DuckConvertRepeatedTable | data/etl_linkedin_duckdb.py:286-291 | two frames of one sheet kind for one period (one month's workbook under two category directories) make conversion fail with `TableExists` |
| Common.MapRegister | data/etl_linkedin_duckdb.py:161-168 | a loop whose every step registers a key in a shared catalog succeeds exactly when every step succeeds, no key is already in the catalog and no two keys agree; the results are the steps' results in order; with every step succeeding, the failure is the taken key's error |
| Strings.FoldCaseFixedIff | data/etl_linkedin_duckdb.py:290 | the case folding under which the unquoted table names are compared leaves no capital letter, changes exactly the names that have one, and is idempotent |
| Pipeline.DuckTransformData | data/etl_linkedin_duckdb.py:490-506 | the transform succeeds exactly when every table's transform does, and yields those tables in order |
| Pipeline.DuckMain | data/etl_linkedin_duckdb.py:654-668 | a run succeeds exactly when the transform, the monthly step and the category step succeed; the cleaned exports hold the transformed tables |
| Pipeline.DuckMainCategoryConserves | data/etl_linkedin_duckdb.py:664-668 | DuckDB's category files hold exactly the rows of its monthly files |
| Pipeline.PandasTransformData | engines/method_1/etl_linkedin_pandas.py:449-457 | the transform succeeds exactly when every frame's transform does, and yields those frames in order |
| Pipeline.PandasTransformDataKeepsRows | engines/method_1/etl_linkedin_pandas.py:449-457 | the transformed frames are well formed and hold as many rows as the extracted ones |
| Pipeline.PandasMain | engines/method_1/etl_linkedin_pandas.py:599-610 | a pandas run succeeds exactly when every frame's transform does: grouping and `pd.concat` never fail |
| Pipeline.PandasMainConserves | engines/method_1/etl_linkedin_pandas.py:600-610 | a successful pandas run writes every extracted row once at each level: cleaned, monthly and category files all hold the extracted row count |

## Left out

- File-system and library I/O is left out: directory listing, Excel reading, CSV writing,
  `os.makedirs`, `shutil.rmtree`, the DuckDB connection and `print`. Listings arrive as
  `CategoryDir` values, sheets come from the `read` parameter, and a write is an `Export`
  record (a path and a table).
- SQL is not executed. Each query is modelled by the function of tables it computes.
  The query text itself is out of scope: `CREATE`/`ALTER`/`DROP`, the `rstrip(" UNION ALL ")`
  trick, and quoting.
- Tables.UnionAll: rows of the first table are placed before the second's. SQL does not
  promise any row order for `UNION ALL`, and DuckDB only usually keeps this one; the row
  order of every DuckDB monthly and category table rests on this choice.
- Pipeline.DuckConvert: identifiers are compared by folding ASCII letters only; DuckDB's case
  rules for other letters are not modelled. The table name is also spliced into the SQL
  unquoted, so a directory name that is not a valid identifier (a space, a `-`) makes the
  `CREATE TABLE` a syntax error; the model does not reject such names.
- The unused `monthly_data_t` literal in `concatenate_category_tables` is left out.
  It has no effect.
- `get_clean_concatenated_data` is left out. It is unfinished and returns nothing.
- Date parsing is a parameter, not a model of `strptime` or `pd.to_datetime`.
  pandas' own date range (it rejects years outside 1677–2262) is therefore not modelled.
- Both pipelines' "Extraction Range" value is modelled as a `DateV`. pandas writes it as
  the unpadded text `f"{year}-{month}-{day}"`, which `pd.to_datetime` turns into the same date.
- Imputation.DuckImputeColumn: DuckDB's `UPDATE … FROM temp t1` pairs each updated row with
  some row `t1`, and the window is taken around `t1`, not around the updated row. Which row is
  paired is left open as the `partner` / `choose` parameter. The agreement lemmas assume
  each row is its own partner.
- Imputation.DuckWriteBack: when two rows share a date, DuckDB's `UPDATE … FROM … WHERE Date = Date`
  may take either row's value. The model takes the first one. The lemmas about it assume
  unique dates.
- Imputation.NearbyInt: implicit casts on `INSERT` into INT/DOUBLE/FLOAT columns are not
  checked. Only DATE columns are coerced, and values of other columns are copied as given.
  This also covers 32-bit INT overflow.
- Imputation.EngagementRateOf: a rate with zero impressions is modelled as missing.
  Whether Python raises or NumPy yields inf/NaN depends on the cell types.
- Imputation.CleanedCounts: the count columns are read as real numbers. Whatever the NumPy
  dtype of a column, its value is a `real`; floating-point rounding is not modelled.
- Periods.PandasFinalDate: `int(year)` is modelled as plain decimal digits. Python also
  accepts signs, surrounding spaces and underscores, and the model rejects those.
- Aggregation.DuckConcatMonthly has no contract of its own, to keep its proof cheap.
  Its behaviour is stated by DuckMonthlyNeedsPairs, DuckMonthlySucceeds and
  DuckMonthlyDropsThird, and by UnionFirstTwo and UnionGroups.
- Aggregation.ConcatenatedDirUnderClean: only the POSIX reading of paths is stated.
  The regular expression also matches a backslash, which matters only for Windows paths.
- Pipeline.DuckMain: a failure ends the run with no result. In the source, the files written
  before the failing step (cleaned tables, then monthly tables) stay on disk.
- Pipeline.PandasMain: as for DuckDB, the run starts from the extracted frames. Extraction is
  modelled separately by Discovery.ExtractData.

=== FILE: aggregation.dfy ===
/**
 * The last stage of both pipelines: the cleaned tables are grouped by
 * month and concatenated, the monthly results are grouped by category and
 * concatenated again, and each level is exported.
 *
 * DuckDB (`concatenate_monthly_tables`, `concatenate_category_tables`,
 * `export_tables`) keys a month by `{kind}_{year}_{month}`, unions only the
 * first two tables of a month, and derives the category directory with a
 * regular-expression substitution. pandas (`concatenate_monthly_dataframes`,
 * `concatenate_category_dataframes`, `export_dataframes`) keys a month by
 * `{year}_{month}_{kind}` and concatenates every frame of a group.
 */
module Aggregation {

  import opened Common
  import opened Strings
  import opened Catalog
  import opened Tables
  import opened Periods
  import opened Discovery
  import opened Loading
  import opened Transform
  import opened Grouping

  /** One concatenated result: its dict key (a DuckDB table name), category, export directory and contents. */
  datatype Combined = Combined(name: string, category: string, exportDir: string, table: Table)

  /** The tables of a list of combined results, in order. */
  function TablesOf(cs: seq<Combined>): seq<Table>
  {
    TablesBy(cs, (c: Combined) => c.table)
  }

  /** `"_".join(parts[:2])`. */
  function YearMonth(parts: seq<string>): string
  {
    Join(if |parts| <= 2 then parts else parts[..2], "_")
  }

  /** The year and month fields of a period of three fields, joined by '_'. */
  lemma YearMonthOfThree(period: string, sep: char, yearDir: string, monthDir: string, s: nat)
    requires period == yearDir + [sep] + monthDir + [sep] + NatToString(s)
    requires sep !in yearDir && sep !in monthDir && !IsDigit(sep)
    ensures YearMonth(Split(period, sep)) == yearDir + "_" + monthDir
  {
    NatToStringHasNo(s, sep);
    SplitThree(yearDir, monthDir, NatToString(s), sep);
    assert [yearDir, monthDir, NatToString(s)][..2] == [yearDir, monthDir];
    assert [yearDir, monthDir][1..] == [monthDir];
    assert Join([yearDir, monthDir], "_") == yearDir + "_" + monthDir;
  }

  // ---------------------------------------------------------------------
  // DuckDB: concatenate_monthly_tables
  // ---------------------------------------------------------------------

  /** The monthly table name: f"{dataframe_name}_{year_month}" with the period split on '_'. */
  function DuckMonthKey(d: DuckTable): string
  {
    KindName(d.kind) + "_" + YearMonth(Split(d.period, '_'))
  }

  /** All extractions of one kind in one month directory share a monthly table, whatever their number. */
  lemma DuckMonthKeyOfPeriod(d: DuckTable, yearDir: string, monthDir: string, s: nat)
    requires d.period == DuckPeriod(yearDir, monthDir, s)
    requires '_' !in yearDir && '_' !in monthDir
    ensures DuckMonthKey(d) == KindName(d.kind) + "_" + yearDir + "_" + monthDir
  {
    assert d.period == yearDir + ['_'] + monthDir + ['_'] + NatToString(s);
    YearMonthOfThree(d.period, '_', yearDir, monthDir, s);
  }

  function DuckMonthEntries(ds: seq<DuckTable>): (es: seq<Entry<Table>>)
    ensures |es| == |ds|
    ensures forall i :: 0 <= i < |ds| ==>
      es[i] == Entry(DuckMonthKey(ds[i]), KindName(ds[i].kind), ds[i].exportDir, ds[i].table)
  {
    seq(|ds|, i requires 0 <= i < |ds| => Entry(DuckMonthKey(ds[i]), KindName(ds[i].kind), ds[i].exportDir, ds[i].table))
  }

  /**
   * `CREATE TABLE month AS SELECT * FROM tables[0] UNION ALL SELECT * FROM tables[1]`:
   * a month with one table raises IndexError, and any table after the
   * second is not read.
   */
  function UnionFirstTwo(g: Group<Table>): (r: Result<Combined>)
    ensures r.Success? <==> |g.members| >= 2 && |g.members[0].columns| == |g.members[1].columns|
    ensures |g.members| < 2 ==> r == Failure(IncompleteMonthGroup(g.key))
    ensures r.Success? ==>
      && r.value.name == g.key && r.value.category == g.category && r.value.exportDir == g.exportDir
      && r.value.table.columns == g.members[0].columns
      && r.value.table.rows == g.members[0].rows + g.members[1].rows
  {
    if |g.members| < 2 then Failure(IncompleteMonthGroup(g.key))
    else
      var t :- UnionAll(g.members[0], g.members[1]);
      Success(Combined(g.key, g.category, g.exportDir, t))
  }

  /** The second loop of `concatenate_monthly_tables`, in dict order: the first failure stops it. */
  function UnionGroups(gs: seq<Group<Table>>): (r: Result<seq<Combined>>)
    ensures r.Success? <==> forall j :: 0 <= j < |gs| ==> UnionFirstTwo(gs[j]).Success?
    ensures r.Success? ==> |r.value| == |gs| && forall j :: 0 <= j < |gs| ==> r.value[j] == UnionFirstTwo(gs[j]).value
  {
    if |gs| == 0 then Success([])
    else
      var c :- UnionFirstTwo(gs[0]);
      var rest :- UnionGroups(gs[1..]);
      assert forall j :: 1 <= j < |gs| ==> gs[1..][j - 1] == gs[j];
      Success([c] + rest)
  }

  /** `concatenate_monthly_tables`: group the tables by month key, then union each month's first two. */
  function DuckConcatMonthly(ds: seq<DuckTable>): Result<seq<Combined>>
  {
    UnionGroups(GroupAll(DuckMonthEntries(ds)))
  }

  /** A month key held by a single table makes `concatenate_monthly_tables` fail. */
  lemma DuckMonthlyNeedsPairs(ds: seq<DuckTable>, i: nat)
    requires i < |ds|
    requires forall i' :: 0 <= i' < |ds| && i' != i ==> DuckMonthKey(ds[i']) != DuckMonthKey(ds[i])
    ensures DuckConcatMonthly(ds).Failure?
  {
    var es := DuckMonthEntries(ds);
    SingleMember(es, i);
    var j := GroupOf(es, i);
    assert !UnionFirstTwo(GroupAll(es)[j]).Success?;
  }

  /** Some other table has the month key of table `i`. */
  predicate SharedMonth(ds: seq<DuckTable>, i: nat) {
    i < |ds| && exists i' :: 0 <= i' < |ds| && i' != i && DuckMonthKey(ds[i']) == DuckMonthKey(ds[i])
  }

  /** Some other entry has the key of entry `i`. */
  predicate SharedKey(es: seq<Entry<Table>>, i: nat) {
    i < |es| && exists i' :: 0 <= i' < |es| && i' != i && es[i'].key == es[i].key
  }

  /**
   * Every month key held by at least two tables, and tables of one month of
   * equal width: `concatenate_monthly_tables` succeeds.
   */
  lemma DuckMonthlySucceeds(ds: seq<DuckTable>)
    requires forall i :: 0 <= i < |ds| ==> SharedMonth(ds, i)
    requires forall i, i' :: 0 <= i < |ds| && 0 <= i' < |ds| && DuckMonthKey(ds[i]) == DuckMonthKey(ds[i']) ==>
      |ds[i].table.columns| == |ds[i'].table.columns|
    ensures DuckConcatMonthly(ds).Success?
  {
    var es := DuckMonthEntries(ds);
    forall i | 0 <= i < |es|
      ensures SharedKey(es, i)
    {
      assert SharedMonth(ds, i);
      var i' :| 0 <= i' < |ds| && i' != i && DuckMonthKey(ds[i']) == DuckMonthKey(ds[i]);
      assert es[i'].key == es[i].key;
    }
    PairedGroupsUnite(es);
  }

  /** Keys that each occur twice, and one width per key: every group unites its first two tables. */
  lemma PairedGroupsUnite(es: seq<Entry<Table>>)
    requires forall i :: 0 <= i < |es| ==> SharedKey(es, i)
    requires forall i, i' :: 0 <= i < |es| && 0 <= i' < |es| && es[i].key == es[i'].key ==>
      |es[i].item.columns| == |es[i'].item.columns|
    ensures forall j :: 0 <= j < |GroupAll(es)| ==> UnionFirstTwo(GroupAll(es)[j]).Success?
  {
    var gs := GroupAll(es);
    forall j | 0 <= j < |gs|
      ensures UnionFirstTwo(gs[j]).Success?
    {
      var k := gs[j].key;
      assert k in Keys(es);
      var i :| 0 <= i < |es| && Keys(es)[i] == k;
      assert SharedKey(es, i);
      var i' :| 0 <= i' < |es| && i' != i && es[i'].key == es[i].key;
      FirstTwoSameWidth(es, i, i');
    }
  }

  /** Two entries with one key: that key's first two items exist and have one width. */
  lemma FirstTwoSameWidth(es: seq<Entry<Table>>, i: nat, i': nat)
    requires i < |es| && i' < |es| && i != i' && es[i].key == es[i'].key
    requires forall i, i' :: 0 <= i < |es| && 0 <= i' < |es| && es[i].key == es[i'].key ==>
      |es[i].item.columns| == |es[i'].item.columns|
    ensures |Members(es, es[i].key)| >= 2
    ensures |Members(es, es[i].key)[0].columns| == |Members(es, es[i].key)[1].columns|
  {
    var k := es[i].key;
    if i < i' { TwoMembers(es, i, i'); } else { TwoMembers(es, i', i); }
    MembersOrigin(es, k, 0);
    MembersOrigin(es, k, 1);
  }

  /**
   * A month's table holds exactly the rows of its first two extractions in
   * input order: when a month has a third extraction with rows, the monthly
   * table has fewer rows than the month's extractions together.
   */
  lemma DuckMonthlyDropsThird(ds: seq<DuckTable>, j: nat)
    requires DuckConcatMonthly(ds).Success?
    requires j < |GroupAll(DuckMonthEntries(ds))|
    ensures var ms := Members(DuckMonthEntries(ds), GroupAll(DuckMonthEntries(ds))[j].key);
      && DuckConcatMonthly(ds).value[j].table.rows == ms[0].rows + ms[1].rows
      && (|ms| >= 3 && |ms[2].rows| > 0 ==> |DuckConcatMonthly(ds).value[j].table.rows| < TotalRows(ms))
  {
    var ms := Members(DuckMonthEntries(ds), GroupAll(DuckMonthEntries(ds))[j].key);
    if |ms| >= 3 {
      TotalRowsAtLeast(ms, 3);
    }
  }

  /** The rows of the first `n` tables are at most all rows. */
  lemma {:induction false} TotalRowsAtLeast(ts: seq<Table>, n: nat)
    requires n <= |ts|
    ensures TotalRows(ts) >= TotalRows(ts[..n])
    ensures n >= 3 ==> TotalRows(ts[..n]) == |ts[0].rows| + |ts[1].rows| + TotalRows(ts[2..n])
    decreases n
  {
    if n > 0 {
      assert ts[..n][1..] == ts[1..][..n - 1];
      TotalRowsAtLeast(ts[1..], n - 1);
      if n >= 3 {
        assert ts[..n][1..][1..] == ts[2..n];
      }
    }
  }

  // ---------------------------------------------------------------------
  // DuckDB: concatenate_category_tables
  // ---------------------------------------------------------------------

  /** The pattern `(clean)[\\/].*` matches at `i`: "clean", then a slash or a backslash. */
  predicate CleanMatchAt(s: string, i: nat) {
    i + 6 <= |s| && s[i..i + 5] == "clean" && (s[i + 5] == '/' || s[i + 5] == '\\')
  }

  /** Where `.*` from `i` stops: at the next newline, or at the end. */
  function LineEnd(s: string, i: nat): (e: nat)
    requires i <= |s|
    ensures i <= e <= |s|
    ensures forall k :: i <= k < e ==> s[k] != '\n'
    ensures e == |s| || s[e] == '\n'
    decreases |s| - i
  {
    if i == |s| || s[i] == '\n' then i else LineEnd(s, i + 1)
  }

  /**
   * `re.sub(r"(clean)[\\/].*", r"\1/concatenated_dataframes", s)`: left to
   * right, each match runs to the end of its line and is replaced.
   */
  function ConcatenatedDir(s: string): (r: string)
    decreases |s|
  {
    if |s| == 0 then s
    else if CleanMatchAt(s, 0) then s[..5] + "/" + "concatenated_dataframes" + ConcatenatedDir(s[LineEnd(s, 6)..])
    else [s[0]] + ConcatenatedDir(s[1..])
  }

  /** A string with no match is left as it is. */
  lemma {:induction false} ConcatenatedDirNoMatch(s: string)
    requires forall i :: 0 <= i < |s| ==> !CleanMatchAt(s, i)
    ensures ConcatenatedDir(s) == s
    decreases |s|
  {
    if |s| > 0 {
      forall i | 0 <= i < |s| - 1
        ensures !CleanMatchAt(s[1..], i)
      {
        MatchShift(s, i);
      }
      ConcatenatedDirNoMatch(s[1..]);
    }
  }

  lemma MatchShift(s: string, i: nat)
    requires |s| > 0
    ensures CleanMatchAt(s[1..], i) <==> CleanMatchAt(s, i + 1)
  {
    if i + 6 <= |s| - 1 {
      assert s[1..][i..i + 5] == s[i + 1..i + 6];
    }
  }

  /** A prefix without a match is copied unchanged. */
  lemma {:induction false} ConcatenatedDirPrefix(p: string, s: string)
    requires forall i :: 0 <= i < |p| ==> !CleanMatchAt(p + s, i)
    ensures ConcatenatedDir(p + s) == p + ConcatenatedDir(s)
    decreases |p|
  {
    if |p| > 0 {
      var ps := p + s;
      assert ps[1..] == p[1..] + s;
      forall i | 0 <= i < |p| - 1
        ensures !CleanMatchAt(p[1..] + s, i)
      {
        MatchShift(ps, i);
      }
      ConcatenatedDirPrefix(p[1..], s);
      assert !CleanMatchAt(ps, 0);
      assert ConcatenatedDir(ps) == [ps[0]] + ConcatenatedDir(ps[1..]);
      assert ps[0] == p[0];
      assert p == [p[0]] + p[1..];
    } else {
      assert p + s == s;
    }
  }

  /**
   * Below a clean directory whose name ends in "clean" and that holds no
   * other "clean/" or "clean\" itself, DuckDB's category directory is the
   * one pandas uses: `os.path.join(clean_directory, "concatenated_dataframes")`.
   */
  lemma ConcatenatedDirUnderClean(cleanDir: string, rest: string)
    requires |cleanDir| >= 5 && cleanDir[|cleanDir| - 5..] == "clean"
    requires !Contains(cleanDir, "clean/") && !Contains(cleanDir, "clean\\")
    requires '\n' !in rest
    ensures ConcatenatedDir(cleanDir + "/" + rest) == PathJoin(cleanDir, "concatenated_dataframes")
  {
    var n := |cleanDir| - 5;
    var p := cleanDir[..n];
    var clean := cleanDir[n..];
    var s := clean + "/" + rest;
    assert cleanDir == p + clean;
    NoMatchInside(cleanDir, "/" + rest);
    Regroup(p, clean, "/", rest);
    ConcatenatedDirPrefix(p, s);
    ConcatenatedDirLine(clean, rest);
    PathJoinPlain(cleanDir, "concatenated_dataframes");
    Regroup(p, clean, "/", "concatenated_dataframes");
  }

  lemma Regroup(p: string, c: string, x: string, y: string)
    ensures p + (c + x + y) == (p + c) + x + y
    ensures p + (c + x + y) == (p + c) + (x + y)
  {
  }

  lemma PathJoinPlain(a: string, b: string)
    requires |a| > 0 && a[|a| - 1] != '/' && |b| > 0 && b[0] != '/'
    ensures PathJoin(a, b) == a + "/" + b
  {
  }

  /** A string with no "clean/" and no "clean\" has no match before its last five characters, whatever follows. */
  lemma NoMatchInside(dir: string, tail: string)
    requires !Contains(dir, "clean/") && !Contains(dir, "clean\\")
    ensures forall i :: 0 <= i < |dir| - 5 ==> !CleanMatchAt(dir + tail, i)
  {
    forall i | 0 <= i < |dir| - 5
      ensures !CleanMatchAt(dir + tail, i)
    {
      if CleanMatchAt(dir + tail, i) {
        assert (dir + tail)[i..i + 6] == dir[i..i + 6];
        if dir[i + 5] == '/' {
          assert OccursAt(dir, "clean/", i);
          ContainsAt(dir, "clean/", i);
        } else {
          assert OccursAt(dir, "clean\\", i);
          ContainsAt(dir, "clean\\", i);
        }
      }
    }
  }

  /** A match runs to the end of a line without newlines and is replaced once. */
  lemma ConcatenatedDirLine(clean: string, rest: string)
    requires clean == "clean"
    requires '\n' !in rest
    ensures ConcatenatedDir(clean + "/" + rest) == clean + "/" + "concatenated_dataframes"
  {
    var s := clean + "/" + rest;
    assert s[..5] == clean;
    assert CleanMatchAt(s, 0);
    assert LineEnd(s, 6) == |s|;
    assert s[|s|..] == [];
  }

  function DuckCategoryEntries(ms: seq<Combined>): (es: seq<Entry<Table>>)
    ensures |es| == |ms|
    ensures forall i :: 0 <= i < |ms| ==>
      es[i] == Entry(ms[i].category, ms[i].category, ConcatenatedDir(ms[i].exportDir), ms[i].table)
  {
    seq(|ms|, i requires 0 <= i < |ms| => Entry(ms[i].category, ms[i].category, ConcatenatedDir(ms[i].exportDir), ms[i].table))
  }

  /** One category's `SELECT * FROM m1 UNION ALL SELECT * FROM m2 ...` over all its monthly tables. */
  function UnionMembers(g: Group<Table>): (r: Result<Combined>)
    requires |g.members| >= 1
    ensures r.Success? <==> forall m :: 0 <= m < |g.members| ==> |g.members[m].columns| == |g.members[0].columns|
    ensures r.Success? ==>
      && r.value.name == g.key && r.value.category == g.category && r.value.exportDir == g.exportDir
      && r.value.table.columns == g.members[0].columns
      && r.value.table.rows == AllRows(g.members)
  {
    var t :- UnionAllSeq(g.members);
    Success(Combined(g.key, g.category, g.exportDir, t))
  }

  function UnionCategoryGroups(gs: seq<Group<Table>>): (r: Result<seq<Combined>>)
    requires forall j :: 0 <= j < |gs| ==> |gs[j].members| >= 1
    ensures r.Success? <==> forall j :: 0 <= j < |gs| ==> UnionMembers(gs[j]).Success?
    ensures r.Success? ==> |r.value| == |gs| && forall j :: 0 <= j < |gs| ==> r.value[j] == UnionMembers(gs[j]).value
  {
    if |gs| == 0 then Success([])
    else
      var c :- UnionMembers(gs[0]);
      var rest :- UnionCategoryGroups(gs[1..]);
      assert forall j :: 1 <= j < |gs| ==> gs[1..][j - 1] == gs[j];
      Success([c] + rest)
  }

  /** `concatenate_category_tables`: group the monthly tables by category and union each group. */
  function DuckConcatCategory(ms: seq<Combined>): (r: Result<seq<Combined>>)
    ensures var gs := GroupAll(DuckCategoryEntries(ms));
      && (forall j :: 0 <= j < |gs| ==> |gs[j].members| >= 1)
      && (r.Success? <==> forall j :: 0 <= j < |gs| ==> UnionMembers(gs[j]).Success?)
      && (r.Success? ==> |r.value| == |gs| && forall j :: 0 <= j < |gs| ==> r.value[j] == UnionMembers(gs[j]).value)
  {
    var es := DuckCategoryEntries(ms);
    GroupAllMembers(es, (t: Table) => true);
    UnionCategoryGroups(GroupAll(es))
  }

  // ---------------------------------------------------------------------
  // pandas: concatenate_monthly_dataframes, concatenate_category_dataframes
  // ---------------------------------------------------------------------

  /** The monthly dict key: f"{year_month}_{dataframe_name}" with the period split on '-'. */
  function PandasMonthTag(f: Frame<seq<string>>): string
  {
    YearMonth(Split(f.period, '-')) + "_" + KindName(f.kind)
  }

  /** All extractions of one kind in one month directory share a monthly frame, whatever their number. */
  lemma PandasMonthTagOfPeriod(f: Frame<seq<string>>, yearDir: string, monthDir: string, s: nat)
    requires f.period == PandasPeriod(yearDir, monthDir, s)
    requires '-' !in yearDir && '-' !in monthDir
    ensures PandasMonthTag(f) == yearDir + "_" + monthDir + "_" + KindName(f.kind)
  {
    assert f.period == yearDir + ['-'] + monthDir + ['-'] + NatToString(s);
    YearMonthOfThree(f.period, '-', yearDir, monthDir, s);
  }

  function PandasMonthEntries(cleanDir: string, fs: seq<Frame<seq<string>>>): (es: seq<Entry<Table>>)
    ensures |es| == |fs|
    ensures forall i :: 0 <= i < |fs| ==>
      es[i] == Entry(PandasMonthTag(fs[i]), KindName(fs[i].kind), PathJoinAll(cleanDir, fs[i].dir), fs[i].table)
  {
    seq(|fs|, i requires 0 <= i < |fs| =>
      Entry(PandasMonthTag(fs[i]), KindName(fs[i].kind), PathJoinAll(cleanDir, fs[i].dir), fs[i].table))
  }

  /** Groups `pd.concat` can stack: non-empty, of well-formed frames. */
  predicate ConcatReady(gs: seq<Group<Table>>) {
    forall j :: 0 <= j < |gs| ==>
      && |gs[j].members| >= 1
      && forall m :: 0 <= m < |gs[j].members| ==> WellFormed(gs[j].members[m])
  }

  /** `pd.concat(group["dfs"])` for every group, in dict order. */
  function ConcatGroups(gs: seq<Group<Table>>): (r: seq<Combined>)
    requires ConcatReady(gs)
    ensures |r| == |gs|
    ensures forall j :: 0 <= j < |gs| ==>
      && r[j].name == gs[j].key && r[j].category == gs[j].category && r[j].exportDir == gs[j].exportDir
      && WellFormed(r[j].table)
      && |r[j].table.rows| == TotalRows(gs[j].members)
      && (forall n :: n in r[j].table.columns <==> exists m :: 0 <= m < |gs[j].members| && n in gs[j].members[m].columns)
  {
    seq(|gs|, j requires 0 <= j < |gs| && ConcatReady(gs) =>
      Combined(gs[j].key, gs[j].category, gs[j].exportDir, Concat(gs[j].members)))
  }

  lemma GroupsReady(es: seq<Entry<Table>>)
    requires forall i :: 0 <= i < |es| ==> WellFormed(es[i].item)
    ensures ConcatReady(GroupAll(es))
  {
    GroupAllMembers(es, (t: Table) => WellFormed(t));
  }

  /** `concatenate_monthly_dataframes`: group by month tag and concatenate every frame of a month. */
  function PandasConcatMonthly(cleanDir: string, fs: seq<Frame<seq<string>>>): (r: seq<Combined>)
    requires forall i :: 0 <= i < |fs| ==> WellFormed(fs[i].table)
    ensures var gs := GroupAll(PandasMonthEntries(cleanDir, fs));
      && ConcatReady(gs)
      && r == ConcatGroups(gs)
  {
    var es := PandasMonthEntries(cleanDir, fs);
    GroupsReady(es);
    ConcatGroups(GroupAll(es))
  }

  function PandasCategoryEntries(cleanDir: string, ms: seq<Combined>): (es: seq<Entry<Table>>)
    ensures |es| == |ms|
    ensures forall i :: 0 <= i < |ms| ==>
      es[i] == Entry(ms[i].category, ms[i].category, PathJoin(cleanDir, "concatenated_dataframes"), ms[i].table)
  {
    seq(|ms|, i requires 0 <= i < |ms| =>
      Entry(ms[i].category, ms[i].category, PathJoin(cleanDir, "concatenated_dataframes"), ms[i].table))
  }

  /** `concatenate_category_dataframes`: group the monthly frames by category and concatenate each group. */
  function PandasConcatCategory(cleanDir: string, ms: seq<Combined>): (r: seq<Combined>)
    requires forall i :: 0 <= i < |ms| ==> WellFormed(ms[i].table)
    ensures var gs := GroupAll(PandasCategoryEntries(cleanDir, ms));
      && ConcatReady(gs)
      && r == ConcatGroups(gs)
  {
    var es := PandasCategoryEntries(cleanDir, ms);
    GroupsReady(es);
    ConcatGroups(GroupAll(es))
  }

  // ---------------------------------------------------------------------
  // Row conservation
  // ---------------------------------------------------------------------

  function RowCount(t: Table): nat { |t.rows| }

  lemma {:induction false} TotalRowsLast(ts: seq<Table>)
    requires |ts| > 0
    ensures TotalRows(ts) == TotalRows(ts[..|ts| - 1]) + |ts[|ts| - 1].rows|
    decreases |ts|
  {
    if |ts| > 1 {
      assert ts[1..][..|ts| - 2] == ts[..|ts| - 1][1..];
      TotalRowsLast(ts[1..]);
    }
  }

  lemma {:induction false} TotalRowsWeight(ts: seq<Table>)
    ensures TotalRows(ts) == Weight(ts, RowCount)
    decreases |ts|
  {
    if |ts| > 0 {
      TotalRowsLast(ts);
      TotalRowsWeight(ts[..|ts| - 1]);
    }
  }

  /** Tables holding as many rows as the groups they stand for hold as many rows as the groups. */
  lemma {:induction false} RowsMatchGroups(ts: seq<Table>, gs: seq<Group<Table>>)
    requires |ts| == |gs|
    requires forall j :: 0 <= j < |gs| ==> |ts[j].rows| == TotalRows(gs[j].members)
    ensures TotalRows(ts) == GroupsWeight(gs, RowCount)
    decreases |gs|
  {
    if |gs| > 0 {
      var n := |gs| - 1;
      RowsMatchGroups(ts[..n], gs[..n]);
      TotalRowsLast(ts);
      TotalRowsWeight(gs[n].members);
    }
  }

  /** Tables standing one for each group of `es` hold all of `es`' rows. */
  lemma GroupedRows(es: seq<Entry<Table>>, ts: seq<Table>)
    requires |ts| == |GroupAll(es)|
    requires forall j :: 0 <= j < |ts| ==> |ts[j].rows| == TotalRows(GroupAll(es)[j].members)
    ensures TotalRows(ts) == TotalRows(Items(es))
  {
    RowsMatchGroups(ts, GroupAll(es));
    GroupAllConserves(es, RowCount);
    TotalRowsWeight(Items(es));
  }

  /** The tables of a list of frames, in order. */
  function FrameTables(fs: seq<Frame<seq<string>>>): seq<Table>
  {
    TablesBy(fs, (f: Frame<seq<string>>) => f.table)
  }

  /** pandas' monthly concatenation loses and duplicates no row. */
  lemma PandasMonthlyConserves(cleanDir: string, fs: seq<Frame<seq<string>>>)
    requires forall i :: 0 <= i < |fs| ==> WellFormed(fs[i].table)
    ensures TotalRows(TablesOf(PandasConcatMonthly(cleanDir, fs))) == TotalRows(FrameTables(fs))
  {
    var es := PandasMonthEntries(cleanDir, fs);
    GroupedRows(es, TablesOf(PandasConcatMonthly(cleanDir, fs)));
    assert Items(es) == FrameTables(fs);
  }

  /** pandas' category concatenation loses and duplicates no row. */
  lemma PandasCategoryConserves(cleanDir: string, ms: seq<Combined>)
    requires forall i :: 0 <= i < |ms| ==> WellFormed(ms[i].table)
    ensures TotalRows(TablesOf(PandasConcatCategory(cleanDir, ms))) == TotalRows(TablesOf(ms))
  {
    var es := PandasCategoryEntries(cleanDir, ms);
    GroupedRows(es, TablesOf(PandasConcatCategory(cleanDir, ms)));
    assert Items(es) == TablesOf(ms);
  }

  /** DuckDB's category union, when it succeeds, loses and duplicates no row of the monthly tables. */
  lemma DuckCategoryConserves(ms: seq<Combined>)
    requires DuckConcatCategory(ms).Success?
    ensures TotalRows(TablesOf(DuckConcatCategory(ms).value)) == TotalRows(TablesOf(ms))
  {
    var es := DuckCategoryEntries(ms);
    GroupedRows(es, TablesOf(DuckConcatCategory(ms).value));
    assert Items(es) == TablesOf(ms);
  }

  // ---------------------------------------------------------------------
  // export_tables and export_dataframes
  // ---------------------------------------------------------------------

  /**
   * DuckDB's `export_tables`: each table is copied to a file directly
   * inside its export directory, named `{export_type}_{name}.csv`.
   */
  function DuckExportTables(cs: seq<Combined>, exportType: string): (r: seq<Export>)
    ensures |r| == |cs|
    ensures forall k :: 0 <= k < |cs| ==> r[k].table == cs[k].table && StartsWith(r[k].path, cs[k].exportDir + "/")
    ensures forall k :: 0 <= k < |cs| && '/' !in exportType && '/' !in cs[k].name ==>
      BaseName(r[k].path) == exportType + "_" + cs[k].name + ".csv"
  {
    forall k | 0 <= k < |cs| {
      ExportFileNamed(cs[k].exportDir, exportType, cs[k].name);
    }
    seq(|cs|, k requires 0 <= k < |cs| => Export(cs[k].exportDir + "/" + exportType + "_" + cs[k].name + ".csv", cs[k].table))
  }

  /**
   * pandas' `export_dataframes`: each frame is written inside its export
   * directory to a file named `{file_prefix}_{category}.csv`.
   */
  function PandasExportDataframes(cs: seq<Combined>, prefix: string): (r: seq<Export>)
    ensures |r| == |cs|
    ensures forall k :: 0 <= k < |cs| ==> r[k].table == cs[k].table
    ensures forall k :: 0 <= k < |cs| && (|prefix| == 0 || prefix[0] != '/') ==> StartsWith(r[k].path, cs[k].exportDir)
    ensures forall k :: 0 <= k < |cs| && '/' !in prefix && '/' !in cs[k].category ==>
      BaseName(r[k].path) == prefix + "_" + cs[k].category + ".csv"
  {
    forall k | 0 <= k < |cs| {
      ExportFileNamed(cs[k].exportDir, prefix, cs[k].category);
    }
    seq(|cs|, k requires 0 <= k < |cs| => Export(PathJoin(cs[k].exportDir, prefix + "_" + cs[k].category + ".csv"), cs[k].table))
  }

  /** Both exports write `{tag}_{name}.csv` into the directory, by string concatenation or by `os.path.join`. */
  lemma ExportFileNamed(dir: string, tag: string, name: string)
    ensures '/' !in tag && '/' !in name ==> BaseName(dir + "/" + tag + "_" + name + ".csv") == tag + "_" + name + ".csv"
    ensures '/' !in tag && '/' !in name ==> BaseName(PathJoin(dir, tag + "_" + name + ".csv")) == tag + "_" + name + ".csv"
    ensures (|tag| == 0 || tag[0] != '/') ==> StartsWith(PathJoin(dir, tag + "_" + name + ".csv"), dir)
  {
    var file := tag + "_" + name + ".csv";
    if |tag| == 0 {
      assert file[0] == '_';
    } else {
      assert file[0] == tag[0];
    }
    if '/' !in tag && '/' !in name {
      assert '/' !in file;
      assert dir + "/" + tag + "_" + name + ".csv" == dir + "/" + file;
      BaseNameUnder(dir, file);
      BaseNameOfJoin(dir, file);
    }
  }

  /** A pandas category group is named after its category and lives in the concatenated directory. */
  lemma CategoryGroupNamed(cleanDir: string, ms: seq<Combined>, j: nat)
    requires forall i :: 0 <= i < |ms| ==> WellFormed(ms[i].table)
    requires j < |PandasConcatCategory(cleanDir, ms)|
    ensures PandasConcatCategory(cleanDir, ms)[j].category == PandasConcatCategory(cleanDir, ms)[j].name
    ensures PandasConcatCategory(cleanDir, ms)[j].exportDir == PathJoin(cleanDir, "concatenated_dataframes")
  {
    var es := PandasCategoryEntries(cleanDir, ms);
    var gs := GroupAll(es);
    assert gs[j].key in Keys(es);
    var idx := IndexOf(Keys(es), gs[j].key).value;
    assert FirstWith(es, gs[j].key) == es[idx];
    assert es[idx].category == es[idx].key;
  }

  /** Export names built from different categories give different paths in one directory. */
  lemma ExportNamesDiffer(dir: string, prefix: string, c: string, c': string)
    requires |prefix| > 0 && prefix[0] != '/'
    requires c != c'
    ensures PathJoin(dir, prefix + "_" + c + ".csv") != PathJoin(dir, prefix + "_" + c' + ".csv")
  {
    var x := if |dir| == 0 || dir[|dir| - 1] == '/' then dir else dir + "/";
    var u := prefix + "_";
    PathJoinRelative(dir, u + c + ".csv");
    PathJoinRelative(dir, u + c' + ".csv");
    Regroup(x, u, c, ".csv");
    Regroup(x, u, c', ".csv");
    MiddleDiffers(x + u, c, c', ".csv");
  }

  lemma PathJoinRelative(dir: string, b: string)
    requires |b| > 0 && b[0] != '/'
    ensures PathJoin(dir, b) == (if |dir| == 0 || dir[|dir| - 1] == '/' then dir else dir + "/") + b
  {
  }

  lemma MiddleDiffers(p: string, c: string, c': string, q: string)
    requires c != c'
    ensures p + c + q != p + c' + q
  {
    if |c| == |c'| {
      var k :| 0 <= k < |c| && c[k] != c'[k];
      assert (p + c + q)[|p| + k] == c[k];
      assert (p + c' + q)[|p| + k] == c'[k];
    } else {
      assert |p + c + q| != |p + c' + q|;
    }
  }

  /** The "all_extractions" files of pandas' categories never overwrite one another. */
  lemma PandasCategoryExportsDistinct(cleanDir: string, ms: seq<Combined>, prefix: string, k: nat, k': nat)
    requires forall i :: 0 <= i < |ms| ==> WellFormed(ms[i].table)
    requires |prefix| > 0 && prefix[0] != '/'
    requires k < k' < |PandasConcatCategory(cleanDir, ms)|
    ensures PandasExportDataframes(PandasConcatCategory(cleanDir, ms), prefix)[k].path
         != PandasExportDataframes(PandasConcatCategory(cleanDir, ms), prefix)[k'].path
  {
    var cs := PandasConcatCategory(cleanDir, ms);
    CategoryGroupNamed(cleanDir, ms, k);
    CategoryGroupNamed(cleanDir, ms, k');
    ExportNamesDiffer(PathJoin(cleanDir, "concatenated_dataframes"), prefix, cs[k].category, cs[k'].category);
  }
}

=== FILE: calendar.dfy ===
/**
 * Proleptic Gregorian calendar arithmetic: the leap-year rule, month lengths
 * (Python's `calendar.monthrange(y, m)[1]`) and a day count that makes
 * DuckDB's `date - 2` an integer subtraction.
 */
module Calendar {

  /** A calendar date as the pipelines carry it: year, month 1..12, day. */
  datatype Date = Date(year: int, month: int, day: int)

  predicate IsLeapYear(y: int) {
    y % 4 == 0 && (y % 100 != 0 || y % 400 == 0)
  }

  /** Number of days of month `m` in year `y`. */
  function DaysInMonth(y: int, m: int): (n: int)
    requires 1 <= m <= 12
    ensures 28 <= n <= 31
    ensures m == 2 ==> (n == 29 <==> IsLeapYear(y))
    ensures m != 2 ==> (n == 31 <==> m in {1, 3, 5, 7, 8, 10, 12})
  {
    if m == 2 then (if IsLeapYear(y) then 29 else 28)
    else if m in {4, 6, 9, 11} then 30
    else 31
  }

  predicate ValidDate(d: Date) {
    1 <= d.month <= 12 && 1 <= d.day <= DaysInMonth(d.year, d.month)
  }

  /** The day after a valid date. */
  function NextDay(d: Date): (e: Date)
    requires ValidDate(d)
    ensures ValidDate(e)
  {
    if d.day < DaysInMonth(d.year, d.month) then Date(d.year, d.month, d.day + 1)
    else if d.month < 12 then Date(d.year, d.month + 1, 1)
    else Date(d.year + 1, 1, 1)
  }

  /** Days since 1970-01-01 (negative before it); the count DuckDB's DATE arithmetic uses. */
  function DayNumber(d: Date): int
    requires 1 <= d.month <= 12
  {
    var y := if d.month <= 2 then d.year - 1 else d.year;
    var era := y / 400;
    var yoe := y - era * 400;
    var mp := if d.month > 2 then d.month - 3 else d.month + 9;
    var doy := (153 * mp + 2) / 5 + d.day - 1;
    var doe := yoe * 365 + yoe / 4 - yoe / 100 + doy;
    era * 146097 + doe - 719468
  }

  /** Consecutive calendar days have consecutive day numbers. */
  lemma DayNumberNextDay(d: Date)
    requires ValidDate(d)
    ensures DayNumber(NextDay(d)) == DayNumber(d) + 1
  {
    if d.day == DaysInMonth(d.year, d.month) && d.month == 2 {
      LeapShift(d.year);
    }
  }

  /** Crossing from the last day of February to March 1st, the step the shifted year hides. */
  lemma LeapShift(year: int)
    ensures DayNumber(Date(year, 3, 1)) == DayNumber(Date(year, 2, DaysInMonth(year, 2))) + 1
  {
    var y := year - 1;
    var era := y / 400;
    var yoe := y % 400;
    assert y == era * 400 + yoe;
    var feb := DaysInMonth(year, 2);
    assert DayNumber(Date(year, 2, feb)) == era * 146097 + yoe * 365 + yoe / 4 - yoe / 100 + 336 + feb - 719468;
    if yoe < 399 {
      assert year == era * 400 + (yoe + 1);
      assert year / 400 == era && year % 400 == yoe + 1;
      assert DayNumber(Date(year, 3, 1)) == era * 146097 + (yoe + 1) * 365 + (yoe + 1) / 4 - (yoe + 1) / 100 - 719468;
      YearOfEraStep(yoe);
      ModOfEraOffset(era, yoe + 1);
    } else {
      assert year == (era + 1) * 400;
      assert year / 400 == era + 1 && year % 400 == 0;
      ModOfEraOffset(era + 1, 0);
    }
  }

  lemma ModOfEraOffset(era: int, k: int)
    ensures (era * 400 + k) % 4 == k % 4
    ensures (era * 400 + k) % 100 == k % 100
  {
    assert era * 400 + k == (era * 100) * 4 + k;
    assert era * 400 + k == (era * 4) * 100 + k;
  }

  /** Day count of one more year within a 400-year era. */
  lemma YearOfEraStep(yoe: int)
    requires 0 <= yoe < 399
    ensures (yoe + 1) * 365 + (yoe + 1) / 4 - (yoe + 1) / 100
         == yoe * 365 + yoe / 4 - yoe / 100 + 365 + (if (yoe + 1) % 4 == 0 && (yoe + 1) % 100 != 0 then 1 else 0)
  {
  }
}

=== FILE: catalog.dfy ===
/**
 * The fixed schema catalog shared by both pipelines: which sheets a workbook
 * of each category holds, and the ordered column list of every sheet kind.
 * Both pipelines keep their own copy of the column lists (DuckDB with SQL
 * types, pandas as bare names plus a separate list of date columns); here
 * every column name is spelled once and both copies refer to it.
 *
 * A sheet's `dataframe_name` only ever comes from the category table, so the
 * model types it as a `SheetKind`; `KindName` gives the string the pipelines
 * build table names, file names and grouping keys from.
 */
module Catalog {

  /** The four workbook categories a raw file name can be classified into. */
  datatype Category = Competitor | Content | Followers | Visitors

  /** The 15 sheet kinds (logical tables). */
  datatype SheetKind =
    | CompetitorSheet
    | ContentMetrics
    | ContentPosts
    | FollowersNew
    | FollowersLocation
    | FollowersFunction
    | FollowersExperience
    | FollowersIndustry
    | FollowersCompanySize
    | VisitorsMetrics
    | VisitorsLocation
    | VisitorsFunction
    | VisitorsExperience
    | VisitorsIndustry
    | VisitorsCompanySize

  /** The `dataframe_name` string of a sheet kind; it starts with a lower-case letter. */
  function KindName(k: SheetKind): (r: string)
    ensures |r| > 0 && 'a' <= r[0] <= 'z'
  {
    match k
    case CompetitorSheet => "competitor"
    case ContentMetrics => "content_metrics"
    case ContentPosts => "content_posts"
    case FollowersNew => "followers_new"
    case FollowersLocation => "followers_location"
    case FollowersFunction => "followers_function"
    case FollowersExperience => "followers_experience"
    case FollowersIndustry => "followers_industry"
    case FollowersCompanySize => "followers_company_size"
    case VisitorsMetrics => "visitors_metrics"
    case VisitorsLocation => "visitors_location"
    case VisitorsFunction => "visitors_function"
    case VisitorsExperience => "visitors_experience"
    case VisitorsIndustry => "visitors_industry"
    case VisitorsCompanySize => "visitors_company_size"
  }

  /** One sheet to read from a workbook: the sheet kind it holds, its position, header rows to skip. */
  datatype SheetSpec = SheetSpec(kind: SheetKind, pos: nat, skipRows: nat)

  /** The `category_keys` table (identical in both pipelines). */
  function CategoryKeys(c: Category): seq<SheetSpec>
  {
    match c
    case Competitor => [SheetSpec(CompetitorSheet, 0, 1)]
    case Content => [SheetSpec(ContentMetrics, 0, 1), SheetSpec(ContentPosts, 1, 1)]
    case Followers => [
      SheetSpec(FollowersNew, 0, 0),
      SheetSpec(FollowersLocation, 1, 0),
      SheetSpec(FollowersFunction, 2, 0),
      SheetSpec(FollowersExperience, 3, 0),
      SheetSpec(FollowersIndustry, 4, 0),
      SheetSpec(FollowersCompanySize, 5, 0)
    ]
    case Visitors => [
      SheetSpec(VisitorsMetrics, 0, 0),
      SheetSpec(VisitorsLocation, 1, 0),
      SheetSpec(VisitorsFunction, 2, 0),
      SheetSpec(VisitorsExperience, 3, 0),
      SheetSpec(VisitorsIndustry, 4, 0),
      SheetSpec(VisitorsCompanySize, 5, 0)
    ]
  }

  /** The column types the DuckDB pipeline declares. */
  datatype SqlType = SqlDate | SqlInt | SqlDouble | SqlFloat | SqlVarchar

  datatype ColumnDef = ColumnDef(name: string, sqlType: SqlType)

  // Column names, each spelled once; both catalogs below refer to them.
  const DateColumn: string := "Date"
  const ImpressionsOrganic: string := "Impressions (organic)"
  const ImpressionsSponsored: string := "Impressions (sponsored)"
  const ImpressionsTotal: string := "Impressions (total)"
  const UniqueImpressionsOrganic: string := "Unique impressions (organic)"
  const ClicksOrganic: string := "Clicks (organic)"
  const ClicksSponsored: string := "Clicks (sponsored)"
  const ClicksTotal: string := "Clicks (total)"
  const ReactionsOrganic: string := "Reactions (organic)"
  const ReactionsSponsored: string := "Reactions (sponsored)"
  const ReactionsTotal: string := "Reactions (total)"
  const CommentsOrganic: string := "Comments (organic)"
  const CommentsSponsored: string := "Comments (sponsored)"
  const CommentsTotal: string := "Comments (total)"
  const SharesOrganic: string := "Shares (organic)"
  const SharesSponsored: string := "Shares (sponsored)"
  const SharesTotal: string := "Shares (total)"
  const EngagementRateOrganic: string := "Engagement rate (organic)"
  const EngagementRateSponsored: string := "Engagement rate (sponsored)"
  const EngagementRateTotal: string := "Engagement rate (total)"
  const PostTitle: string := "Post Title"
  const PostLink: string := "Post Link"
  const PostType: string := "Post Type"
  const CampaignName: string := "Campaign Name"
  const PublishedBy: string := "Published by"
  const CampaignStartDate: string := "Campaign Start Date"
  const CampaignEndDate: string := "Campaign End Date"
  const Audience: string := "Audience"
  const Impressions: string := "Impressions"
  const ViewsExcludingOffSiteVideoViews: string := "Views (excluding off-site video views)"
  const OffSiteViews: string := "Off-site Views"
  const Clicks: string := "Clicks"
  const ClickThroughRateCTR: string := "Click-Through Rate (CTR)"
  const Likes: string := "Likes"
  const Comments: string := "Comments"
  const Shares: string := "Shares"
  const FollowersColumn: string := "Followers"
  const EngagementRate: string := "Engagement Rate"
  const ContentType: string := "Content Type"
  const FollowersSponsored: string := "Followers Sponsored"
  const FollowersOrganic: string := "Followers Organic"
  const TotalFollowers: string := "Total Followers"
  const Location: string := "Location"
  const Function: string := "Function"
  const ExperienceLevel: string := "Experience Level"
  const Industry: string := "Industry"
  const CompanySize: string := "Company Size"
  const PageViewsOverviewDesktop: string := "Page Views Overview (Desktop)"
  const PageViewsOverviewMobileDevices: string := "Page Views Overview (Mobile Devices)"
  const PageViewsOverviewTotal: string := "Page Views Overview (Total)"
  const UniqueVisitorsOverviewDesktop: string := "Unique Visitors Overview (Desktop)"
  const UniqueVisitorsOverviewMobileDevices: string := "Unique Visitors Overview (Mobile Devices)"
  const UniqueVisitorsOverviewTotal: string := "Unique Visitors Overview (Total)"
  const PageViewsDayByDayDesktop: string := "Page Views Day by Day (Desktop)"
  const PageViewsDayByDayMobileDevices: string := "Page Views Day by Day (Mobile Devices)"
  const PageViewsDayByDayTotal: string := "Page Views Day by Day (Total)"
  const UniqueVisitorsDayByDayDesktop: string := "Unique Visitors Day by Day (Desktop)"
  const UniqueVisitorsDayByDayMobileDevices: string := "Unique Visitors Day by Day (Mobile Devices)"
  const UniqueVisitorsDayByDayTotal: string := "Unique Visitors Day by Day (Total)"
  const PageViewsJobsDesktop: string := "Page Views Jobs (Desktop)"
  const PageViewsJobsMobileDevices: string := "Page Views Jobs (Mobile Devices)"
  const PageViewsJobsTotal: string := "Page Views Jobs (Total)"
  const UniqueVisitorsJobsDesktop: string := "Unique Visitors Jobs (Desktop)"
  const UniqueVisitorsJobsMobileDevices: string := "Unique Visitors Jobs (Mobile Devices)"
  const UniqueVisitorsJobsTotal: string := "Unique Visitors Jobs (Total)"
  const TotalPageViewsDesktop: string := "Total Page Views (Desktop)"
  const TotalPageViewsMobileDevices: string := "Total Page Views (Mobile Devices)"
  const TotalPageViewsTotal: string := "Total Page Views (Total)"
  const TotalUniqueVisitorsDesktop: string := "Total Unique Visitors (Desktop)"
  const TotalUniqueVisitorsMobileDevices: string := "Total Unique Visitors (Mobile Devices)"
  const TotalUniqueVisitorsTotal: string := "Total Unique Visitors (Total)"
  const TotalViews: string := "Total Views"
  const Page: string := "Page"
  const NewFollowers: string := "New Followers"
  const TotalPostEngagements: string := "Total Post Engagements"
  const TotalPosts: string := "Total Posts"

  // Columns the pipelines add: the period's end date, and the engagement
  // rate pandas recomputes (capital R, unlike the sheet's own column).
  const ExtractionRange: string := "Extraction Range"
  const RecomputedEngagementRate: string := "Engagement Rate (total)"

  /** DuckDB's `table_attributes`: the ordered, typed column list of a sheet kind. */
  function TableAttributes(k: SheetKind): seq<ColumnDef>
  {
    match k
    case ContentMetrics => [
        ColumnDef(DateColumn, SqlDate),
        ColumnDef(ImpressionsOrganic, SqlInt),
        ColumnDef(ImpressionsSponsored, SqlInt),
        ColumnDef(ImpressionsTotal, SqlInt),
        ColumnDef(UniqueImpressionsOrganic, SqlInt),
        ColumnDef(ClicksOrganic, SqlInt),
        ColumnDef(ClicksSponsored, SqlInt),
        ColumnDef(ClicksTotal, SqlInt),
        ColumnDef(ReactionsOrganic, SqlInt),
        ColumnDef(ReactionsSponsored, SqlInt),
        ColumnDef(ReactionsTotal, SqlInt),
        ColumnDef(CommentsOrganic, SqlInt),
        ColumnDef(CommentsSponsored, SqlInt),
        ColumnDef(CommentsTotal, SqlInt),
        ColumnDef(SharesOrganic, SqlInt),
        ColumnDef(SharesSponsored, SqlInt),
        ColumnDef(SharesTotal, SqlInt),
        ColumnDef(EngagementRateOrganic, SqlDouble),
        ColumnDef(EngagementRateSponsored, SqlDouble),
        ColumnDef(EngagementRateTotal, SqlDouble)
      ]
    case ContentPosts => [
        ColumnDef(PostTitle, SqlVarchar),
        ColumnDef(PostLink, SqlVarchar),
        ColumnDef(PostType, SqlVarchar),
        ColumnDef(CampaignName, SqlVarchar),
        ColumnDef(PublishedBy, SqlVarchar),
        ColumnDef(DateColumn, SqlDate),
        ColumnDef(CampaignStartDate, SqlDate),
        ColumnDef(CampaignEndDate, SqlDate),
        ColumnDef(Audience, SqlVarchar),
        ColumnDef(Impressions, SqlInt),
        ColumnDef(ViewsExcludingOffSiteVideoViews, SqlInt),
        ColumnDef(OffSiteViews, SqlInt),
        ColumnDef(Clicks, SqlInt),
        ColumnDef(ClickThroughRateCTR, SqlFloat),
        ColumnDef(Likes, SqlInt),
        ColumnDef(Comments, SqlInt),
        ColumnDef(Shares, SqlInt),
        ColumnDef(FollowersColumn, SqlInt),
        ColumnDef(EngagementRate, SqlFloat),
        ColumnDef(ContentType, SqlVarchar)
      ]
    case FollowersNew => [
        ColumnDef(DateColumn, SqlDate),
        ColumnDef(FollowersSponsored, SqlInt),
        ColumnDef(FollowersOrganic, SqlInt),
        ColumnDef(TotalFollowers, SqlInt)
      ]
    case FollowersLocation => [ColumnDef(Location, SqlVarchar), ColumnDef(TotalFollowers, SqlInt)]
    case FollowersFunction => [ColumnDef(Function, SqlVarchar), ColumnDef(TotalFollowers, SqlInt)]
    case FollowersExperience => [ColumnDef(ExperienceLevel, SqlVarchar), ColumnDef(TotalFollowers, SqlInt)]
    case FollowersIndustry => [ColumnDef(Industry, SqlVarchar), ColumnDef(TotalFollowers, SqlInt)]
    case FollowersCompanySize => [ColumnDef(CompanySize, SqlVarchar), ColumnDef(TotalFollowers, SqlInt)]
    case VisitorsMetrics => [
        ColumnDef(DateColumn, SqlDate),
        ColumnDef(PageViewsOverviewDesktop, SqlInt),
        ColumnDef(PageViewsOverviewMobileDevices, SqlInt),
        ColumnDef(PageViewsOverviewTotal, SqlInt),
        ColumnDef(UniqueVisitorsOverviewDesktop, SqlInt),
        ColumnDef(UniqueVisitorsOverviewMobileDevices, SqlInt),
        ColumnDef(UniqueVisitorsOverviewTotal, SqlInt),
        ColumnDef(PageViewsDayByDayDesktop, SqlInt),
        ColumnDef(PageViewsDayByDayMobileDevices, SqlInt),
        ColumnDef(PageViewsDayByDayTotal, SqlInt),
        ColumnDef(UniqueVisitorsDayByDayDesktop, SqlInt),
        ColumnDef(UniqueVisitorsDayByDayMobileDevices, SqlInt),
        ColumnDef(UniqueVisitorsDayByDayTotal, SqlInt),
        ColumnDef(PageViewsJobsDesktop, SqlInt),
        ColumnDef(PageViewsJobsMobileDevices, SqlInt),
        ColumnDef(PageViewsJobsTotal, SqlInt),
        ColumnDef(UniqueVisitorsJobsDesktop, SqlInt),
        ColumnDef(UniqueVisitorsJobsMobileDevices, SqlInt),
        ColumnDef(UniqueVisitorsJobsTotal, SqlInt),
        ColumnDef(TotalPageViewsDesktop, SqlInt),
        ColumnDef(TotalPageViewsMobileDevices, SqlInt),
        ColumnDef(TotalPageViewsTotal, SqlInt),
        ColumnDef(TotalUniqueVisitorsDesktop, SqlInt),
        ColumnDef(TotalUniqueVisitorsMobileDevices, SqlInt),
        ColumnDef(TotalUniqueVisitorsTotal, SqlInt)
      ]
    case VisitorsLocation => [ColumnDef(Location, SqlVarchar), ColumnDef(TotalViews, SqlInt)]
    case VisitorsFunction => [ColumnDef(Function, SqlVarchar), ColumnDef(TotalViews, SqlInt)]
    case VisitorsExperience => [ColumnDef(ExperienceLevel, SqlVarchar), ColumnDef(TotalViews, SqlInt)]
    case VisitorsIndustry => [ColumnDef(Industry, SqlVarchar), ColumnDef(TotalViews, SqlInt)]
    case VisitorsCompanySize => [ColumnDef(CompanySize, SqlVarchar), ColumnDef(TotalViews, SqlInt)]
    case CompetitorSheet => [
        ColumnDef(Page, SqlVarchar),
        ColumnDef(TotalFollowers, SqlInt),
        ColumnDef(NewFollowers, SqlInt),
        ColumnDef(TotalPostEngagements, SqlFloat),
        ColumnDef(TotalPosts, SqlInt)
      ]
  }

  /** pandas' `translated_columns`: the ordered column names of a sheet kind. */
  function TranslatedColumns(k: SheetKind): seq<string>
  {
    match k
    case ContentMetrics => [
        DateColumn,
        ImpressionsOrganic,
        ImpressionsSponsored,
        ImpressionsTotal,
        UniqueImpressionsOrganic,
        ClicksOrganic,
        ClicksSponsored,
        ClicksTotal,
        ReactionsOrganic,
        ReactionsSponsored,
        ReactionsTotal,
        CommentsOrganic,
        CommentsSponsored,
        CommentsTotal,
        SharesOrganic,
        SharesSponsored,
        SharesTotal,
        EngagementRateOrganic,
        EngagementRateSponsored,
        EngagementRateTotal
      ]
    case ContentPosts => [
        PostTitle,
        PostLink,
        PostType,
        CampaignName,
        PublishedBy,
        DateColumn,
        CampaignStartDate,
        CampaignEndDate,
        Audience,
        Impressions,
        ViewsExcludingOffSiteVideoViews,
        OffSiteViews,
        Clicks,
        ClickThroughRateCTR,
        Likes,
        Comments,
        Shares,
        FollowersColumn,
        EngagementRate,
        ContentType
      ]
    case FollowersNew => [
        DateColumn,
        FollowersSponsored,
        FollowersOrganic,
        TotalFollowers
      ]
    case FollowersLocation => [Location, TotalFollowers]
    case FollowersFunction => [Function, TotalFollowers]
    case FollowersExperience => [ExperienceLevel, TotalFollowers]
    case FollowersIndustry => [Industry, TotalFollowers]
    case FollowersCompanySize => [CompanySize, TotalFollowers]
    case VisitorsMetrics => [
        DateColumn,
        PageViewsOverviewDesktop,
        PageViewsOverviewMobileDevices,
        PageViewsOverviewTotal,
        UniqueVisitorsOverviewDesktop,
        UniqueVisitorsOverviewMobileDevices,
        UniqueVisitorsOverviewTotal,
        PageViewsDayByDayDesktop,
        PageViewsDayByDayMobileDevices,
        PageViewsDayByDayTotal,
        UniqueVisitorsDayByDayDesktop,
        UniqueVisitorsDayByDayMobileDevices,
        UniqueVisitorsDayByDayTotal,
        PageViewsJobsDesktop,
        PageViewsJobsMobileDevices,
        PageViewsJobsTotal,
        UniqueVisitorsJobsDesktop,
        UniqueVisitorsJobsMobileDevices,
        UniqueVisitorsJobsTotal,
        TotalPageViewsDesktop,
        TotalPageViewsMobileDevices,
        TotalPageViewsTotal,
        TotalUniqueVisitorsDesktop,
        TotalUniqueVisitorsMobileDevices,
        TotalUniqueVisitorsTotal
      ]
    case VisitorsLocation => [Location, TotalViews]
    case VisitorsFunction => [Function, TotalViews]
    case VisitorsExperience => [ExperienceLevel, TotalViews]
    case VisitorsIndustry => [Industry, TotalViews]
    case VisitorsCompanySize => [CompanySize, TotalViews]
    case CompetitorSheet => [
        Page,
        TotalFollowers,
        NewFollowers,
        TotalPostEngagements,
        TotalPosts
      ]
  }

  /** pandas' `date_columns.get(name, [])` in `convert_column_types`. */
  function PandasDateColumns(k: SheetKind): seq<string>
  {
    match k
    case ContentMetrics => [DateColumn]
    case ContentPosts => [DateColumn, CampaignStartDate, CampaignEndDate]
    case FollowersNew => [DateColumn]
    case VisitorsMetrics => [DateColumn]
    case _ => []
  }

  /** Every sheet of every category, category by category. */
  function AllSheets(): seq<SheetSpec> {
    CategoryKeys(Competitor) + CategoryKeys(Content) + CategoryKeys(Followers) + CategoryKeys(Visitors)
  }

  function ColumnNames(defs: seq<ColumnDef>): (names: seq<string>)
    ensures |names| == |defs|
    ensures forall i :: 0 <= i < |defs| ==> names[i] == defs[i].name
  {
    seq(|defs|, i requires 0 <= i < |defs| => defs[i].name)
  }

  /** How many sheets a workbook of each category holds. */
  function SheetCount(c: Category): nat {
    match c
    case Competitor => 1
    case Content => 2
    case Followers => 6
    case Visitors => 6
  }

  /** How many columns each sheet kind has. */
  function ExpectedWidth(k: SheetKind): nat {
    match k
    case ContentMetrics => 20
    case ContentPosts => 20
    case FollowersNew => 4
    case VisitorsMetrics => 25
    case CompetitorSheet => 5
    case _ => 2
  }

  /** Sheets of a category sit at consecutive positions 0..k-1; competitor and content skip one header row. */
  lemma CategorySheetsWellFormed(c: Category)
    ensures |CategoryKeys(c)| == SheetCount(c)
    ensures forall i :: 0 <= i < |CategoryKeys(c)| ==>
      && CategoryKeys(c)[i].pos == i
      && CategoryKeys(c)[i].skipRows == (if c == Competitor || c == Content then 1 else 0)
  {
  }

  /** Every sheet kind is read from the workbooks of exactly one category, at one position. */
  lemma EveryKindReadOnce(k: SheetKind)
    ensures |AllSheets()| == 15
    ensures forall i, j :: 0 <= i < j < |AllSheets()| ==> AllSheets()[i].kind != AllSheets()[j].kind
    ensures forall c, i :: 0 <= i < |CategoryKeys(c)| && CategoryKeys(c)[i].kind == k ==> c == CategoryOf(k)
  {
  }

  /** Column counts per sheet kind, in both pipelines. */
  lemma ColumnCounts(k: SheetKind)
    ensures |TableAttributes(k)| == ExpectedWidth(k)
    ensures |TranslatedColumns(k)| == ExpectedWidth(k)
  {
  }

  /** The date columns pandas converts are among the translated names of their sheet. */
  lemma DateColumnsTranslated(k: SheetKind)
    ensures forall n :: n in PandasDateColumns(k) ==> n in TranslatedColumns(k)
  {
    match k
    case ContentMetrics => assert TranslatedColumns(k)[0] == DateColumn;
    case ContentPosts =>
      assert TranslatedColumns(k)[5] == DateColumn;
      assert TranslatedColumns(k)[6] == CampaignStartDate;
      assert TranslatedColumns(k)[7] == CampaignEndDate;
    case FollowersNew => assert TranslatedColumns(k)[0] == DateColumn;
    case VisitorsMetrics => assert TranslatedColumns(k)[0] == DateColumn;
    case _ =>
  }

  /** No name of `cols` begins "Ext", as "Extraction Range" does. */
  predicate NoExtPrefix(cols: seq<string>) {
    forall i :: 0 <= i < |cols| ==> |cols[i]| < 3 || cols[i][0] != 'E' || cols[i][2] != 't'
  }

  /** No sheet's translated names include "Extraction Range", which is added afterwards. */
  lemma RangeNotTranslated(k: SheetKind)
    ensures ExtractionRange !in TranslatedColumns(k)
  {
    if k == ContentMetrics || k == ContentPosts {
      NoExtInContent();
    } else if k == VisitorsMetrics {
      NoExtInVisitorMetrics();
    } else {
      NoExtInShortSheets(k);
    }
    assert ExtractionRange[0] == 'E' && ExtractionRange[2] == 't';
  }

  lemma NoExtInContent()
    ensures NoExtPrefix(TranslatedColumns(ContentMetrics)) && NoExtPrefix(TranslatedColumns(ContentPosts))
  {
  }

  lemma NoExtInVisitorMetrics()
    ensures NoExtPrefix(TranslatedColumns(VisitorsMetrics))
  {
  }

  lemma NoExtInShortSheets(k: SheetKind)
    requires k != ContentMetrics && k != ContentPosts && k != VisitorsMetrics
    ensures NoExtPrefix(TranslatedColumns(k))
  {
  }

  /** The category whose workbooks hold sheets of kind `k`. */
  function CategoryOf(k: SheetKind): (c: Category)
    ensures exists i :: 0 <= i < |CategoryKeys(c)| && CategoryKeys(c)[i].kind == k
  {
    match k
    case CompetitorSheet => assert CategoryKeys(Competitor)[0].kind == k; Competitor
    case ContentMetrics => assert CategoryKeys(Content)[0].kind == k; Content
    case ContentPosts => assert CategoryKeys(Content)[1].kind == k; Content
    case FollowersNew => assert CategoryKeys(Followers)[0].kind == k; Followers
    case FollowersLocation => assert CategoryKeys(Followers)[1].kind == k; Followers
    case FollowersFunction => assert CategoryKeys(Followers)[2].kind == k; Followers
    case FollowersExperience => assert CategoryKeys(Followers)[3].kind == k; Followers
    case FollowersIndustry => assert CategoryKeys(Followers)[4].kind == k; Followers
    case FollowersCompanySize => assert CategoryKeys(Followers)[5].kind == k; Followers
    case VisitorsMetrics => assert CategoryKeys(Visitors)[0].kind == k; Visitors
    case VisitorsLocation => assert CategoryKeys(Visitors)[1].kind == k; Visitors
    case VisitorsFunction => assert CategoryKeys(Visitors)[2].kind == k; Visitors
    case VisitorsExperience => assert CategoryKeys(Visitors)[3].kind == k; Visitors
    case VisitorsIndustry => assert CategoryKeys(Visitors)[4].kind == k; Visitors
    case VisitorsCompanySize => assert CategoryKeys(Visitors)[5].kind == k; Visitors
  }
}

=== FILE: common.dfy ===
/**
 * Failure-compatible result type and the error conditions the two LinkedIn
 * ETL pipelines raise. Python exceptions (KeyError, ValueError, IndexError,
 * an engine error from DuckDB) become `Failure` values carrying one of the
 * errors below. `IndexOf` is the one sequence search both pipelines need
 * (a dict or column lookup by name).
 */
module Common {

  datatype Option<+T> = None | Some(value: T)

  /** Why a step of the pipeline stops. */
  datatype Error =
    | UnknownCategory(file: string)              // category_keys[0] raises KeyError
    | UnknownTableKind(name: string)             // catalog lookup returns None
    | ColumnCountMismatch(expected: nat, actual: nat) // `df.columns = ...` length mismatch
    | MissingColumn(column: string)              // df[col] / SQL column reference fails
    | InvalidPeriod(period: string)              // map_months_period / month_order_pt KeyError, bad split
    | TypeCoercionError(detail: string)          // STRPTIME / to_datetime / numeric comparison fails
    | IncompleteMonthGroup(key: string)          // grouped_data["tables"][1] raises IndexError
    | SchemaMismatch(detail: string)             // UNION ALL of tables with different widths
    | TableExists(name: string)                  // CREATE TABLE of a name the catalog already holds

  datatype Result<+T> = Success(value: T) | Failure(error: Error) {

    predicate IsFailure() {
      Failure?
    }

    function PropagateFailure<U>(): Result<U>
      requires Failure?
    {
      Failure(error)
    }

    function Extract(): T
      requires Success?
    {
      value
    }
  }

  /** Position of the first occurrence of `x` in `xs`, if any. */
  function IndexOf<T(==)>(xs: seq<T>, x: T): (r: Option<nat>)
    ensures r.Some? ==> r.value < |xs| && xs[r.value] == x
    ensures r.Some? ==> forall j :: 0 <= j < r.value ==> xs[j] != x
    ensures r.None? <==> x !in xs
  {
    if |xs| == 0 then None
    else if xs[0] == x then Some(0)
    else
      match IndexOf(xs[1..], x)
      case None => None
      case Some(j) => Some(j + 1)
  }

  /** `xs[i]` is the first element on which `f` fails. */
  predicate FirstFailure<A, B>(xs: seq<A>, f: A --> Result<B>, i: int)
    requires forall i :: 0 <= i < |xs| ==> f.requires(xs[i])
  {
    && 0 <= i < |xs| && f(xs[i]).Failure?
    && forall j :: 0 <= j < i ==> f(xs[j]).Success?
  }

  /** A first failure after a successful head is a first failure of the whole sequence. */
  lemma FirstFailureLater<A, B>(xs: seq<A>, f: A --> Result<B>, e: Error)
    requires forall i :: 0 <= i < |xs| ==> f.requires(xs[i])
    requires |xs| > 0 && f(xs[0]).Success?
    requires exists k :: FirstFailure(xs[1..], f, k) && f(xs[1..][k]) == Failure(e)
    ensures exists i :: FirstFailure(xs, f, i) && f(xs[i]) == Failure(e)
  {
    var k :| FirstFailure(xs[1..], f, k) && f(xs[1..][k]) == Failure(e);
    assert FirstFailure(xs, f, k + 1);
  }

  /**
   * Applies `f` to every element in order and stops at the first failure,
   * as a Python `for` loop that lets the exception escape does.
   */
  function MapResult<A, B>(xs: seq<A>, f: A --> Result<B>): (r: Result<seq<B>>)
    requires forall i :: 0 <= i < |xs| ==> f.requires(xs[i])
    ensures r.Success? <==> forall i :: 0 <= i < |xs| ==> f(xs[i]).Success?
    ensures r.Success? ==> |r.value| == |xs| && forall i :: 0 <= i < |xs| ==> f(xs[i]) == Success(r.value[i])
    ensures r.Failure? ==> exists i :: FirstFailure(xs, f, i) && f(xs[i]) == Failure(r.error)
    decreases |xs|
  {
    if |xs| == 0 then Success([])
    else if f(xs[0]).Failure? then
      assert FirstFailure(xs, f, 0);
      Failure(f(xs[0]).error)
    else
      var rest := MapResult(xs[1..], f);
      assert forall i :: 1 <= i < |xs| ==> xs[1..][i - 1] == xs[i];
      if rest.Failure? then
        FirstFailureLater(xs, f, rest.error);
        Failure(rest.error)
      else Success([f(xs[0]).value] + rest.value)
  }

  /** No two elements share a key. */
  predicate KeysDistinct<A, K(==)>(xs: seq<A>, key: A -> K) {
    forall i, j :: 0 <= i < j < |xs| ==> key(xs[i]) != key(xs[j])
  }

  /**
   * `MapResult` for a step that also registers each element's key in a shared
   * catalog that starts as `catalog`: once the element has passed `ready` (what
   * `f` checks before it registers), a key the catalog already holds fails with
   * `taken(x)`, and otherwise the key is added and `f` goes on.
   */
  function MapRegister<A, B, K(==)>(xs: seq<A>, f: A --> Result<B>, ready: A -> bool, key: A -> K, taken: A -> Error,
                                    catalog: set<K>): (r: Result<seq<B>>)
    requires forall i :: 0 <= i < |xs| ==> f.requires(xs[i]) && (f(xs[i]).Success? ==> ready(xs[i]))
    ensures r.Success? <==>
      (forall i :: 0 <= i < |xs| ==> f(xs[i]).Success? && key(xs[i]) !in catalog) && KeysDistinct(xs, key)
    ensures r.Success? ==> |r.value| == |xs| && forall i :: 0 <= i < |xs| ==> f(xs[i]) == Success(r.value[i])
    ensures r.Failure? && (forall i :: 0 <= i < |xs| ==> f(xs[i]).Success?) ==>
      exists i :: 0 <= i < |xs| && r.error == taken(xs[i])
    decreases |xs|
  {
    if |xs| == 0 then Success([])
    else
      var x := xs[0];
      assert forall i :: 1 <= i < |xs| ==> xs[1..][i - 1] == xs[i];
      if ready(x) && key(x) in catalog then Failure(taken(x))
      else if f(x).Failure? then Failure(f(x).error)
      else
        var rest := MapRegister(xs[1..], f, ready, key, taken, catalog + {key(x)});
        if rest.Failure? then Failure(rest.error)
        else Success([f(x).value] + rest.value)
  }
}

=== FILE: discovery.dfy ===
/**
 * Finding and reading the raw workbooks. Both pipelines walk
 * raw/<category>/<year>/<month>/ in directory-listing order, number the
 * files of each month directory from 1, classify each file by its name,
 * and read the sheets its category lists. They differ only in what they
 * record: DuckDB keeps the month directory as one path and joins the period
 * with '_', pandas keeps the three directory names and joins with '-'.
 */
module Discovery {

  import opened Common
  import opened Strings
  import opened Catalog
  import opened Tables
  import opened Periods

  // ---------------------------------------------------------------------
  // detect_file_category
  // ---------------------------------------------------------------------

  /** The word a file name must contain to belong to a category. */
  function CategoryWord(c: Category): string
  {
    match c
    case Competitor => "competitor"
    case Content => "content"
    case Followers => "followers"
    case Visitors => "visitors"
  }

  /** The order in which the categories are tried. */
  function Rank(c: Category): nat
  {
    match c
    case Competitor => 0
    case Content => 1
    case Followers => 2
    case Visitors => 3
  }

  /**
   * `detect_file_category`: the first category, in the order competitor,
   * content, followers, visitors, whose word occurs in the file name; `None`
   * (the source's `0`) when no word occurs.
   */
  function DetectFileCategory(file: string): (r: Option<Category>)
    ensures r.Some? ==> Contains(file, CategoryWord(r.value))
    ensures r.Some? ==> forall c :: Rank(c) < Rank(r.value) ==> !Contains(file, CategoryWord(c))
    ensures r.None? <==> forall c :: !Contains(file, CategoryWord(c))
  {
    if Contains(file, "competitor") then Some(Competitor)
    else if Contains(file, "content") then Some(Content)
    else if Contains(file, "followers") then Some(Followers)
    else if Contains(file, "visitors") then Some(Visitors)
    else None
  }

  // ---------------------------------------------------------------------
  // The directory walk of get_raw_files
  // ---------------------------------------------------------------------

  /** A listed directory: its name and what `os.listdir` returned for it, in that order. */
  datatype MonthDir = MonthDir(name: string, files: seq<string>)
  datatype YearDir = YearDir(name: string, months: seq<MonthDir>)
  datatype CategoryDir = CategoryDir(name: string, years: seq<YearDir>)

  /** One iteration of the innermost loop: a file, where it sits, and its 1-based position in its month. */
  datatype FileSlot = FileSlot(
    categoryDir: string, yearDir: string, monthDir: string, monthPath: string, file: string, seqNo: nat)

  /** `enumerate(monthly_files)` with positions counted from `first`. */
  function EnumerateFiles(cat: string, year: string, month: string, monthPath: string, files: seq<string>, first: nat)
    : (r: seq<FileSlot>)
    ensures |r| == |files|
    ensures forall i :: 0 <= i < |r| ==> r[i] == FileSlot(cat, year, month, monthPath, files[i], first + i)
    decreases |files|
  {
    if |files| == 0 then []
    else [FileSlot(cat, year, month, monthPath, files[0], first)] + EnumerateFiles(cat, year, month, monthPath, files[1..], first + 1)
  }

  function MonthsSlots(yearPath: string, cat: string, year: string, ms: seq<MonthDir>): seq<FileSlot>
  {
    if |ms| == 0 then []
    else
      EnumerateFiles(cat, year, ms[0].name, PathJoin(yearPath, ms[0].name), ms[0].files, 1)
        + MonthsSlots(yearPath, cat, year, ms[1..])
  }

  function YearsSlots(catPath: string, cat: string, ys: seq<YearDir>): seq<FileSlot>
  {
    if |ys| == 0 then []
    else MonthsSlots(PathJoin(catPath, ys[0].name), cat, ys[0].name, ys[0].months) + YearsSlots(catPath, cat, ys[1..])
  }

  /** The three nested loops of `get_raw_files` over the raw directory `rawDir`. */
  function ListSlots(rawDir: string, cats: seq<CategoryDir>): seq<FileSlot>
  {
    if |cats| == 0 then []
    else YearsSlots(PathJoin(rawDir, cats[0].name), cats[0].name, cats[0].years) + ListSlots(rawDir, cats[1..])
  }

  /** The slot is the `seqNo`-th file of some month directory of the listing, at that directory's path. */
  ghost predicate SlotOf(rawDir: string, cats: seq<CategoryDir>, s: FileSlot)
  {
    exists c, y, m :: c in cats && y in c.years && m in y.months
      && s.categoryDir == c.name && s.yearDir == y.name && s.monthDir == m.name
      && s.monthPath == PathJoin(PathJoin(PathJoin(rawDir, c.name), y.name), m.name)
      && 1 <= s.seqNo <= |m.files| && s.file == m.files[s.seqNo - 1]
  }

  /** Number of files in all month directories of a listing. */
  function FileCount(cats: seq<CategoryDir>): nat
  {
    if |cats| == 0 then 0 else YearFileCount(cats[0].years) + FileCount(cats[1..])
  }

  function YearFileCount(ys: seq<YearDir>): nat
  {
    if |ys| == 0 then 0 else MonthFileCount(ys[0].months) + YearFileCount(ys[1..])
  }

  function MonthFileCount(ms: seq<MonthDir>): nat
  {
    if |ms| == 0 then 0 else |ms[0].files| + MonthFileCount(ms[1..])
  }

  // ---------------------------------------------------------------------
  // Where each listed file lands in the walk
  // ---------------------------------------------------------------------

  /** `(a, b, d, i)` names a file of the listing: file `i` of month `d` of year `b` of category `a`. */
  predicate Listed(cats: seq<CategoryDir>, a: nat, b: nat, d: nat, i: nat)
  {
    a < |cats| && b < |cats[a].years| && d < |cats[a].years[b].months| && i < |cats[a].years[b].months[d].files|
  }

  /** `(a, b, d, i)` comes before `(a', b', d', i')` in listing order. */
  predicate ListedBefore(a: nat, b: nat, d: nat, i: nat, a': nat, b': nat, d': nat, i': nat)
  {
    a < a' || (a == a' && (b < b' || (b == b' && (d < d' || (d == d' && i < i')))))
  }

  /** Where file `i` of month `d` lands among the slots of the months `ms`: after every file of the earlier months. */
  function MonthPosition(ms: seq<MonthDir>, d: nat, i: nat): nat
    requires d <= |ms|
  {
    MonthFileCount(ms[..d]) + i
  }

  /** The same among the slots of the years `ys`. */
  function YearPosition(ys: seq<YearDir>, b: nat, d: nat, i: nat): nat
    requires b < |ys| && d <= |ys[b].months|
  {
    YearFileCount(ys[..b]) + MonthPosition(ys[b].months, d, i)
  }

  /** The same for the whole listing. */
  function Position(cats: seq<CategoryDir>, a: nat, b: nat, d: nat, i: nat): nat
    requires Listed(cats, a, b, d, i)
  {
    FileCount(cats[..a]) + YearPosition(cats[a].years, b, d, i)
  }

  /** The slot of a listed file: its three directory names, its month path, its name and its 1-based number. */
  function ListedSlot(rawDir: string, cats: seq<CategoryDir>, a: nat, b: nat, d: nat, i: nat): FileSlot
    requires Listed(cats, a, b, d, i)
  {
    var c := cats[a];
    var y := c.years[b];
    var m := y.months[d];
    FileSlot(c.name, y.name, m.name, PathJoin(PathJoin(PathJoin(rawDir, c.name), y.name), m.name), m.files[i], i + 1)
  }

  /** Concatenation of walks regroups freely. */
  lemma SlotsRegroup(a: seq<FileSlot>, b: seq<FileSlot>, c: seq<FileSlot>)
    ensures a + (b + c) == (a + b) + c
  {
  }


  /** The concatenation of `f` over `xs`, in order: the shape shared by the three nested loops. */
  function Flatten<E, T>(xs: seq<E>, f: E -> seq<T>): seq<T>
  {
    if |xs| == 0 then [] else f(xs[0]) + Flatten(xs[1..], f)
  }

  /** Element `k` of the part for `xs[a]` sits right after the parts for the elements before it. */
  lemma {:induction false} FlattenMiddle<E, T>(xs: seq<E>, f: E -> seq<T>, a: nat, k: nat)
    requires a < |xs| && k < |f(xs[a])|
    ensures |Flatten(xs[..a], f)| + k < |Flatten(xs, f)|
    ensures Flatten(xs, f)[|Flatten(xs[..a], f)| + k] == f(xs[a])[k]
    decreases a
  {
    if a == 0 {
      assert xs[..0] == [];
    } else {
      var rest := xs[1..];
      assert rest[a - 1] == xs[a];
      assert xs[..a][0] == xs[0];
      assert xs[..a][1..] == rest[..a - 1];
      FlattenMiddle(rest, f, a - 1, k);
      assert Flatten(xs[..a], f) == f(xs[0]) + Flatten(rest[..a - 1], f);
    }
  }

  /** Flattening distributes over concatenation. */
  lemma {:induction false} FlattenAppend<E, T>(x: seq<E>, y: seq<E>, f: E -> seq<T>)
    ensures Flatten(x + y, f) == Flatten(x, f) + Flatten(y, f)
    decreases |x|
  {
    if |x| > 0 {
      assert (x + y)[0] == x[0];
      assert (x + y)[1..] == x[1..] + y;
      FlattenAppend(x[1..], y, f);
    } else {
      assert x + y == y;
    }
  }

  /** The part for `xs[a]` adds its own length to the prefix, and no prefix is longer than the whole. */
  lemma FlattenPrefix<E, T>(xs: seq<E>, f: E -> seq<T>, a: nat)
    requires a < |xs|
    ensures |Flatten(xs[..a + 1], f)| == |Flatten(xs[..a], f)| + |f(xs[a])| <= |Flatten(xs, f)|
  {
    var front, here, back := xs[..a], [xs[a]], xs[a + 1..];
    assert xs[..a + 1] == front + here;
    assert xs == (front + here) + back;
    assert here[1..] == [];
    FlattenAppend(front, here, f);
    FlattenAppend(front + here, back, f);
  }

  lemma FlattenGrows<E, T>(xs: seq<E>, f: E -> seq<T>, k: nat, k': nat)
    requires k <= k' <= |xs|
    ensures |Flatten(xs[..k], f)| <= |Flatten(xs[..k'], f)|
  {
    assert xs[..k'] == xs[..k] + xs[k..k'];
    FlattenAppend(xs[..k], xs[k..k'], f);
  }

  /** The walk of one month, one year and one category directory. */
  function MonthWalk(yearPath: string, cat: string, year: string): MonthDir -> seq<FileSlot>
  {
    (m: MonthDir) => EnumerateFiles(cat, year, m.name, PathJoin(yearPath, m.name), m.files, 1)
  }

  function YearWalk(catPath: string, cat: string): YearDir -> seq<FileSlot>
  {
    (y: YearDir) => MonthsSlots(PathJoin(catPath, y.name), cat, y.name, y.months)
  }

  function CategoryWalk(rawDir: string): CategoryDir -> seq<FileSlot>
  {
    (c: CategoryDir) => YearsSlots(PathJoin(rawDir, c.name), c.name, c.years)
  }

  lemma {:induction false} MonthsSlotsFlatten(yearPath: string, cat: string, year: string, ms: seq<MonthDir>)
    ensures MonthsSlots(yearPath, cat, year, ms) == Flatten(ms, MonthWalk(yearPath, cat, year))
    decreases |ms|
  {
    if |ms| > 0 {
      MonthsSlotsFlatten(yearPath, cat, year, ms[1..]);
    }
  }

  lemma {:induction false} YearsSlotsFlatten(catPath: string, cat: string, ys: seq<YearDir>)
    ensures YearsSlots(catPath, cat, ys) == Flatten(ys, YearWalk(catPath, cat))
    decreases |ys|
  {
    if |ys| > 0 {
      YearsSlotsFlatten(catPath, cat, ys[1..]);
    }
  }

  lemma {:induction false} ListSlotsFlatten(rawDir: string, cats: seq<CategoryDir>)
    ensures ListSlots(rawDir, cats) == Flatten(cats, CategoryWalk(rawDir))
    decreases |cats|
  {
    if |cats| > 0 {
      ListSlotsFlatten(rawDir, cats[1..]);
    }
  }

  /** The file counts are the lengths of the walks, whatever the paths. */
  lemma MonthCountIsLength(ms: seq<MonthDir>)
    ensures MonthFileCount(ms) == |Flatten(ms, MonthWalk("", "", ""))|
  {
    MonthsSlotsLength("", "", "", ms);
    MonthsSlotsFlatten("", "", "", ms);
  }

  lemma YearCountIsLength(ys: seq<YearDir>)
    ensures YearFileCount(ys) == |Flatten(ys, YearWalk("", ""))|
  {
    YearsSlotsLength("", "", ys);
    YearsSlotsFlatten("", "", ys);
  }

  lemma FileCountIsLength(cats: seq<CategoryDir>)
    ensures FileCount(cats) == |Flatten(cats, CategoryWalk(""))|
  {
    ListSlotsLength("", cats);
    ListSlotsFlatten("", cats);
  }



  lemma {:induction false} MonthsSlotsLength(yearPath: string, cat: string, year: string, ms: seq<MonthDir>)
    ensures |MonthsSlots(yearPath, cat, year, ms)| == MonthFileCount(ms)
    decreases |ms|
  {
    if |ms| > 0 {
      MonthsSlotsLength(yearPath, cat, year, ms[1..]);
    }
  }


  /** The files of the months up to and including month `d`. */
  lemma MonthPrefixCount(ms: seq<MonthDir>, d: nat)
    requires d < |ms|
    ensures MonthFileCount(ms[..d + 1]) == MonthFileCount(ms[..d]) + |ms[d].files| <= MonthFileCount(ms)
  {
    MonthCountIsLength(ms[..d + 1]);
    MonthCountIsLength(ms[..d]);
    MonthCountIsLength(ms);
    FlattenPrefix(ms, MonthWalk("", "", ""), d);
  }

  /** File `k` of month `d` sits right after the files of the months before it. */
  lemma MonthsSlotsMiddle(yearPath: string, cat: string, year: string, ms: seq<MonthDir>, d: nat, k: nat)
    requires d < |ms| && k < |ms[d].files|
    ensures MonthFileCount(ms[..d]) + k < |MonthsSlots(yearPath, cat, year, ms)|
    ensures MonthsSlots(yearPath, cat, year, ms)[MonthFileCount(ms[..d]) + k]
      == FileSlot(cat, year, ms[d].name, PathJoin(yearPath, ms[d].name), ms[d].files[k], k + 1)
  {
    var f := MonthWalk(yearPath, cat, year);
    var e := EnumerateFiles(cat, year, ms[d].name, PathJoin(yearPath, ms[d].name), ms[d].files, 1);
    assert f(ms[d]) == e;
    MonthsSlotsFlatten(yearPath, cat, year, ms);
    MonthsSlotsFlatten(yearPath, cat, year, ms[..d]);
    MonthsSlotsLength(yearPath, cat, year, ms[..d]);
    FlattenMiddle(ms, f, d, k);
    assert e[k] == FileSlot(cat, year, ms[d].name, PathJoin(yearPath, ms[d].name), ms[d].files[k], k + 1);
    assert Flatten(ms, f)[MonthFileCount(ms[..d]) + k] == e[k];
  }

  /** File `i` of month `d` sits at its position in the month walk. */
  lemma MonthsSlotsAt(yearPath: string, cat: string, year: string, ms: seq<MonthDir>, d: nat, i: nat)
    requires d < |ms| && i < |ms[d].files|
    ensures MonthPosition(ms, d, i) < |MonthsSlots(yearPath, cat, year, ms)|
    ensures MonthsSlots(yearPath, cat, year, ms)[MonthPosition(ms, d, i)]
      == FileSlot(cat, year, ms[d].name, PathJoin(yearPath, ms[d].name), ms[d].files[i], i + 1)
  {
    MonthsSlotsMiddle(yearPath, cat, year, ms, d, i);
    assert MonthPosition(ms, d, i) == MonthFileCount(ms[..d]) + i;
  }

  /** The month prefix counts grow with the prefix. */
  lemma MonthPrefixGrows(ms: seq<MonthDir>, k: nat, k': nat)
    requires k <= k' <= |ms|
    ensures MonthFileCount(ms[..k]) <= MonthFileCount(ms[..k'])
  {
    MonthCountIsLength(ms[..k]);
    MonthCountIsLength(ms[..k']);
    FlattenGrows(ms, MonthWalk("", "", ""), k, k');
  }



  lemma {:induction false} YearsSlotsLength(catPath: string, cat: string, ys: seq<YearDir>)
    ensures |YearsSlots(catPath, cat, ys)| == YearFileCount(ys)
    decreases |ys|
  {
    if |ys| > 0 {
      MonthsSlotsLength(PathJoin(catPath, ys[0].name), cat, ys[0].name, ys[0].months);
      YearsSlotsLength(catPath, cat, ys[1..]);
    }
  }


  /** The files of the years up to and including year `b`. */
  lemma YearPrefixCount(ys: seq<YearDir>, b: nat)
    requires b < |ys|
    ensures YearFileCount(ys[..b + 1]) == YearFileCount(ys[..b]) + MonthFileCount(ys[b].months) <= YearFileCount(ys)
  {
    YearCountIsLength(ys[..b + 1]);
    YearCountIsLength(ys[..b]);
    YearCountIsLength(ys);
    MonthsSlotsLength(PathJoin("", ys[b].name), "", ys[b].name, ys[b].months);
    FlattenPrefix(ys, YearWalk("", ""), b);
  }

  /** Slot `k` of year `b`'s walk sits right after the files of the years before it. */
  lemma YearsSlotsMiddle(catPath: string, cat: string, ys: seq<YearDir>, b: nat, k: nat)
    requires b < |ys| && k < |MonthsSlots(PathJoin(catPath, ys[b].name), cat, ys[b].name, ys[b].months)|
    ensures YearFileCount(ys[..b]) + k < |YearsSlots(catPath, cat, ys)|
    ensures YearsSlots(catPath, cat, ys)[YearFileCount(ys[..b]) + k]
      == MonthsSlots(PathJoin(catPath, ys[b].name), cat, ys[b].name, ys[b].months)[k]
  {
    var f := YearWalk(catPath, cat);
    var e := MonthsSlots(PathJoin(catPath, ys[b].name), cat, ys[b].name, ys[b].months);
    assert f(ys[b]) == e;
    YearsSlotsFlatten(catPath, cat, ys);
    YearsSlotsFlatten(catPath, cat, ys[..b]);
    YearsSlotsLength(catPath, cat, ys[..b]);
    FlattenMiddle(ys, f, b, k);
    assert Flatten(ys, f)[YearFileCount(ys[..b]) + k] == e[k];
  }

  /** File `i` of month `d` of year `b` sits at its position in the year walk. */
  lemma YearsSlotsAt(catPath: string, cat: string, ys: seq<YearDir>, b: nat, d: nat, i: nat)
    requires b < |ys| && d < |ys[b].months| && i < |ys[b].months[d].files|
    ensures YearPosition(ys, b, d, i) < |YearsSlots(catPath, cat, ys)|
    ensures YearsSlots(catPath, cat, ys)[YearPosition(ys, b, d, i)]
      == FileSlot(cat, ys[b].name, ys[b].months[d].name, PathJoin(PathJoin(catPath, ys[b].name), ys[b].months[d].name),
                  ys[b].months[d].files[i], i + 1)
  {
    var y := ys[b];
    var e := MonthsSlots(PathJoin(catPath, y.name), cat, y.name, y.months);
    var mp := MonthPosition(y.months, d, i);
    MonthsSlotsAt(PathJoin(catPath, y.name), cat, y.name, y.months, d, i);
    YearsSlotsMiddle(catPath, cat, ys, b, mp);
    assert YearsSlots(catPath, cat, ys)[YearFileCount(ys[..b]) + mp] == e[mp];
    assert e[mp] == FileSlot(cat, y.name, y.months[d].name, PathJoin(PathJoin(catPath, y.name), y.months[d].name), y.months[d].files[i], i + 1);
    assert YearPosition(ys, b, d, i) == YearFileCount(ys[..b]) + mp;
  }

  lemma YearPrefixGrows(ys: seq<YearDir>, k: nat, k': nat)
    requires k <= k' <= |ys|
    ensures YearFileCount(ys[..k]) <= YearFileCount(ys[..k'])
  {
    YearCountIsLength(ys[..k]);
    YearCountIsLength(ys[..k']);
    FlattenGrows(ys, YearWalk("", ""), k, k');
  }



  lemma {:induction false} ListSlotsLength(rawDir: string, cats: seq<CategoryDir>)
    ensures |ListSlots(rawDir, cats)| == FileCount(cats)
    decreases |cats|
  {
    if |cats| > 0 {
      YearsSlotsLength(PathJoin(rawDir, cats[0].name), cats[0].name, cats[0].years);
      ListSlotsLength(rawDir, cats[1..]);
    }
  }


  /** The files of the categories up to and including category `a`. */
  lemma CategoryPrefixCount(cats: seq<CategoryDir>, a: nat)
    requires a < |cats|
    ensures FileCount(cats[..a + 1]) == FileCount(cats[..a]) + YearFileCount(cats[a].years) <= FileCount(cats)
  {
    FileCountIsLength(cats[..a + 1]);
    FileCountIsLength(cats[..a]);
    FileCountIsLength(cats);
    YearsSlotsLength(PathJoin("", cats[a].name), cats[a].name, cats[a].years);
    FlattenPrefix(cats, CategoryWalk(""), a);
  }

  /** Slot `k` of category `a`'s walk sits right after the files of the categories before it. */
  lemma ListSlotsMiddle(rawDir: string, cats: seq<CategoryDir>, a: nat, k: nat)
    requires a < |cats| && k < |YearsSlots(PathJoin(rawDir, cats[a].name), cats[a].name, cats[a].years)|
    ensures FileCount(cats[..a]) + k < |ListSlots(rawDir, cats)|
    ensures ListSlots(rawDir, cats)[FileCount(cats[..a]) + k]
      == YearsSlots(PathJoin(rawDir, cats[a].name), cats[a].name, cats[a].years)[k]
  {
    var f := CategoryWalk(rawDir);
    var e := YearsSlots(PathJoin(rawDir, cats[a].name), cats[a].name, cats[a].years);
    assert f(cats[a]) == e;
    ListSlotsFlatten(rawDir, cats);
    ListSlotsFlatten(rawDir, cats[..a]);
    ListSlotsLength(rawDir, cats[..a]);
    FlattenMiddle(cats, f, a, k);
    assert Flatten(cats, f)[FileCount(cats[..a]) + k] == e[k];
  }

  /** Every listed file sits at its position in the whole walk. */
  lemma ListSlotsAt(rawDir: string, cats: seq<CategoryDir>, a: nat, b: nat, d: nat, i: nat)
    requires Listed(cats, a, b, d, i)
    ensures Position(cats, a, b, d, i) < |ListSlots(rawDir, cats)|
    ensures ListSlots(rawDir, cats)[Position(cats, a, b, d, i)] == ListedSlot(rawDir, cats, a, b, d, i)
  {
    var c := cats[a];
    var e := YearsSlots(PathJoin(rawDir, c.name), c.name, c.years);
    var yp := YearPosition(c.years, b, d, i);
    YearsSlotsAt(PathJoin(rawDir, c.name), c.name, c.years, b, d, i);
    ListSlotsMiddle(rawDir, cats, a, yp);
    assert ListSlots(rawDir, cats)[FileCount(cats[..a]) + yp] == e[yp];
    assert e[yp] == ListedSlot(rawDir, cats, a, b, d, i);
    assert Position(cats, a, b, d, i) == FileCount(cats[..a]) + yp;
  }

  lemma CategoryPrefixGrows(cats: seq<CategoryDir>, k: nat, k': nat)
    requires k <= k' <= |cats|
    ensures FileCount(cats[..k]) <= FileCount(cats[..k'])
  {
    FileCountIsLength(cats[..k]);
    FileCountIsLength(cats[..k']);
    FlattenGrows(cats, CategoryWalk(""), k, k');
  }

  /** File `i` of month `d` comes before every file of a later month. */
  lemma MonthPositionBound(ms: seq<MonthDir>, d: nat, i: nat)
    requires d < |ms| && i < |ms[d].files|
    ensures MonthPosition(ms, d, i) < MonthFileCount(ms[..d + 1]) <= MonthFileCount(ms)
  {
    MonthPrefixCount(ms, d);
  }

  /** A file of year `b` comes before every file of a later year. */
  lemma YearPositionBound(ys: seq<YearDir>, b: nat, d: nat, i: nat)
    requires b < |ys| && d < |ys[b].months| && i < |ys[b].months[d].files|
    ensures YearPosition(ys, b, d, i) < YearFileCount(ys[..b + 1]) <= YearFileCount(ys)
  {
    YearPrefixCount(ys, b);
    MonthPositionBound(ys[b].months, d, i);
  }

  /** A file of category `a` comes before every file of a later category. */
  lemma PositionBound(cats: seq<CategoryDir>, a: nat, b: nat, d: nat, i: nat)
    requires Listed(cats, a, b, d, i)
    ensures Position(cats, a, b, d, i) < FileCount(cats[..a + 1]) <= FileCount(cats)
  {
    CategoryPrefixCount(cats, a);
    YearPositionBound(cats[a].years, b, d, i);
  }

  /** A file listed before another lands at an earlier position, so no two listed files share one. */
  lemma PositionsFollowListing(cats: seq<CategoryDir>, a: nat, b: nat, d: nat, i: nat, a': nat, b': nat, d': nat, i': nat)
    requires Listed(cats, a, b, d, i) && Listed(cats, a', b', d', i')
    requires ListedBefore(a, b, d, i, a', b', d', i')
    ensures Position(cats, a, b, d, i) < Position(cats, a', b', d', i')
  {
    PositionBound(cats, a, b, d, i);
    if a < a' {
      CategoryPrefixGrows(cats, a + 1, a');
    } else {
      var ys := cats[a].years;
      YearPositionBound(ys, b, d, i);
      if b < b' {
        YearPrefixGrows(ys, b + 1, b');
      } else {
        var ms := ys[b].months;
        MonthPositionBound(ms, d, i);
        if d < d' {
          MonthPrefixGrows(ms, d + 1, d');
        }
      }
    }
  }

  lemma {:induction false} MonthsSlotsFrom(rawDir: string, c: CategoryDir, y: YearDir, ms: seq<MonthDir>)
    requires forall m :: m in ms ==> m in y.months
    ensures |MonthsSlots(PathJoin(PathJoin(rawDir, c.name), y.name), c.name, y.name, ms)| == MonthFileCount(ms)
    ensures forall s :: s in MonthsSlots(PathJoin(PathJoin(rawDir, c.name), y.name), c.name, y.name, ms) ==>
      exists m :: m in ms && s.categoryDir == c.name && s.yearDir == y.name && s.monthDir == m.name
        && s.monthPath == PathJoin(PathJoin(PathJoin(rawDir, c.name), y.name), m.name)
        && 1 <= s.seqNo <= |m.files| && s.file == m.files[s.seqNo - 1]
    decreases |ms|
  {
    if |ms| > 0 {
      MonthsSlotsFrom(rawDir, c, y, ms[1..]);
      var yearPath := PathJoin(PathJoin(rawDir, c.name), y.name);
      var here := EnumerateFiles(c.name, y.name, ms[0].name, PathJoin(yearPath, ms[0].name), ms[0].files, 1);
      forall s | s in here
        ensures s.monthDir == ms[0].name && 1 <= s.seqNo <= |ms[0].files| && s.file == ms[0].files[s.seqNo - 1]
      {
        var i :| 0 <= i < |here| && here[i] == s;
      }
    }
  }

  /** The month loop of one year: one slot per file, each the `seqNo`-th file of its month, at its month position. */
  lemma MonthsSlotsSound(rawDir: string, c: CategoryDir, y: YearDir, ms: seq<MonthDir>)
    requires forall m :: m in ms ==> m in y.months
    ensures |MonthsSlots(PathJoin(PathJoin(rawDir, c.name), y.name), c.name, y.name, ms)| == MonthFileCount(ms)
    ensures forall s :: s in MonthsSlots(PathJoin(PathJoin(rawDir, c.name), y.name), c.name, y.name, ms) ==>
      exists m :: m in ms && s.categoryDir == c.name && s.yearDir == y.name && s.monthDir == m.name
        && s.monthPath == PathJoin(PathJoin(PathJoin(rawDir, c.name), y.name), m.name)
        && 1 <= s.seqNo <= |m.files| && s.file == m.files[s.seqNo - 1]
    ensures forall d, i :: 0 <= d < |ms| && 0 <= i < |ms[d].files| ==>
      && MonthPosition(ms, d, i) < |MonthsSlots(PathJoin(PathJoin(rawDir, c.name), y.name), c.name, y.name, ms)|
      && MonthsSlots(PathJoin(PathJoin(rawDir, c.name), y.name), c.name, y.name, ms)[MonthPosition(ms, d, i)]
        == FileSlot(c.name, y.name, ms[d].name, PathJoin(PathJoin(PathJoin(rawDir, c.name), y.name), ms[d].name), ms[d].files[i], i + 1)
  {
    MonthsSlotsFrom(rawDir, c, y, ms);
    var yearPath := PathJoin(PathJoin(rawDir, c.name), y.name);
    forall d, i | 0 <= d < |ms| && 0 <= i < |ms[d].files|
      ensures MonthPosition(ms, d, i) < |MonthsSlots(yearPath, c.name, y.name, ms)|
      ensures MonthsSlots(yearPath, c.name, y.name, ms)[MonthPosition(ms, d, i)]
        == FileSlot(c.name, y.name, ms[d].name, PathJoin(yearPath, ms[d].name), ms[d].files[i], i + 1)
    {
      MonthsSlotsAt(yearPath, c.name, y.name, ms, d, i);
    }
  }


  lemma {:induction false} YearsSlotsFrom(rawDir: string, c: CategoryDir, ys: seq<YearDir>)
    requires forall y :: y in ys ==> y in c.years
    ensures |YearsSlots(PathJoin(rawDir, c.name), c.name, ys)| == YearFileCount(ys)
    ensures forall s :: s in YearsSlots(PathJoin(rawDir, c.name), c.name, ys) ==>
      exists y, m :: y in ys && m in y.months && s.categoryDir == c.name && s.yearDir == y.name && s.monthDir == m.name
        && s.monthPath == PathJoin(PathJoin(PathJoin(rawDir, c.name), y.name), m.name)
        && 1 <= s.seqNo <= |m.files| && s.file == m.files[s.seqNo - 1]
    decreases |ys|
  {
    if |ys| > 0 {
      YearsSlotsFrom(rawDir, c, ys[1..]);
      MonthsSlotsFrom(rawDir, c, ys[0], ys[0].months);
    }
  }

  /** The year loop of one category: one slot per file of its months, at its year position. */
  lemma YearsSlotsSound(rawDir: string, c: CategoryDir, ys: seq<YearDir>)
    requires forall y :: y in ys ==> y in c.years
    ensures |YearsSlots(PathJoin(rawDir, c.name), c.name, ys)| == YearFileCount(ys)
    ensures forall s :: s in YearsSlots(PathJoin(rawDir, c.name), c.name, ys) ==>
      exists y, m :: y in ys && m in y.months && s.categoryDir == c.name && s.yearDir == y.name && s.monthDir == m.name
        && s.monthPath == PathJoin(PathJoin(PathJoin(rawDir, c.name), y.name), m.name)
        && 1 <= s.seqNo <= |m.files| && s.file == m.files[s.seqNo - 1]
    ensures forall b, d, i :: 0 <= b < |ys| && 0 <= d < |ys[b].months| && 0 <= i < |ys[b].months[d].files| ==>
      && YearPosition(ys, b, d, i) < |YearsSlots(PathJoin(rawDir, c.name), c.name, ys)|
      && YearsSlots(PathJoin(rawDir, c.name), c.name, ys)[YearPosition(ys, b, d, i)]
        == FileSlot(c.name, ys[b].name, ys[b].months[d].name,
                    PathJoin(PathJoin(PathJoin(rawDir, c.name), ys[b].name), ys[b].months[d].name), ys[b].months[d].files[i], i + 1)
  {
    YearsSlotsFrom(rawDir, c, ys);
    forall b, d, i | 0 <= b < |ys| && 0 <= d < |ys[b].months| && 0 <= i < |ys[b].months[d].files|
      ensures YearPosition(ys, b, d, i) < |YearsSlots(PathJoin(rawDir, c.name), c.name, ys)|
      ensures YearsSlots(PathJoin(rawDir, c.name), c.name, ys)[YearPosition(ys, b, d, i)]
        == FileSlot(c.name, ys[b].name, ys[b].months[d].name,
                    PathJoin(PathJoin(PathJoin(rawDir, c.name), ys[b].name), ys[b].months[d].name), ys[b].months[d].files[i], i + 1)
    {
      YearsSlotsAt(PathJoin(rawDir, c.name), c.name, ys, b, d, i);
    }
  }

  /**
   * The walk yields one slot per file of every month directory, and every
   * slot is the `seqNo`-th file (counting from 1) of a month directory it
   * names, at that directory's joined path.
   */
  lemma {:induction false} ListSlotsFrom(rawDir: string, cats: seq<CategoryDir>)
    ensures |ListSlots(rawDir, cats)| == FileCount(cats)
    ensures forall s :: s in ListSlots(rawDir, cats) ==> SlotOf(rawDir, cats, s)
    decreases |cats|
  {
    if |cats| > 0 {
      ListSlotsFrom(rawDir, cats[1..]);
      YearsSlotsFrom(rawDir, cats[0], cats[0].years);
      forall s | s in ListSlots(rawDir, cats[1..])
        ensures SlotOf(rawDir, cats, s)
      {
        var c, y, m :| c in cats[1..] && y in c.years && m in y.months
          && s.categoryDir == c.name && s.yearDir == y.name && s.monthDir == m.name
          && s.monthPath == PathJoin(PathJoin(PathJoin(rawDir, c.name), y.name), m.name)
          && 1 <= s.seqNo <= |m.files| && s.file == m.files[s.seqNo - 1];
        assert c in cats;
      }
    }
  }

  /**
   * The walk yields exactly one slot per file of every month directory, in
   * listing order: every slot is the `seqNo`-th file (counting from 1) of a
   * month directory it names, at that directory's joined path; every listed
   * file has its slot at its listing position; and a file listed before
   * another comes first.
   */
  lemma ListSlotsSound(rawDir: string, cats: seq<CategoryDir>)
    ensures |ListSlots(rawDir, cats)| == FileCount(cats)
    ensures forall s :: s in ListSlots(rawDir, cats) ==> SlotOf(rawDir, cats, s)
    ensures forall a, b, d, i :: Listed(cats, a, b, d, i) ==>
      Position(cats, a, b, d, i) < |ListSlots(rawDir, cats)|
      && ListSlots(rawDir, cats)[Position(cats, a, b, d, i)] == ListedSlot(rawDir, cats, a, b, d, i)
    ensures forall a, b, d, i, a', b', d', i' ::
      Listed(cats, a, b, d, i) && Listed(cats, a', b', d', i') && ListedBefore(a, b, d, i, a', b', d', i') ==>
      Position(cats, a, b, d, i) < Position(cats, a', b', d', i')
  {
    ListSlotsFrom(rawDir, cats);
    forall a, b, d, i | Listed(cats, a, b, d, i)
      ensures Position(cats, a, b, d, i) < |ListSlots(rawDir, cats)|
      ensures ListSlots(rawDir, cats)[Position(cats, a, b, d, i)] == ListedSlot(rawDir, cats, a, b, d, i)
    {
      ListSlotsAt(rawDir, cats, a, b, d, i);
    }
    forall a, b, d, i, a', b', d', i' |
      Listed(cats, a, b, d, i) && Listed(cats, a', b', d', i') && ListedBefore(a, b, d, i, a', b', d', i')
      ensures Position(cats, a, b, d, i) < Position(cats, a', b', d', i')
    {
      PositionsFollowListing(cats, a, b, d, i, a', b', d', i');
    }
  }

  // ---------------------------------------------------------------------
  // The record each pipeline builds for a file
  // ---------------------------------------------------------------------

  /** A raw file: its category (None when unclassified), path, directory as the pipeline keeps it, and period. */
  datatype RawFile<D> = RawFile(category: Option<Category>, filePath: string, dir: D, period: string)

  /** DuckDB's record: the month directory path and the period f"{year}_{month}_{i+1}". */
  function DuckRawFile(s: FileSlot): RawFile<string>
  {
    RawFile(DetectFileCategory(s.file), PathJoin(s.monthPath, s.file), s.monthPath, DuckPeriod(s.yearDir, s.monthDir, s.seqNo))
  }

  /** pandas' record: the three directory names and the period f"{year}-{month}-{i+1}". */
  function PandasRawFile(s: FileSlot): RawFile<seq<string>>
  {
    RawFile(
      DetectFileCategory(s.file), PathJoin(s.monthPath, s.file),
      [s.categoryDir, s.yearDir, s.monthDir], PandasPeriod(s.yearDir, s.monthDir, s.seqNo))
  }

  /** DuckDB's `get_raw_files`. */
  function GetRawFilesDuck(rawDir: string, cats: seq<CategoryDir>): (r: seq<RawFile<string>>)
    ensures |r| == |ListSlots(rawDir, cats)|
  {
    var slots := ListSlots(rawDir, cats);
    seq(|slots|, i requires 0 <= i < |slots| => DuckRawFile(slots[i]))
  }

  /** pandas' `get_raw_files`. */
  function GetRawFilesPandas(rawDir: string, cats: seq<CategoryDir>): (r: seq<RawFile<seq<string>>>)
    ensures |r| == |ListSlots(rawDir, cats)|
  {
    var slots := ListSlots(rawDir, cats);
    seq(|slots|, i requires 0 <= i < |slots| => PandasRawFile(slots[i]))
  }

  /** `rec` is DuckDB's record of the `seqNo`-th file of a month directory of the listing. */
  ghost predicate DuckRecordOf(rawDir: string, cats: seq<CategoryDir>, rec: RawFile<string>)
  {
    exists s :: SlotOf(rawDir, cats, s) && rec ==
      RawFile(DetectFileCategory(s.file), PathJoin(s.monthPath, s.file), s.monthPath, DuckPeriod(s.yearDir, s.monthDir, s.seqNo))
  }

  /** `rec` is pandas' record of the `seqNo`-th file of a month directory of the listing. */
  ghost predicate PandasRecordOf(rawDir: string, cats: seq<CategoryDir>, rec: RawFile<seq<string>>)
  {
    exists s :: SlotOf(rawDir, cats, s) && rec ==
      RawFile(DetectFileCategory(s.file), PathJoin(s.monthPath, s.file),
        [s.categoryDir, s.yearDir, s.monthDir], PandasPeriod(s.yearDir, s.monthDir, s.seqNo))
  }

  /**
   * DuckDB's walk makes one record per listed file. Each record is the
   * `seqNo`-th file of a month directory: it carries that directory's path,
   * the file's category and the period "year_month_seqNo".
   */
  lemma GetRawFilesDuckRecords(rawDir: string, cats: seq<CategoryDir>)
    ensures |GetRawFilesDuck(rawDir, cats)| == FileCount(cats)
    ensures forall k :: 0 <= k < |GetRawFilesDuck(rawDir, cats)| ==> DuckRecordOf(rawDir, cats, GetRawFilesDuck(rawDir, cats)[k])
    ensures forall a, b, d, i :: Listed(cats, a, b, d, i) ==>
      Position(cats, a, b, d, i) < |GetRawFilesDuck(rawDir, cats)|
      && GetRawFilesDuck(rawDir, cats)[Position(cats, a, b, d, i)] == DuckRawFile(ListedSlot(rawDir, cats, a, b, d, i))
  {
    var slots := ListSlots(rawDir, cats);
    var r := GetRawFilesDuck(rawDir, cats);
    ListSlotsSound(rawDir, cats);
    forall k | 0 <= k < |r|
      ensures DuckRecordOf(rawDir, cats, r[k])
    {
      assert slots[k] in slots;
      assert SlotOf(rawDir, cats, slots[k]) && r[k] == DuckRawFile(slots[k]);
    }
    forall a, b, d, i | Listed(cats, a, b, d, i)
      ensures Position(cats, a, b, d, i) < |r| && r[Position(cats, a, b, d, i)] == DuckRawFile(ListedSlot(rawDir, cats, a, b, d, i))
    {
      assert r[Position(cats, a, b, d, i)] == DuckRawFile(slots[Position(cats, a, b, d, i)]);
    }
  }

  /**
   * pandas' walk makes one record per listed file, carrying the category,
   * year and month directory names and the period "year-month-seqNo".
   */
  lemma GetRawFilesPandasRecords(rawDir: string, cats: seq<CategoryDir>)
    ensures |GetRawFilesPandas(rawDir, cats)| == FileCount(cats)
    ensures forall k :: 0 <= k < |GetRawFilesPandas(rawDir, cats)| ==> PandasRecordOf(rawDir, cats, GetRawFilesPandas(rawDir, cats)[k])
    ensures forall a, b, d, i :: Listed(cats, a, b, d, i) ==>
      Position(cats, a, b, d, i) < |GetRawFilesPandas(rawDir, cats)|
      && GetRawFilesPandas(rawDir, cats)[Position(cats, a, b, d, i)] == PandasRawFile(ListedSlot(rawDir, cats, a, b, d, i))
  {
    var slots := ListSlots(rawDir, cats);
    var r := GetRawFilesPandas(rawDir, cats);
    ListSlotsSound(rawDir, cats);
    forall k | 0 <= k < |r|
      ensures PandasRecordOf(rawDir, cats, r[k])
    {
      assert slots[k] in slots;
      assert SlotOf(rawDir, cats, slots[k]) && r[k] == PandasRawFile(slots[k]);
    }
    forall a, b, d, i | Listed(cats, a, b, d, i)
      ensures Position(cats, a, b, d, i) < |r| && r[Position(cats, a, b, d, i)] == PandasRawFile(ListedSlot(rawDir, cats, a, b, d, i))
    {
      assert r[Position(cats, a, b, d, i)] == PandasRawFile(slots[Position(cats, a, b, d, i)]);
    }
  }

  /**
   * The DuckDB period table has two entries per month, so a third (or later)
   * workbook in a month directory gets a period the lookup rejects.
   */
  lemma LaterExportsUnresolved(s: FileSlot)
    requires s.seqNo >= 3
    ensures DuckFinalDate(DuckRawFile(s).period).Failure?
  {
    var p := DuckRawFile(s).period;
    NatToStringHasNo(s.seqNo, '_');
    SplitLastField(s.yearDir, s.monthDir, NatToString(s.seqNo), '_');
    forall y, m, t | DuckDomain(y, m, t)
      ensures p != DuckPeriod(NatToString(y), DuckMonthTokens[m - 1], t)
    {
      DuckPeriodParts(y, m, t);
      ParseNatToString(t);
      ParseNatToString(s.seqNo);
    }
    DuckFinalDateIff(p);
  }

  // ---------------------------------------------------------------------
  // read_excel_file and extract_data
  // ---------------------------------------------------------------------

  /** One sheet read from a workbook: its kind (`dataframe_name`), directory, period and contents. */
  datatype Frame<D> = Frame(kind: SheetKind, dir: D, period: string, table: Table)

  /** The frames of one sheet list, each read with `read(path, position, rows to skip)`. */
  function ReadSheets<D>(f: RawFile<D>, sheets: seq<SheetSpec>, read: (string, nat, nat) -> Table): (r: seq<Frame<D>>)
    ensures |r| == |sheets|
    ensures forall i :: 0 <= i < |r| ==>
      r[i] == Frame(sheets[i].kind, f.dir, f.period, read(f.filePath, sheets[i].pos, sheets[i].skipRows))
  {
    if |sheets| == 0 then []
    else
      [Frame(sheets[0].kind, f.dir, f.period, read(f.filePath, sheets[0].pos, sheets[0].skipRows))]
        + ReadSheets(f, sheets[1..], read)
  }

  /**
   * `read_excel_file`: the sheets `category_keys` lists for the file's
   * category; an unclassified file makes the lookup raise KeyError.
   */
  function ReadWorkbook<D>(f: RawFile<D>, read: (string, nat, nat) -> Table): (r: Result<seq<Frame<D>>>)
    ensures r.Success? <==> f.category.Some?
    ensures r.Success? ==> r.value == ReadSheets(f, CategoryKeys(f.category.value), read)
    ensures r.Failure? ==> r.error == UnknownCategory(f.filePath)
  {
    match f.category
    case None => Failure(UnknownCategory(f.filePath))
    case Some(c) => Success(ReadSheets(f, CategoryKeys(c), read))
  }

  /** Number of sheets the files' categories list. */
  function SheetTotal<D>(files: seq<RawFile<D>>): nat
    requires forall i :: 0 <= i < |files| ==> files[i].category.Some?
  {
    if |files| == 0 then 0 else SheetCount(files[0].category.value) + SheetTotal(files[1..])
  }

  /** The frames `read_excel_file` returns for one file; an unclassified file has none. */
  function WorkbookFrames<D>(read: (string, nat, nat) -> Table): RawFile<D> -> seq<Frame<D>>
  {
    (f: RawFile<D>) => if f.category.Some? then ReadSheets(f, CategoryKeys(f.category.value), read) else []
  }

  /** `extract_data`: every file's frames, file after file; the first unclassified file stops it. */
  function ExtractData<D>(files: seq<RawFile<D>>, read: (string, nat, nat) -> Table): (r: Result<seq<Frame<D>>>)
    ensures r.Success? <==> forall i :: 0 <= i < |files| ==> files[i].category.Some?
    ensures r.Success? ==> r.value == Flatten(files, WorkbookFrames(read))
  {
    if |files| == 0 then Success([])
    else
      var first :- ReadWorkbook(files[0], read);
      var rest :- ExtractData(files[1..], read);
      assert WorkbookFrames(read)(files[0]) == first;
      Success(first + rest)
  }

  /**
   * Sheet `j` of file `i` is read into the frame right after the frames
   * of the files before it, with that file's directory and period.
   */
  lemma ExtractDataAt<D>(files: seq<RawFile<D>>, read: (string, nat, nat) -> Table, i: nat, j: nat)
    requires ExtractData(files, read).Success?
    requires i < |files| && j < |CategoryKeys(files[i].category.value)|
    ensures var s := CategoryKeys(files[i].category.value)[j];
      var p := |Flatten(files[..i], WorkbookFrames(read))| + j;
      && p < |ExtractData(files, read).value|
      && ExtractData(files, read).value[p] == Frame(s.kind, files[i].dir, files[i].period, read(files[i].filePath, s.pos, s.skipRows))
  {
    var g := WorkbookFrames(read);
    var sheets := CategoryKeys(files[i].category.value);
    assert g(files[i]) == ReadSheets(files[i], sheets, read);
    assert ExtractData(files, read).value == Flatten(files, g);
    FlattenMiddle(files, g, i, j);
    assert Flatten(files, g)[|Flatten(files[..i], g)| + j] == ReadSheets(files[i], sheets, read)[j];
  }

  /** Every frame of an earlier file comes before every frame of a later one. */
  lemma ExtractDataFileOrder<D>(files: seq<RawFile<D>>, read: (string, nat, nat) -> Table, i: nat, j: nat, i': nat, j': nat)
    requires ExtractData(files, read).Success?
    requires i < i' < |files|
    requires j < |CategoryKeys(files[i].category.value)|
    ensures |Flatten(files[..i], WorkbookFrames(read))| + j < |Flatten(files[..i'], WorkbookFrames(read))| + j'
  {
    var g := WorkbookFrames(read);
    assert g(files[i]) == ReadSheets(files[i], CategoryKeys(files[i].category.value), read);
    FlattenPrefix(files, g, i);
    FlattenGrows(files, g, i + 1, i');
  }

  /**
   * Extraction yields exactly the sheets the categories list, and every
   * frame carries the directory and period of a file it was read from and a
   * kind that belongs to that file's category.
   */
  lemma {:induction false} ExtractDataFrames<D>(files: seq<RawFile<D>>, read: (string, nat, nat) -> Table)
    requires ExtractData(files, read).Success?
    ensures forall i :: 0 <= i < |files| ==> files[i].category.Some?
    ensures |ExtractData(files, read).value| == SheetTotal(files)
    ensures forall fr :: fr in ExtractData(files, read).value ==>
      exists f :: f in files && fr.dir == f.dir && fr.period == f.period && f.category == Some(CategoryOf(fr.kind))
    decreases |files|
  {
    if |files| > 0 {
      ExtractDataFrames(files[1..], read);
      var c := files[0].category.value;
      CategorySheetsWellFormed(c);
      var first := ReadSheets(files[0], CategoryKeys(c), read);
      forall fr | fr in first
        ensures fr.dir == files[0].dir && fr.period == files[0].period && files[0].category == Some(CategoryOf(fr.kind))
      {
        var i :| 0 <= i < |first| && first[i] == fr;
        EveryKindReadOnce(fr.kind);
      }
      forall fr | fr in ExtractData(files[1..], read).value
        ensures exists f :: f in files && fr.dir == f.dir && fr.period == f.period && f.category == Some(CategoryOf(fr.kind))
      {
        var f :| f in files[1..] && fr.dir == f.dir && fr.period == f.period && f.category == Some(CategoryOf(fr.kind));
        assert f in files;
      }
    }
  }
}

=== FILE: grouping.dfy ===
/**
 * Grouping records under a string key into a Python dict, as both
 * pipelines do before concatenating: the first record with a key creates
 * the group (and fixes its category and export directory), later ones
 * append to it, and the groups come out in the order their keys first
 * appeared (dict insertion order).
 */
module Grouping {

  import opened Common

  /** One record to group: its key, the category and export directory a new group takes from it, and the item. */
  datatype Entry<T> = Entry(key: string, category: string, exportDir: string, item: T)

  /** One dict value: `{"category": ..., "export_dir": ..., "tables": [...]}`. */
  datatype Group<T> = Group(key: string, category: string, exportDir: string, members: seq<T>)

  function Keys<T>(es: seq<Entry<T>>): (ks: seq<string>)
    ensures |ks| == |es|
    ensures forall i :: 0 <= i < |es| ==> ks[i] == es[i].key
  {
    if |es| == 0 then [] else Keys(es[..|es| - 1]) + [es[|es| - 1].key]
  }

  function GroupKeys<T>(gs: seq<Group<T>>): (ks: seq<string>)
    ensures |ks| == |gs|
    ensures forall j :: 0 <= j < |gs| ==> ks[j] == gs[j].key
  {
    seq(|gs|, j requires 0 <= j < |gs| => gs[j].key)
  }

  /** The items of the entries with key `k`, in input order. */
  function Members<T>(es: seq<Entry<T>>, k: string): (ms: seq<T>)
    ensures k !in Keys(es) ==> ms == []
    ensures k in Keys(es) ==> |ms| >= 1
  {
    if |es| == 0 then []
    else Members(es[..|es| - 1], k) + (if es[|es| - 1].key == k then [es[|es| - 1].item] else [])
  }

  predicate DistinctKeys<T>(gs: seq<Group<T>>) {
    forall a, b :: 0 <= a < b < |gs| ==> gs[a].key != gs[b].key
  }

  /** One step of the grouping loop: append to the entry's group, or open a new one at the end. */
  function Insert<T>(gs: seq<Group<T>>, e: Entry<T>): (r: seq<Group<T>>)
    requires DistinctKeys(gs)
    ensures DistinctKeys(r)
    ensures e.key in GroupKeys(gs) ==> |r| == |gs|
    ensures e.key !in GroupKeys(gs) ==> r == gs + [Group(e.key, e.category, e.exportDir, [e.item])]
    ensures forall j :: 0 <= j < |gs| ==> r[j].key == gs[j].key && r[j].category == gs[j].category && r[j].exportDir == gs[j].exportDir
    ensures forall j :: 0 <= j < |gs| ==>
      r[j].members == gs[j].members + (if gs[j].key == e.key then [e.item] else [])
  {
    match IndexOf(GroupKeys(gs), e.key)
    case None => gs + [Group(e.key, e.category, e.exportDir, [e.item])]
    case Some(j) => gs[j := gs[j].(members := gs[j].members + [e.item])]
  }

  /** The first entry with key `k`. */
  function FirstWith<T>(es: seq<Entry<T>>, k: string): (e: Entry<T>)
    requires k in Keys(es)
    ensures e.key == k
  {
    es[IndexOf(Keys(es), k).value]
  }

  /** Every key of the input has a group and every group's key occurs in the input. */
  ghost predicate KeysCovered<T>(es: seq<Entry<T>>, gs: seq<Group<T>>) {
    && (forall k :: k in GroupKeys(gs) ==> k in Keys(es))
    && (forall k :: k in Keys(es) ==> k in GroupKeys(gs))
  }

  /** Each group holds the items of all entries with its key, in input order. */
  ghost predicate MembersExact<T>(es: seq<Entry<T>>, gs: seq<Group<T>>) {
    forall j :: 0 <= j < |gs| ==> gs[j].members == Members(es, gs[j].key)
  }

  /** Each group took its category and export directory from the first entry with its key. */
  ghost predicate FromFirst<T>(es: seq<Entry<T>>, gs: seq<Group<T>>) {
    forall j :: 0 <= j < |gs| ==>
      && gs[j].key in Keys(es)
      && gs[j].category == FirstWith(es, gs[j].key).category
      && gs[j].exportDir == FirstWith(es, gs[j].key).exportDir
  }

  /** Groups are ordered by the first appearance of their keys (dict insertion order). */
  ghost predicate FirstAppearanceOrder<T>(es: seq<Entry<T>>, gs: seq<Group<T>>) {
    forall a, b :: 0 <= a < b < |gs| && gs[a].key in Keys(es) && gs[b].key in Keys(es) ==>
      IndexOf(Keys(es), gs[a].key).value < IndexOf(Keys(es), gs[b].key).value
  }

  /** `gs` is the grouping of `es`. */
  ghost predicate GroupedFrom<T>(es: seq<Entry<T>>, gs: seq<Group<T>>) {
    && DistinctKeys(gs)
    && KeysCovered(es, gs)
    && MembersExact(es, gs)
    && FromFirst(es, gs)
    && FirstAppearanceOrder(es, gs)
  }

  /** The whole grouping loop over `es`. */
  function GroupAll<T>(es: seq<Entry<T>>): (gs: seq<Group<T>>)
    ensures GroupedFrom(es, gs)
  {
    if |es| == 0 then []
    else
      var gs := GroupAll(es[..|es| - 1]);
      StepKeys(es, gs);
      StepMembers(es, gs);
      StepFirst(es, gs);
      StepOrder(es, gs);
      Insert(gs, es[|es| - 1])
  }

  lemma StepKeys<T>(es: seq<Entry<T>>, gs: seq<Group<T>>)
    requires |es| > 0 && DistinctKeys(gs) && KeysCovered(es[..|es| - 1], gs)
    ensures KeysCovered(es, Insert(gs, es[|es| - 1]))
  {
    var e := es[|es| - 1];
    var r := Insert(gs, e);
    KeysStep(es);
    if e.key !in GroupKeys(gs) {
      assert GroupKeys(r) == GroupKeys(gs) + [e.key];
    } else {
      assert GroupKeys(r) == GroupKeys(gs);
    }
  }

  lemma StepMembers<T>(es: seq<Entry<T>>, gs: seq<Group<T>>)
    requires |es| > 0 && DistinctKeys(gs) && KeysCovered(es[..|es| - 1], gs) && MembersExact(es[..|es| - 1], gs)
    ensures MembersExact(es, Insert(gs, es[|es| - 1]))
  {
    var e := es[|es| - 1];
    var r := Insert(gs, e);
    MembersStep(es);
    forall j | 0 <= j < |r|
      ensures r[j].members == Members(es, r[j].key)
    {
      if j == |gs| {
        assert GroupKeys(gs)[..] == GroupKeys(gs);
        assert e.key !in Keys(es[..|es| - 1]);
      }
    }
  }

  lemma StepFirst<T>(es: seq<Entry<T>>, gs: seq<Group<T>>)
    requires |es| > 0 && DistinctKeys(gs) && KeysCovered(es[..|es| - 1], gs) && FromFirst(es[..|es| - 1], gs)
    ensures FromFirst(es, Insert(gs, es[|es| - 1]))
  {
    var e := es[|es| - 1];
    var r := Insert(gs, e);
    KeysStep(es);
    forall j | 0 <= j < |r|
      ensures r[j].key in Keys(es)
      ensures r[j].category == FirstWith(es, r[j].key).category
      ensures r[j].exportDir == FirstWith(es, r[j].key).exportDir
    {
      if j == |gs| {
        assert e.key !in Keys(es[..|es| - 1]);
      }
    }
  }

  lemma StepOrder<T>(es: seq<Entry<T>>, gs: seq<Group<T>>)
    requires |es| > 0 && DistinctKeys(gs) && KeysCovered(es[..|es| - 1], gs)
    requires FromFirst(es[..|es| - 1], gs) && FirstAppearanceOrder(es[..|es| - 1], gs)
    ensures FirstAppearanceOrder(es, Insert(gs, es[|es| - 1]))
  {
    var prefix := es[..|es| - 1];
    var e := es[|es| - 1];
    var r := Insert(gs, e);
    KeysStep(es);
    forall a, b | 0 <= a < b < |r| && r[a].key in Keys(es) && r[b].key in Keys(es)
      ensures IndexOf(Keys(es), r[a].key).value < IndexOf(Keys(es), r[b].key).value
    {
      assert r[a].key in Keys(prefix);
      if b == |gs| {
        assert e.key !in Keys(prefix);
        assert IndexOf(Keys(prefix), r[a].key).value < |prefix|;
      }
    }
  }

  /** Adding an entry at the end does not move the first position of an existing key. */
  lemma KeysStep<T>(es: seq<Entry<T>>)
    requires |es| > 0
    ensures Keys(es) == Keys(es[..|es| - 1]) + [es[|es| - 1].key]
    ensures forall k :: k in Keys(es[..|es| - 1]) ==> IndexOf(Keys(es), k) == IndexOf(Keys(es[..|es| - 1]), k)
    ensures es[|es| - 1].key !in Keys(es[..|es| - 1]) ==> IndexOf(Keys(es), es[|es| - 1].key) == Some(|es| - 1)
    ensures forall k :: k in Keys(es[..|es| - 1]) ==> FirstWith(es, k) == FirstWith(es[..|es| - 1], k)
  {
    var ks := Keys(es[..|es| - 1]);
    forall k | k in ks
      ensures IndexOf(ks + [es[|es| - 1].key], k) == IndexOf(ks, k)
    {
      IndexOfPrefix(ks, es[|es| - 1].key, k);
    }
    if es[|es| - 1].key !in ks {
      IndexOfNew(ks, es[|es| - 1].key);
    }
  }

  lemma MembersStep<T>(es: seq<Entry<T>>)
    requires |es| > 0
    ensures forall k :: Members(es, k) == Members(es[..|es| - 1], k) + (if es[|es| - 1].key == k then [es[|es| - 1].item] else [])
  {
  }

  lemma {:induction false} IndexOfPrefix(xs: seq<string>, y: string, x: string)
    requires x in xs
    ensures IndexOf(xs + [y], x) == IndexOf(xs, x)
    decreases |xs|
  {
    if xs[0] != x {
      assert (xs + [y])[1..] == xs[1..] + [y];
      IndexOfPrefix(xs[1..], y, x);
    }
  }

  lemma {:induction false} IndexOfNew(xs: seq<string>, x: string)
    requires x !in xs
    ensures IndexOf(xs + [x], x) == Some(|xs|)
    decreases |xs|
  {
    if |xs| > 0 {
      assert (xs + [x])[1..] == xs[1..] + [x];
      IndexOfNew(xs[1..], x);
    }
  }

  /** A group holds one item per entry carrying its key. */
  lemma {:induction false} MembersMultiplicity<T>(es: seq<Entry<T>>, k: string)
    ensures |Members(es, k)| == multiset(Keys(es))[k]
    decreases |es|
  {
    if |es| > 0 {
      MembersMultiplicity(es[..|es| - 1], k);
      KeysStep(es);
    }
  }

  /** Every item of a group comes from an entry carrying the group's key. */
  lemma {:induction false} MembersOrigin<T>(es: seq<Entry<T>>, k: string, m: nat)
    requires m < |Members(es, k)|
    ensures exists i :: 0 <= i < |es| && es[i].key == k && es[i].item == Members(es, k)[m]
    decreases |es|
  {
    var prefix := es[..|es| - 1];
    if m < |Members(prefix, k)| {
      MembersOrigin(prefix, k, m);
      var i :| 0 <= i < |prefix| && prefix[i].key == k && prefix[i].item == Members(prefix, k)[m];
      assert es[i] == prefix[i];
    } else {
      assert es[|es| - 1].key == k && es[|es| - 1].item == Members(es, k)[m];
    }
  }

  /** A key carried by one entry only gives a group of one item. */
  lemma SingleMember<T>(es: seq<Entry<T>>, i: nat)
    requires i < |es|
    requires forall i' :: 0 <= i' < |es| && i' != i ==> es[i'].key != es[i].key
    ensures |Members(es, es[i].key)| == 1
  {
    var ks := Keys(es);
    var k := es[i].key;
    assert ks == ks[..i] + [k] + ks[i + 1..];
    assert k !in ks[..i] && k !in ks[i + 1..];
    assert multiset(ks)[k] == multiset(ks[..i])[k] + 1 + multiset(ks[i + 1..])[k];
    MembersMultiplicity(es, k);
  }

  /** A key carried by two entries gives a group of at least two items. */
  lemma TwoMembers<T>(es: seq<Entry<T>>, i: nat, i': nat)
    requires i < i' < |es| && es[i].key == es[i'].key
    ensures |Members(es, es[i].key)| >= 2
  {
    var ks := Keys(es);
    var k := es[i].key;
    var front, back := ks[..i'], ks[i' + 1..];
    assert ks == front + [k] + back;
    assert front[i] == k;
    assert multiset(front)[k] >= 1;
    assert multiset(ks) == multiset(front) + multiset([k]) + multiset(back);
    MembersMultiplicity(es, k);
  }

  /** Every key of the input has its group, holding the items with that key. */
  lemma GroupOf<T>(es: seq<Entry<T>>, i: nat) returns (j: nat)
    requires i < |es|
    ensures j < |GroupAll(es)| && GroupAll(es)[j].key == es[i].key
    ensures GroupAll(es)[j].members == Members(es, es[i].key)
  {
    var gs := GroupAll(es);
    assert Keys(es)[i] == es[i].key;
    assert es[i].key in GroupKeys(gs);
    j :| 0 <= j < |gs| && GroupKeys(gs)[j] == es[i].key;
  }

  /** Every group is non-empty, and whatever holds of every input item holds of every grouped item. */
  lemma GroupAllMembers<T>(es: seq<Entry<T>>, p: T -> bool)
    requires forall i :: 0 <= i < |es| ==> p(es[i].item)
    ensures forall j :: 0 <= j < |GroupAll(es)| ==> |GroupAll(es)[j].members| >= 1
    ensures forall j, m :: 0 <= j < |GroupAll(es)| && 0 <= m < |GroupAll(es)[j].members| ==> p(GroupAll(es)[j].members[m])
  {
    var gs := GroupAll(es);
    forall j, m | 0 <= j < |gs| && 0 <= m < |gs[j].members|
      ensures p(gs[j].members[m])
    {
      MembersOrigin(es, gs[j].key, m);
    }
  }

  // ---------------------------------------------------------------------
  // Nothing is lost or duplicated
  // ---------------------------------------------------------------------

  function Weight<T>(items: seq<T>, w: T -> nat): nat
  {
    if |items| == 0 then 0 else Weight(items[..|items| - 1], w) + w(items[|items| - 1])
  }

  function Items<T>(es: seq<Entry<T>>): (xs: seq<T>)
    ensures |xs| == |es|
    ensures forall i :: 0 <= i < |es| ==> xs[i] == es[i].item
  {
    seq(|es|, i requires 0 <= i < |es| => es[i].item)
  }

  function GroupsWeight<T>(gs: seq<Group<T>>, w: T -> nat): nat
  {
    if |gs| == 0 then 0 else GroupsWeight(gs[..|gs| - 1], w) + Weight(gs[|gs| - 1].members, w)
  }

  lemma {:induction false} GroupsWeightUpdate<T>(gs: seq<Group<T>>, j: nat, x: T, w: T -> nat)
    requires j < |gs|
    ensures GroupsWeight(gs[j := gs[j].(members := gs[j].members + [x])], w) == GroupsWeight(gs, w) + w(x)
    decreases |gs|
  {
    var gs' := gs[j := gs[j].(members := gs[j].members + [x])];
    assert (gs[j].members + [x])[..|gs[j].members|] == gs[j].members;
    if j < |gs| - 1 {
      assert gs'[..|gs| - 1] == gs[..|gs| - 1][j := gs[j].(members := gs[j].members + [x])];
      GroupsWeightUpdate(gs[..|gs| - 1], j, x, w);
    } else {
      assert gs'[..|gs| - 1] == gs[..|gs| - 1];
    }
  }

  lemma ItemsStep<T>(es: seq<Entry<T>>, w: T -> nat)
    requires |es| > 0
    ensures Weight(Items(es), w) == Weight(Items(es[..|es| - 1]), w) + w(es[|es| - 1].item)
  {
    assert Items(es)[..|es| - 1] == Items(es[..|es| - 1]);
  }

  /** One loop iteration adds exactly the new item's weight. */
  lemma InsertWeight<T>(gs: seq<Group<T>>, e: Entry<T>, w: T -> nat)
    requires DistinctKeys(gs)
    ensures GroupsWeight(Insert(gs, e), w) == GroupsWeight(gs, w) + w(e.item)
  {
    var g := Group(e.key, e.category, e.exportDir, [e.item]);
    match IndexOf(GroupKeys(gs), e.key)
    case None =>
      assert Insert(gs, e) == gs + [g];
      assert (gs + [g])[..|gs|] == gs;
      assert [e.item][..0] == [];
      assert Weight(g.members, w) == w(e.item);
    case Some(j) =>
      GroupsWeightUpdate(gs, j, e.item, w);
  }

  /**
   * Whatever the items weigh (a table's row count, say), the groups weigh
   * as much as the input: grouping loses and duplicates nothing.
   */
  lemma {:induction false} GroupAllConserves<T>(es: seq<Entry<T>>, w: T -> nat)
    ensures GroupsWeight(GroupAll(es), w) == Weight(Items(es), w)
    decreases |es|
  {
    if |es| > 0 {
      var prefix := es[..|es| - 1];
      GroupAllConserves(prefix, w);
      InsertWeight(GroupAll(prefix), es[|es| - 1], w);
      ItemsStep(es, w);
    }
  }
}

=== FILE: imputation.dfy ===
/**
 * Repairing negative engagement counts in the content-metrics sheet.
 *
 * LinkedIn exports occasionally report a negative daily count. Both
 * pipelines replace a negative "Reactions/Comments/Shares/Clicks (total)"
 * by a three-day moving average of the non-negative counts, but they
 * compute that average differently:
 *
 *  - DuckDB (`process_content_metrics`) averages over the rows whose Date
 *    lies in `[d - 2, d]`, writes the result back into the INT column
 *    (a DOUBLE to INT cast rounds half to even), and joins the write-back
 *    on Date;
 *  - pandas (`clean_content_metrics_data`) uses `rolling(3).mean()` over row
 *    positions, so the first two rows have no average (NaN), and then
 *    recomputes "Engagement Rate (total)".
 *
 * The averaging window of DuckDB's `UPDATE ... FROM temp t1` is correlated
 * with the FROM row `t1`, not with the row being updated; which `t1` row
 * DuckDB pairs with each updated row is left open, as the parameter
 * `partner`; the lemmas that compare the two pipelines take `partner[i] == i`.
 */
module Imputation {

  import opened Common
  import opened Calendar
  import opened Catalog
  import opened Tables

  /** The four counts that are repaired, in the order the source lists them. */
  const MetricColumns: seq<string> := [ReactionsTotal, CommentsTotal, SharesTotal, ClicksTotal]

  // ---------------------------------------------------------------------
  // Cells as numbers and dates
  // ---------------------------------------------------------------------

  /** A cell numeric code can read: missing (NULL / NaN) or a number. */
  predicate IsNumber(v: Value) {
    v.Null? || v.Int? || v.Real?
  }

  /** The number a numeric cell holds; `None` for a missing one. */
  function NumberOf(v: Value): Option<real>
    requires IsNumber(v)
  {
    match v
    case Int(i) => Some(i as real)
    case Real(x) => Some(x)
    case _ => None
  }

  /** A column read as numbers; a text cell makes the comparison `>= 0` raise. */
  function Numbers(vals: seq<Value>): (r: Result<seq<Option<real>>>)
    ensures r.Success? <==> forall i :: 0 <= i < |vals| ==> IsNumber(vals[i])
    ensures r.Success? ==> |r.value| == |vals| && forall i :: 0 <= i < |vals| ==> r.value[i] == NumberOf(vals[i])
    decreases |vals|
  {
    if |vals| == 0 then Success([])
    else if !IsNumber(vals[0]) then Failure(TypeCoercionError("comparison of a non-numeric count"))
    else
      var tail :- Numbers(vals[1..]);
      Success([NumberOf(vals[0])] + tail)
  }

  /** A number as a float cell: NaN is a missing cell. */
  function RealCell(x: Option<real>): (v: Value)
    ensures v.Null? <==> x.None?
    ensures x.Some? ==> v == Real(x.value)
  {
    if x.None? then Null else Real(x.value)
  }

  /** The `(positive)` column: the count when it is a non-negative number, else 0. */
  function Positive(x: Option<real>): (p: real)
    ensures p >= 0.0
    ensures x.Some? && x.value >= 0.0 ==> p == x.value
  {
    if x.Some? && x.value >= 0.0 then x.value else 0.0
  }

  function Positives(xs: seq<Option<real>>): (ps: seq<real>)
    ensures |ps| == |xs|
    ensures forall i :: 0 <= i < |xs| ==> ps[i] == Positive(xs[i])
  {
    seq(|xs|, i requires 0 <= i < |xs| => Positive(xs[i]))
  }

  /** Every present date is a real calendar date (a DuckDB DATE cannot be anything else). */
  predicate DatesValid(dates: seq<Option<Date>>) {
    forall i :: 0 <= i < |dates| && dates[i].Some? ==> ValidDate(dates[i].value)
  }

  predicate IsDateCell(v: Value) {
    v.Null? || (v.DateV? && ValidDate(v.date))
  }

  /** The Date column of a loaded table; anything but NULL or a DATE is an engine error. */
  function DateValues(vals: seq<Value>): (r: Result<seq<Option<Date>>>)
    ensures r.Success? <==> forall i :: 0 <= i < |vals| ==> IsDateCell(vals[i])
    ensures r.Success? ==> |r.value| == |vals| && DatesValid(r.value)
    ensures r.Success? ==> forall i :: 0 <= i < |vals| ==> (r.value[i].None? <==> vals[i].Null?)
    ensures r.Success? ==> forall i :: 0 <= i < |vals| && vals[i].DateV? ==> r.value[i] == Some(vals[i].date)
    decreases |vals|
  {
    if |vals| == 0 then Success([])
    else if !IsDateCell(vals[0]) then Failure(TypeCoercionError("Date column holds a non-date"))
    else
      var tail :- DateValues(vals[1..]);
      Success([if vals[0].Null? then None else Some(vals[0].date)] + tail)
  }

  /** `d - 2 <= e <= d` on day numbers; a NULL date is in no window. */
  function DayNumbers(dates: seq<Option<Date>>): (days: seq<Option<int>>)
    requires DatesValid(dates)
    ensures |days| == |dates|
    ensures forall i :: 0 <= i < |dates| ==> (days[i].Some? <==> dates[i].Some?)
    ensures forall i :: 0 <= i < |dates| && dates[i].Some? ==> days[i] == Some(DayNumber(dates[i].value))
  {
    seq(|dates|, i requires 0 <= i < |dates| => if dates[i].None? then None else Some(DayNumber(dates[i].value)))
  }

  // ---------------------------------------------------------------------
  // DOUBLE to INT
  // ---------------------------------------------------------------------

  /** DuckDB's DOUBLE to INTEGER cast: the nearest integer, ties to the even one. */
  function NearbyInt(x: real): (n: int)
    ensures n as real - x <= 0.5 && x - n as real <= 0.5
    ensures (n as real - x == 0.5 || x - n as real == 0.5) ==> n % 2 == 0
  {
    var f := x.Floor;
    var frac := x - f as real;
    if frac < 0.5 then f
    else if frac > 0.5 then f + 1
    else if f % 2 == 0 then f
    else f + 1
  }

  /** Integers survive the cast unchanged. */
  lemma NearbyIntOfInt(k: int)
    ensures NearbyInt(k as real) == k
  {
    var n := NearbyInt(k as real);
    assert -1 < n - k < 1;
  }

  /** A missing DOUBLE stays NULL; a present one is rounded into the INT column. */
  function IntCell(x: Option<real>): (v: Value)
    ensures v.Null? <==> x.None?
    ensures x.Some? ==> v.Int? && v.i as real - x.value <= 0.5 && x.value - v.i as real <= 0.5
  {
    if x.None? then Null else Int(NearbyInt(x.value))
  }

  // ---------------------------------------------------------------------
  // DuckDB: the date window
  // ---------------------------------------------------------------------

  predicate InWindow(day: Option<int>, anchor: int) {
    day.Some? && anchor - 2 <= day.value <= anchor
  }

  /** Sum of the `(positive)` values of rows `0 .. k-1` whose date is in the window ending at `anchor`. */
  function WindowSum(days: seq<Option<int>>, pos: seq<real>, anchor: int, k: nat): (s: real)
    requires |days| == |pos| && k <= |days|
    ensures (forall j :: 0 <= j < k ==> pos[j] >= 0.0) ==> s >= 0.0
  {
    if k == 0 then 0.0
    else WindowSum(days, pos, anchor, k - 1) + (if InWindow(days[k - 1], anchor) then pos[k - 1] else 0.0)
  }

  /** Number of rows `0 .. k-1` whose date is in the window ending at `anchor`. */
  function WindowCount(days: seq<Option<int>>, anchor: int, k: nat): (c: nat)
    requires k <= |days|
    ensures c <= k
    ensures (exists j :: 0 <= j < k && days[j] == Some(anchor)) ==> c >= 1
  {
    if k == 0 then 0
    else WindowCount(days, anchor, k - 1) + (if InWindow(days[k - 1], anchor) then 1 else 0)
  }

  /** The rows among `0 .. k-1` whose date falls in the window ending at `anchor`. */
  function WindowRows(days: seq<Option<int>>, anchor: int, k: nat): set<int>
    requires k <= |days|
  {
    set j | 0 <= j < k && InWindow(days[j], anchor)
  }

  /** The `(positive)` column with every row outside the window set to 0. */
  function Masked(days: seq<Option<int>>, pos: seq<real>, anchor: int): (ms: seq<real>)
    requires |days| == |pos|
    ensures |ms| == |pos|
    ensures forall j :: 0 <= j < |pos| ==> ms[j] == if InWindow(days[j], anchor) then pos[j] else 0.0
  {
    seq(|pos|, j requires 0 <= j < |pos| => if InWindow(days[j], anchor) then pos[j] else 0.0)
  }

  /**
   * SQL's `AVG` over the window, stated on its own: the sum of the values of
   * the rows in the window divided by how many rows there are, NULL when
   * there is no anchor date or no row in the window.
   */
  ghost function WindowMean(days: seq<Option<int>>, pos: seq<real>, anchor: Option<int>): Option<real>
    requires |days| == |pos|
  {
    if anchor.None? || |WindowRows(days, anchor.value, |days|)| == 0 then None
    else Some(RangeSum(Masked(days, pos, anchor.value), 0, |pos|) / |WindowRows(days, anchor.value, |days|)| as real)
  }

  /** The running count is the size of the window's row set. */
  lemma {:induction false} WindowCountIsRows(days: seq<Option<int>>, anchor: int, k: nat)
    requires k <= |days|
    ensures WindowCount(days, anchor, k) == |WindowRows(days, anchor, k)|
    decreases k
  {
    if k == 0 {
      assert WindowRows(days, anchor, 0) == {};
    } else {
      WindowCountIsRows(days, anchor, k - 1);
      var before := WindowRows(days, anchor, k - 1);
      if InWindow(days[k - 1], anchor) {
        assert WindowRows(days, anchor, k) == before + {k - 1};
        assert k - 1 !in before;
      } else {
        assert WindowRows(days, anchor, k) == before;
      }
    }
  }

  /** The running sum is the sum of the masked column. */
  lemma {:induction false} WindowSumIsMasked(days: seq<Option<int>>, pos: seq<real>, anchor: int, k: nat)
    requires |days| == |pos| && k <= |days|
    ensures WindowSum(days, pos, anchor, k) == RangeSum(Masked(days, pos, anchor), 0, k)
    decreases k
  {
    if k > 0 {
      WindowSumIsMasked(days, pos, anchor, k - 1);
    }
  }

  /**
   * `SELECT AVG(positive) FROM temp t2 WHERE t2."Date" BETWEEN d - 2 AND d`:
   * NULL when `d` is NULL or no row falls in the window.
   */
  function DuckAverage(days: seq<Option<int>>, pos: seq<real>, anchor: Option<int>): (m: Option<real>)
    requires |days| == |pos|
    ensures m.Some? ==> anchor.Some? && WindowCount(days, anchor.value, |days|) > 0
    ensures anchor.Some? && anchor in days ==> m.Some?
    ensures m.Some? && (forall j :: 0 <= j < |pos| ==> pos[j] >= 0.0) ==> m.value >= 0.0
  {
    if anchor.None? then None
    else
      var c := WindowCount(days, anchor.value, |days|);
      if c == 0 then None
      else Some(WindowSum(days, pos, anchor.value, |days|) / c as real)
  }

  /** DuckDB's running sum and count compute SQL's `AVG` over the window. */
  lemma DuckAverageIsWindowMean(days: seq<Option<int>>, pos: seq<real>, anchor: Option<int>)
    requires |days| == |pos|
    ensures DuckAverage(days, pos, anchor) == WindowMean(days, pos, anchor)
  {
    if anchor.Some? {
      WindowCountIsRows(days, anchor.value, |days|);
      WindowSumIsMasked(days, pos, anchor.value, |days|);
    }
  }

  /**
   * The `(final)` column: a non-negative total is kept, anything else (a
   * negative or NULL total) takes the moving average, whose window is
   * anchored at the date of the row's join partner.
   */
  function DuckFinals(days: seq<Option<int>>, totals: seq<Option<real>>, partner: seq<nat>): (fs: seq<Option<real>>)
    requires |days| == |totals| == |partner|
    requires forall i :: 0 <= i < |partner| ==> partner[i] < |days|
    ensures |fs| == |totals|
    ensures forall i :: 0 <= i < |totals| ==> fs[i].None? || fs[i].value >= 0.0
    ensures forall i :: 0 <= i < |totals| && totals[i].Some? && totals[i].value >= 0.0 ==> fs[i] == totals[i]
    ensures forall i :: 0 <= i < |totals| && !(totals[i].Some? && totals[i].value >= 0.0) ==>
      fs[i] == WindowMean(days, Positives(totals), days[partner[i]])
  {
    var pos := Positives(totals);
    assert forall i :: 0 <= i < |partner| ==> DuckAverage(days, pos, days[partner[i]]) == WindowMean(days, pos, days[partner[i]]) by {
      forall i | 0 <= i < |partner| {
        DuckAverageIsWindowMean(days, pos, days[partner[i]]);
      }
    }
    seq(|totals|, i requires 0 <= i < |totals| =>
      if totals[i].Some? && totals[i].value >= 0.0 then totals[i]
      else DuckAverage(days, pos, days[partner[i]]))
  }

  /**
   * `UPDATE table SET total = t.final FROM temp t WHERE table."Date" = t."Date"`:
   * an undated row matches nothing and keeps its cell; a dated row takes the
   * final value of the first temp row with the same date, cast to INT.
   */
  function DuckWriteBack(dates: seq<Option<Date>>, cells: seq<Value>, finals: seq<Option<real>>): (r: seq<Value>)
    requires |dates| == |cells| == |finals|
    ensures |r| == |cells|
    ensures forall i :: 0 <= i < |cells| && dates[i].None? ==> r[i] == cells[i]
    ensures forall i :: 0 <= i < |cells| && dates[i].Some? ==>
      r[i] == IntCell(finals[IndexOf(dates, dates[i]).value])
  {
    seq(|cells|, i requires 0 <= i < |cells| =>
      if dates[i].None? then cells[i] else IntCell(finals[IndexOf(dates, dates[i]).value]))
  }

  /** A cell holding no negative count. */
  predicate NotNegative(v: Value) {
    v.Null? || (v.Int? && v.i >= 0) || (v.Real? && v.r >= 0.0)
  }

  /** One count column through `process_content_metrics`. */
  function DuckImputeColumn(dates: seq<Option<Date>>, cells: seq<Value>, partner: seq<nat>): (r: Result<seq<Value>>)
    requires DatesValid(dates) && |dates| == |cells| == |partner|
    requires forall i :: 0 <= i < |partner| ==> partner[i] < |cells|
    ensures r.Success? <==> forall i :: 0 <= i < |cells| ==> IsNumber(cells[i])
    ensures r.Success? ==> |r.value| == |cells|
    ensures r.Success? ==> forall i :: 0 <= i < |cells| && dates[i].None? ==> r.value[i] == cells[i]
    ensures r.Success? ==> forall i :: 0 <= i < |cells| && dates[i].Some? ==> r.value[i].Null? || (r.value[i].Int? && r.value[i].i >= 0)
  {
    var totals :- Numbers(cells);
    var finals := DuckFinals(DayNumbers(dates), totals, partner);
    Success(DuckWriteBack(dates, cells, finals))
  }

  /**
   * What a dated row ends with: the join reaches the first row `j` with the
   * same date; a non-negative count there is kept, anything else takes the
   * window mean anchored at the date of `j`'s partner; either is cast to INT.
   */
  lemma DuckImputeColumnValues(dates: seq<Option<Date>>, cells: seq<Value>, partner: seq<nat>, i: nat)
    requires DatesValid(dates) && |dates| == |cells| == |partner|
    requires forall k :: 0 <= k < |partner| ==> partner[k] < |cells|
    requires forall k :: 0 <= k < |cells| ==> IsNumber(cells[k])
    requires i < |cells| && dates[i].Some?
    ensures DuckImputeColumn(dates, cells, partner).Success?
    ensures IndexOf(dates, dates[i]).Some?
    ensures
      var j := IndexOf(dates, dates[i]).value;
      DuckImputeColumn(dates, cells, partner).value[i] == IntCell(
        if NumberOf(cells[j]).Some? && NumberOf(cells[j]).value >= 0.0 then NumberOf(cells[j])
        else WindowMean(DayNumbers(dates), Positives(Numbers(cells).value), DayNumbers(dates)[partner[j]]))
  {
    assert dates[i] in dates;
    var j := IndexOf(dates, dates[i]).value;
    var totals := Numbers(cells).value;
    assert totals[j] == NumberOf(cells[j]);
  }

  /** No two rows share a date; the write-back join then pairs each row with itself. */
  predicate UniqueDates(dates: seq<Option<Date>>) {
    forall a, b :: 0 <= a < b < |dates| && dates[a].Some? ==> dates[a] != dates[b]
  }

  /** Each row's window is anchored at its own date. */
  predicate IdentityPartner(partner: seq<nat>) {
    forall i :: 0 <= i < |partner| ==> partner[i] == i
  }

  lemma UniqueIndexOf(dates: seq<Option<Date>>, i: nat)
    requires UniqueDates(dates) && i < |dates| && dates[i].Some?
    ensures IndexOf(dates, dates[i]) == Some(i)
  {
  }

  /** With unique dates a non-negative INT count comes through the repair unchanged. */
  lemma DuckKeepsNonNegative(dates: seq<Option<Date>>, cells: seq<Value>, partner: seq<nat>, i: nat)
    requires DatesValid(dates) && |dates| == |cells| == |partner|
    requires forall k :: 0 <= k < |partner| ==> partner[k] < |cells|
    requires forall k :: 0 <= k < |cells| ==> IsNumber(cells[k])
    requires UniqueDates(dates)
    requires i < |cells| && cells[i].Int? && cells[i].i >= 0
    ensures DuckImputeColumn(dates, cells, partner) == Success(DuckImputeColumn(dates, cells, partner).value)
    ensures DuckImputeColumn(dates, cells, partner).value[i] == cells[i]
  {
    if dates[i].Some? {
      UniqueIndexOf(dates, i);
      NearbyIntOfInt(cells[i].i);
    }
  }

  /**
   * In the intended reading (each row's own window, unique dates) every
   * dated row ends with a number: a negative or NULL count becomes the
   * rounded average of the window, which contains at least the row itself.
   */
  lemma DuckRepairsEveryDatedRow(dates: seq<Option<Date>>, cells: seq<Value>, partner: seq<nat>, i: nat)
    requires DatesValid(dates) && |dates| == |cells| == |partner|
    requires IdentityPartner(partner)
    requires forall k :: 0 <= k < |cells| ==> IsNumber(cells[k])
    requires UniqueDates(dates)
    requires i < |cells| && dates[i].Some?
    ensures DuckImputeColumn(dates, cells, partner).Success?
    ensures DuckImputeColumn(dates, cells, partner).value[i].Int?
  {
    var days := DayNumbers(dates);
    var totals := Numbers(cells).value;
    UniqueIndexOf(dates, i);
    assert days[i] in days;
    var finals := DuckFinals(days, totals, partner);
    assert finals[i].Some?;
  }

  // ---------------------------------------------------------------------
  // pandas: rolling(3) over row positions
  // ---------------------------------------------------------------------

  /** Sum of `pos[lo .. hi-1]`. */
  function RangeSum(pos: seq<real>, lo: nat, hi: nat): (s: real)
    requires lo <= hi <= |pos|
    ensures (forall j :: lo <= j < hi ==> pos[j] >= 0.0) ==> s >= 0.0
    decreases hi - lo
  {
    if hi == lo then 0.0 else RangeSum(pos, lo, hi - 1) + pos[hi - 1]
  }

  /** `rolling(window=3).mean()`: NaN until three rows are available, then the mean of the last three. */
  function PandasRolling(pos: seq<real>): (ms: seq<Option<real>>)
    ensures |ms| == |pos|
    ensures forall i :: 0 <= i < |pos| ==> (ms[i].None? <==> i < 2)
  {
    seq(|pos|, i requires 0 <= i < |pos| => if i < 2 then None else Some(RangeSum(pos, i - 2, i + 1) / 3.0))
  }

  /** From the third row on, the rolling mean is the mean of that row and the two before it. */
  lemma RollingMeanOfThree(pos: seq<real>)
    ensures forall i :: 2 <= i < |pos| ==> PandasRolling(pos)[i] == Some((pos[i - 2] + pos[i - 1] + pos[i]) / 3.0)
  {
    var ms := PandasRolling(pos);
    forall i | 2 <= i < |pos|
      ensures ms[i] == Some((pos[i - 2] + pos[i - 1] + pos[i]) / 3.0)
    {
      var sum := RangeSum(pos, i - 2, i + 1);
      assert ms[i] == Some(sum / 3.0);
      assert sum == pos[i - 2] + pos[i - 1] + pos[i] by {
        assert RangeSum(pos, i - 2, i - 1) == pos[i - 2];
        assert RangeSum(pos, i - 2, i) == pos[i - 2] + pos[i - 1];
      }
    }
  }

  /**
   * One count column of `clean_content_metrics_data`: a negative count takes
   * the rolling mean of the `(positive)` column; anything else, NaN
   * included, is kept.
   */
  function PandasCleaned(totals: seq<Option<real>>): (cs: seq<Option<real>>)
    ensures |cs| == |totals|
    ensures forall i :: 0 <= i < |totals| ==> cs[i].None? || cs[i].value >= 0.0
    ensures forall i :: 0 <= i < |totals| && !(totals[i].Some? && totals[i].value < 0.0) ==> cs[i] == totals[i]
    ensures forall i :: 0 <= i < |totals| && i < 2 && totals[i].Some? && totals[i].value < 0.0 ==> cs[i].None?
    ensures forall i :: 2 <= i < |totals| && totals[i].Some? && totals[i].value < 0.0 ==>
      cs[i] == Some((Positive(totals[i - 2]) + Positive(totals[i - 1])) / 3.0)
  {
    var ms := PandasRolling(Positives(totals));
    RollingNonNegative(Positives(totals));
    RollingMeanOfThree(Positives(totals));
    seq(|totals|, i requires 0 <= i < |totals| =>
      if totals[i].Some? && totals[i].value < 0.0 then ms[i] else totals[i])
  }

  /** The rolling mean of non-negative values is non-negative. */
  lemma RollingNonNegative(pos: seq<real>)
    requires forall j :: 0 <= j < |pos| ==> pos[j] >= 0.0
    ensures forall i :: 0 <= i < |pos| && PandasRolling(pos)[i].Some? ==> PandasRolling(pos)[i].value >= 0.0
  {
    forall i | 0 <= i < |pos| && PandasRolling(pos)[i].Some?
      ensures PandasRolling(pos)[i].value >= 0.0
    {
      assert forall j :: i - 2 <= j < i + 1 ==> pos[j] >= 0.0;
    }
  }

  /** Dates one day apart, row after row, from day number `base` on. */
  predicate ConsecutiveDays(days: seq<Option<int>>, base: int) {
    forall k :: 0 <= k < |days| ==> days[k] == Some(base + k)
  }

  lemma {:induction false} WindowOnConsecutiveDays(days: seq<Option<int>>, pos: seq<real>, base: int, i: nat, k: nat)
    requires |days| == |pos| && ConsecutiveDays(days, base) && 2 <= i < |days| && k <= |days|
    ensures WindowSum(days, pos, base + i, k) ==
      if k <= i - 2 then 0.0 else RangeSum(pos, i - 2, if k <= i + 1 then k else i + 1)
    ensures WindowCount(days, base + i, k) ==
      if k <= i - 2 then 0 else if k <= i + 1 then k - (i - 2) else 3
    decreases k
  {
    if k > 0 {
      WindowOnConsecutiveDays(days, pos, base, i, k - 1);
    }
  }

  /**
   * With one row per consecutive day, DuckDB's date window of a row after
   * the second holds exactly that row and the two before it, so its
   * average is pandas' rolling mean.
   */
  lemma AveragesAgreeOnConsecutiveDays(days: seq<Option<int>>, pos: seq<real>, base: int, i: nat)
    requires |days| == |pos| && ConsecutiveDays(days, base) && 2 <= i < |days|
    ensures DuckAverage(days, pos, Some(base + i)) == PandasRolling(pos)[i]
  {
    WindowOnConsecutiveDays(days, pos, base, i, |days|);
  }

  /** Consecutive day numbers never repeat a date. */
  lemma ConsecutiveDatesUnique(dates: seq<Option<Date>>, base: int)
    requires DatesValid(dates) && ConsecutiveDays(DayNumbers(dates), base)
    ensures UniqueDates(dates)
  {
    var days := DayNumbers(dates);
    forall a, b | 0 <= a < b < |dates| && dates[a].Some?
      ensures dates[a] != dates[b]
    {
      assert days[a] != days[b];
    }
  }

  /** With consecutive days and each row its own partner, DuckDB's final for a negative total from row 2 on is the rolling mean. */
  lemma DuckFinalIsRolling(days: seq<Option<int>>, totals: seq<Option<real>>, partner: seq<nat>, base: int, i: nat)
    requires |days| == |totals| == |partner|
    requires IdentityPartner(partner) && ConsecutiveDays(days, base)
    requires 2 <= i < |totals| && totals[i].Some? && totals[i].value < 0.0
    ensures DuckFinals(days, totals, partner)[i] == PandasRolling(Positives(totals))[i]
  {
    var pos := Positives(totals);
    AveragesAgreeOnConsecutiveDays(days, pos, base, i);
    DuckAverageIsWindowMean(days, pos, Some(base + i));
    assert days[partner[i]] == Some(base + i);
  }

  /** pandas' repaired value for a negative total from row 2 on is the rolling mean of the zero-filled positives. */
  lemma CleanedIsRolling(totals: seq<Option<real>>, i: nat)
    requires 2 <= i < |totals| && totals[i].Some? && totals[i].value < 0.0
    ensures PandasCleaned(totals)[i] == PandasRolling(Positives(totals))[i]
  {
    var pos := Positives(totals);
    RollingMeanOfThree(pos);
    assert pos[i] == 0.0 && pos[i - 2] == Positive(totals[i - 2]) && pos[i - 1] == Positive(totals[i - 1]);
  }

  /** The `(final)` value of a row after the second, with consecutive days, is pandas' repaired value. */
  lemma FinalsAgreeOnConsecutiveDays(days: seq<Option<int>>, totals: seq<Option<real>>, partner: seq<nat>, base: int, i: nat)
    requires |days| == |totals| == |partner|
    requires IdentityPartner(partner) && ConsecutiveDays(days, base)
    requires 2 <= i < |totals| && totals[i].Some?
    ensures DuckFinals(days, totals, partner)[i] == PandasCleaned(totals)[i]
  {
    if totals[i].value < 0.0 {
      DuckFinalIsRolling(days, totals, partner, base, i);
      CleanedIsRolling(totals, i);
    }
  }

  /**
   * On every row after the second, with one row per consecutive day and
   * each row averaging its own window, DuckDB's repaired INT cell is pandas'
   * repaired value cast to INT: the two pipelines agree up to the cast.
   */
  lemma PipelinesAgreeAfterTwoRows(dates: seq<Option<Date>>, cells: seq<Value>, partner: seq<nat>, base: int, i: nat)
    requires DatesValid(dates) && |dates| == |cells| == |partner|
    requires IdentityPartner(partner)
    requires forall k :: 0 <= k < |cells| ==> IsNumber(cells[k])
    requires ConsecutiveDays(DayNumbers(dates), base)
    requires 2 <= i < |cells| && !cells[i].Null?
    ensures DuckImputeColumn(dates, cells, partner).Success?
    ensures DuckImputeColumn(dates, cells, partner).value[i] == IntCell(PandasCleaned(Numbers(cells).value)[i])
  {
    var totals := Numbers(cells).value;
    ConsecutiveDatesUnique(dates, base);
    UniqueIndexOf(dates, i);
    FinalsAgreeOnConsecutiveDays(DayNumbers(dates), totals, partner, base, i);
  }

  /** `(reactions + comments + clicks + shares) / impressions`; a NaN operand or a zero divisor leaves the rate missing. */
  function EngagementRateOf(reactions: Option<real>, comments: Option<real>, clicks: Option<real>, shares: Option<real>,
                            impressions: Option<real>): (rate: Option<real>)
    ensures rate.Some? <==>
      reactions.Some? && comments.Some? && clicks.Some? && shares.Some? && impressions.Some? && impressions.value != 0.0
    ensures rate.Some? ==>
      rate.value * impressions.value == reactions.value + comments.value + clicks.value + shares.value
  {
    if reactions.Some? && comments.Some? && clicks.Some? && shares.Some? && impressions.Some? && impressions.value != 0.0
    then Some((reactions.value + comments.value + clicks.value + shares.value) / impressions.value)
    else None
  }

  /** A negative count in the first two rows is repaired by DuckDB but left NaN by pandas. */
  lemma BoundaryRowsDiffer(dates: seq<Option<Date>>, cells: seq<Value>, partner: seq<nat>, i: nat)
    requires DatesValid(dates) && |dates| == |cells| == |partner|
    requires IdentityPartner(partner)
    requires forall k :: 0 <= k < |cells| ==> IsNumber(cells[k])
    requires UniqueDates(dates)
    requires i < 2 && i < |cells| && dates[i].Some?
    requires NumberOf(cells[i]).Some? && NumberOf(cells[i]).value < 0.0
    ensures DuckImputeColumn(dates, cells, partner).Success?
    ensures DuckImputeColumn(dates, cells, partner).value[i].Int?
    ensures PandasCleaned(Numbers(cells).value)[i].None?
  {
    DuckRepairsEveryDatedRow(dates, cells, partner, i);
  }

  /** DuckDB's table-level step over the listed count columns, one after the other. */
  function DuckImputeMetrics(t: Table, dates: seq<Option<Date>>, names: seq<string>, partner: seq<nat>): (r: Result<Table>)
    requires WellFormed(t) && DatesValid(dates) && |dates| == |t.rows| == |partner|
    requires forall i :: 0 <= i < |partner| ==> partner[i] < |t.rows|
    ensures r.Success? ==> forall n :: n in names ==> n in t.columns
    ensures r.Success? ==> WellFormed(r.value) && r.value.columns == t.columns && |r.value.rows| == |t.rows|
    ensures r.Success? ==> forall i, j :: 0 <= i < |t.rows| && 0 <= j < |t.columns| && t.columns[j] !in names ==>
      r.value.rows[i][j] == t.rows[i][j]
    ensures r.Success? ==> forall i :: 0 <= i < |t.rows| && dates[i].None? ==> r.value.rows[i] == t.rows[i]
    decreases |names|
  {
    if |names| == 0 then Success(t)
    else
      var c :- ColumnIndex(t, names[0]);
      var vals :- DuckImputeColumn(dates, Column(t, c), partner);
      var t' := SetColumn(t, c, vals);
      assert forall i :: 0 <= i < |t.rows| && dates[i].None? ==> t'.rows[i] == t.rows[i];
      DuckImputeMetrics(t', dates, names[1..], partner)
  }

  /** No name is listed twice. */
  predicate DistinctNames(names: seq<string>) {
    forall a, b :: 0 <= a < b < |names| ==> names[a] != names[b]
  }

  /** A listed column, read where `t[name]` reads it, ends with no negative count in a dated row. */
  lemma {:induction false} DuckImputeMetricsRepairs(t: Table, dates: seq<Option<Date>>, names: seq<string>, partner: seq<nat>, j: nat)
    requires WellFormed(t) && DatesValid(dates) && |dates| == |t.rows| == |partner|
    requires forall i :: 0 <= i < |partner| ==> partner[i] < |t.rows|
    requires DuckImputeMetrics(t, dates, names, partner).Success?
    requires FirstOfName(t.columns, j) && t.columns[j] in names
    ensures forall i :: 0 <= i < |t.rows| && dates[i].Some? ==> NotNegative(DuckImputeMetrics(t, dates, names, partner).value.rows[i][j])
    decreases |names|
  {
    var c := ColumnIndex(t, names[0]).value;
    var vals := DuckImputeColumn(dates, Column(t, c), partner).value;
    var t' := SetColumn(t, c, vals);
    assert DuckImputeMetrics(t, dates, names, partner) == DuckImputeMetrics(t', dates, names[1..], partner);
    if t.columns[j] in names[1..] {
      DuckImputeMetricsRepairs(t', dates, names[1..], partner, j);
    } else {
      assert c == j;
    }
  }

  /**
   * With no name listed twice, each listed column, read where `t[name]`
   * reads it, ends as the single-column repair of its original cells: the
   * repairs of the other columns do not touch it.
   */
  lemma {:induction false} DuckImputeMetricsColumn(t: Table, dates: seq<Option<Date>>, names: seq<string>, partner: seq<nat>, j: nat)
    requires WellFormed(t) && DatesValid(dates) && |dates| == |t.rows| == |partner|
    requires forall i :: 0 <= i < |partner| ==> partner[i] < |t.rows|
    requires DuckImputeMetrics(t, dates, names, partner).Success?
    requires DistinctNames(names) && FirstOfName(t.columns, j) && t.columns[j] in names
    ensures DuckImputeColumn(dates, Column(t, j), partner).Success?
    ensures Column(DuckImputeMetrics(t, dates, names, partner).value, j) == DuckImputeColumn(dates, Column(t, j), partner).value
    decreases |names|
  {
    var c := ColumnIndex(t, names[0]).value;
    var vals := DuckImputeColumn(dates, Column(t, c), partner).value;
    var t' := SetColumn(t, c, vals);
    var r := DuckImputeMetrics(t, dates, names, partner).value;
    assert r == DuckImputeMetrics(t', dates, names[1..], partner).value;
    if c == j {
      assert t.columns[j] !in names[1..] by {
        forall b | 0 <= b < |names[1..]|
          ensures names[1..][b] != t.columns[j]
        {
          assert names[1..][b] == names[b + 1];
        }
      }
      assert Column(r, j) == vals;
    } else {
      assert t.columns[j] in names[1..];
      assert DistinctNames(names[1..]) by {
        forall a, b | 0 <= a < b < |names[1..]|
          ensures names[1..][a] != names[1..][b]
        {
          assert names[1..][a] == names[a + 1] && names[1..][b] == names[b + 1];
        }
      }
      assert Column(t', j) == Column(t, j);
      DuckImputeMetricsColumn(t', dates, names[1..], partner, j);
    }
  }

  /** The dates `process_content_metrics` reads: the cells of the first "Date" column. */
  function ContentDates(t: Table): (r: Result<seq<Option<Date>>>)
    requires WellFormed(t)
    ensures r.Success? <==> DateColumn in t.columns && forall i :: 0 <= i < |t.rows| ==> IsDateCell(t.rows[i][IndexOf(t.columns, DateColumn).value])
    ensures r.Success? ==> |r.value| == |t.rows| && DatesValid(r.value)
    ensures r.Success? ==> forall i :: 0 <= i < |t.rows| ==>
      (r.value[i].None? <==> t.rows[i][IndexOf(t.columns, DateColumn).value].Null?)
  {
    var k :- ColumnIndex(t, DateColumn);
    DateValues(Column(t, k))
  }

  /**
   * `process_content_metrics`: the Date column is read as dates, then each
   * of the four count columns is repaired. Undated rows are untouched, no
   * repaired count of a dated row is negative, and no other column changes.
   */
  function DuckProcessContentMetrics(t: Table, partner: seq<nat>): (r: Result<Table>)
    requires WellFormed(t)
    requires |partner| == |t.rows| && forall i :: 0 <= i < |partner| ==> partner[i] < |t.rows|
    ensures r.Success? ==> DateColumn in t.columns && forall n :: n in MetricColumns ==> n in t.columns
    ensures r.Success? ==> WellFormed(r.value) && r.value.columns == t.columns && |r.value.rows| == |t.rows|
    ensures r.Success? ==> forall i, j :: 0 <= i < |t.rows| && 0 <= j < |t.columns| && t.columns[j] !in MetricColumns ==>
      r.value.rows[i][j] == t.rows[i][j]
    ensures r.Success? ==> forall i :: 0 <= i < |t.rows| && t.rows[i][IndexOf(t.columns, DateColumn).value].Null? ==>
      r.value.rows[i] == t.rows[i]
  {
    var dates :- ContentDates(t);
    DuckImputeMetrics(t, dates, MetricColumns, partner)
  }

  lemma MetricColumnsDistinct()
    ensures DistinctNames(MetricColumns)
  {
    assert MetricColumns[0][0] == 'R' && MetricColumns[1][0] == 'C' && MetricColumns[2][0] == 'S' && MetricColumns[3][0] == 'C';
    assert MetricColumns[1][1] == 'o' && MetricColumns[3][1] == 'l';
  }

  /** No count column is the "Extraction Range" column the date stamp writes. */
  lemma MetricColumnNotRange(n: string)
    requires n in MetricColumns
    ensures n != ExtractionRange
  {
    assert ExtractionRange[0] == 'E';
    assert MetricColumns[0][0] == 'R' && MetricColumns[1][0] == 'C' && MetricColumns[2][0] == 'S' && MetricColumns[3][0] == 'C';
  }

  /**
   * Each of the four count columns, read where `t[name]` reads it, ends as
   * the single-column repair of its own cells against the table's dates,
   * and no dated row of it holds a negative count.
   */
  lemma DuckProcessContentMetricsColumn(t: Table, partner: seq<nat>, j: nat)
    requires WellFormed(t)
    requires |partner| == |t.rows| && forall i :: 0 <= i < |partner| ==> partner[i] < |t.rows|
    requires DuckProcessContentMetrics(t, partner).Success?
    requires FirstOfName(t.columns, j) && t.columns[j] in MetricColumns
    ensures ContentDates(t).Success?
    ensures DuckImputeColumn(ContentDates(t).value, Column(t, j), partner).Success?
    ensures Column(DuckProcessContentMetrics(t, partner).value, j) == DuckImputeColumn(ContentDates(t).value, Column(t, j), partner).value
    ensures forall i :: 0 <= i < |t.rows| && ContentDates(t).value[i].Some? ==>
      NotNegative(DuckProcessContentMetrics(t, partner).value.rows[i][j])
  {
    var dates := ContentDates(t).value;
    assert DuckProcessContentMetrics(t, partner) == DuckImputeMetrics(t, dates, MetricColumns, partner);
    MetricColumnsDistinct();
    DuckImputeMetricsColumn(t, dates, MetricColumns, partner, j);
    DuckImputeMetricsRepairs(t, dates, MetricColumns, partner, j);
  }

  // ---------------------------------------------------------------------
  // pandas: clean_content_metrics_data
  // ---------------------------------------------------------------------

  /** The columns `clean_content_metrics_data` selects first. */
  const PandasInputColumns: seq<string> :=
    [DateColumn, ImpressionsTotal, ClicksTotal, ReactionsTotal, CommentsTotal, SharesTotal, EngagementRateTotal, ExtractionRange]

  /** The columns it returns: the stored rate is replaced by the recomputed one. */
  const PandasOutputColumns: seq<string> :=
    [DateColumn, ImpressionsTotal, ClicksTotal, ReactionsTotal, CommentsTotal, SharesTotal, RecomputedEngagementRate, ExtractionRange]

  /** Impressions and the four counts of the selected frame are all numeric. */
  predicate CountsNumeric(s: Table)
    requires WellFormed(s) && |s.columns| == 8
  {
    forall i, j :: 0 <= i < |s.rows| && 1 <= j <= 5 ==> IsNumber(s.rows[i][j])
  }

  /**
   * The recomputed rate of an output row is present exactly when the four
   * counts and a non-zero impressions figure are, and then times the
   * impressions it gives back the sum of the counts.
   */
  predicate RateConsistent(row: seq<Value>, impressions: Option<real>)
    requires |row| == 8
  {
    && (row[6].Real? <==>
         row[2].Real? && row[3].Real? && row[4].Real? && row[5].Real? && impressions.Some? && impressions.value != 0.0)
    && (row[6].Null? || row[6].Real?)
    && (row[6].Real? ==>
         (row[2].Real? && row[3].Real? && row[4].Real? && row[5].Real? && impressions.Some? &&
          row[6].r * impressions.value == row[2].r + row[3].r + row[4].r + row[5].r))
  }

  /** A repaired count: never negative, NaN stays NaN, and a count that was not negative is kept. */
  predicate CountRepaired(src: Value, out: Value) {
    && NotNegative(out)
    && (src.Null? ==> out.Null?)
    && (NotNegative(src) ==> out == RealCell(NumberOf(src)))
  }

  /**
   * The output row built from a selected row and its repaired counts
   * `counts` (clicks, reactions, comments, shares, as the columns are
   * ordered).
   */
  function CleanRow(row: seq<Value>, counts: seq<Option<real>>, impressions: Option<real>): (out: seq<Value>)
    requires |row| == 8 && |counts| == 4
    ensures |out| == 8 && out[0] == row[0] && out[1] == row[1] && out[7] == row[7]
    ensures forall j :: 2 <= j <= 5 ==> out[j] == RealCell(counts[j - 2])
    ensures RateConsistent(out, impressions)
  {
    [row[0], row[1], RealCell(counts[0]), RealCell(counts[1]), RealCell(counts[2]), RealCell(counts[3]),
     RealCell(EngagementRateOf(counts[1], counts[2], counts[0], counts[3], impressions)), row[7]]
  }

  /** Column `j` of a frame read as numbers. */
  function NumberColumn(s: Table, j: nat): (xs: seq<Option<real>>)
    requires WellFormed(s) && j < |s.columns|
    requires forall i :: 0 <= i < |s.rows| ==> IsNumber(s.rows[i][j])
    ensures |xs| == |s.rows|
    ensures forall i :: 0 <= i < |s.rows| ==> xs[i] == NumberOf(s.rows[i][j])
  {
    seq(|s.rows|, i requires 0 <= i < |s.rows| => NumberOf(s.rows[i][j]))
  }

  /**
   * What a negative count in column `j`, row `i` of a selected frame becomes:
   * NaN on the first two rows, else the mean of the two `(positive)` counts
   * above it and its own `(positive)` value, 0.
   */
  function RollingRepair(s: Table, i: nat, j: nat): (x: Option<real>)
    requires WellFormed(s) && i < |s.rows| && j < |s.columns|
    requires forall k :: 0 <= k < |s.rows| ==> IsNumber(s.rows[k][j])
    ensures x.None? <==> i < 2
  {
    if i < 2 then None
    else Some((Positive(NumberOf(s.rows[i - 2][j])) + Positive(NumberOf(s.rows[i - 1][j]))) / 3.0)
  }

  /** A negative count of column `j` is replaced by its rolling repair. */
  lemma CleanedColumnRepair(s: Table, j: nat)
    requires WellFormed(s) && j < |s.columns|
    requires forall k :: 0 <= k < |s.rows| ==> IsNumber(s.rows[k][j])
    ensures forall i :: 0 <= i < |s.rows| && !NotNegative(s.rows[i][j]) ==>
      PandasCleaned(NumberColumn(s, j))[i] == RollingRepair(s, i, j)
  {
    var totals := NumberColumn(s, j);
    forall i | 0 <= i < |s.rows| && !NotNegative(s.rows[i][j])
      ensures PandasCleaned(totals)[i] == RollingRepair(s, i, j)
    {
      assert totals[i].Some? && totals[i].value < 0.0;
      if i >= 2 {
        assert totals[i - 2] == NumberOf(s.rows[i - 2][j]) && totals[i - 1] == NumberOf(s.rows[i - 1][j]);
      }
    }
  }

  /** The four repaired count columns of a selected frame. */
  function CleanedCounts(s: Table): (cs: seq<seq<Option<real>>>)
    requires WellFormed(s) && |s.columns| == 8 && CountsNumeric(s)
    ensures |cs| == 4
    ensures forall c :: 0 <= c < 4 ==> |cs[c]| == |s.rows|
    ensures forall c, i :: 0 <= c < 4 && 0 <= i < |s.rows| ==> CountRepaired(s.rows[i][c + 2], RealCell(cs[c][i]))
  {
    seq(4, c requires 0 <= c < 4 => PandasCleaned(NumberColumn(s, c + 2)))
  }

  /** Every negative count of the four columns becomes its rolling repair. */
  lemma CleanedCountsRepair(s: Table)
    requires WellFormed(s) && |s.columns| == 8 && CountsNumeric(s)
    ensures forall c, i :: 0 <= c < 4 && 0 <= i < |s.rows| && !NotNegative(s.rows[i][c + 2]) ==>
      CleanedCounts(s)[c][i] == RollingRepair(s, i, c + 2)
  {
    forall c | 0 <= c < 4
      ensures forall i :: 0 <= i < |s.rows| && !NotNegative(s.rows[i][c + 2]) ==>
        CleanedCounts(s)[c][i] == RollingRepair(s, i, c + 2)
    {
      CleanedColumnRepair(s, c + 2);
    }
  }

  /** The selected frame after the counts are repaired and the rate recomputed. */
  function CleanSelected(s: Table): (r: Table)
    requires WellFormed(s) && |s.columns| == 8 && CountsNumeric(s)
    ensures WellFormed(r) && r.columns == PandasOutputColumns && |r.rows| == |s.rows|
    ensures forall i :: 0 <= i < |s.rows| ==>
      && r.rows[i][0] == s.rows[i][0]
      && r.rows[i][1] == s.rows[i][1]
      && r.rows[i][7] == s.rows[i][7]
      && (forall j :: 2 <= j <= 5 ==> CountRepaired(s.rows[i][j], r.rows[i][j]))
      && RateConsistent(r.rows[i], NumberOf(s.rows[i][1]))
  {
    var impressions := NumberColumn(s, 1);
    var cs := CleanedCounts(s);
    Table(PandasOutputColumns, seq(|s.rows|, i requires 0 <= i < |s.rows| =>
      CleanRow(s.rows[i], [cs[0][i], cs[1][i], cs[2][i], cs[3][i]], impressions[i])))
  }

  /** The output cell of a negative count holds its rolling repair. */
  lemma CleanSelectedCell(s: Table, i: nat, j: nat)
    requires WellFormed(s) && |s.columns| == 8 && CountsNumeric(s)
    requires i < |s.rows| && 2 <= j <= 5 && !NotNegative(s.rows[i][j])
    ensures CleanSelected(s).rows[i][j] == RealCell(RollingRepair(s, i, j))
  {
    var cs := CleanedCounts(s);
    var counts := [cs[0][i], cs[1][i], cs[2][i], cs[3][i]];
    assert CleanSelected(s).rows[i] == CleanRow(s.rows[i], counts, NumberColumn(s, 1)[i]);
    assert counts[j - 2] == PandasCleaned(NumberColumn(s, j))[i];
    CleanedColumnRepair(s, j);
  }

  /** In the output frame every negative count holds its rolling repair. */
  lemma CleanSelectedRepair(s: Table)
    requires WellFormed(s) && |s.columns| == 8 && CountsNumeric(s)
    ensures forall i, j :: 0 <= i < |s.rows| && 2 <= j <= 5 && !NotNegative(s.rows[i][j]) ==>
      CleanSelected(s).rows[i][j] == RealCell(RollingRepair(s, i, j))
  {
    forall i, j | 0 <= i < |s.rows| && 2 <= j <= 5 && !NotNegative(s.rows[i][j])
      ensures CleanSelected(s).rows[i][j] == RealCell(RollingRepair(s, i, j))
    {
      CleanSelectedCell(s, i, j);
    }
  }

  /**
   * `clean_content_metrics_data`: select the eight columns (a missing one
   * raises), repair the four counts, and recompute the rate from the
   * repaired counts.
   */
  function PandasCleanContentMetrics(t: Table): (r: Result<Table>)
    requires WellFormed(t)
    ensures r.Success? <==>
      Select(t, PandasInputColumns).Success? && CountsNumeric(Select(t, PandasInputColumns).value)
    ensures r.Success? ==> r.value == CleanSelected(Select(t, PandasInputColumns).value)
  {
    var s :- Select(t, PandasInputColumns);
    if !CountsNumeric(s) then Failure(TypeCoercionError("comparison of a non-numeric count"))
    else Success(CleanSelected(s))
  }
}

=== FILE: loading.dfy ===
/**
 * Giving an extracted sheet its schema. DuckDB's `load_data_from_pandas`
 * renames the columns from the catalog, creates the typed table and
 * inserts the rows, parsing every DATE column with
 * `STRPTIME(CAST(col AS VARCHAR), '%m/%d/%Y')` (NULL and '' become NULL).
 * pandas' `translate_cols` renames the columns the same way, and
 * `convert_column_types` later runs `pd.to_datetime` over the sheet's date
 * columns and "Extraction Range".
 *
 * Both date parsers are parameters: `strptime` stands for the CAST and
 * STRPTIME of one cell, `parse` for `pd.to_datetime` of one non-missing,
 * non-date cell; `None` means the parser raises.
 */
module Loading {

  import opened Common
  import opened Strings
  import opened Calendar
  import opened Catalog
  import opened Tables
  import opened Discovery

  // ---------------------------------------------------------------------
  // DuckDB: load_data_from_pandas
  // ---------------------------------------------------------------------

  /** A DuckDB table with the bookkeeping `load_data_from_pandas` returns for it. */
  datatype DuckTable = DuckTable(kind: SheetKind, period: string, dbName: string, exportDir: string, table: Table)

  /** A cell a DATE column accepts: NULL, the empty string, or a value STRPTIME parses. */
  predicate DateCellOk(v: Value, strptime: Value -> Option<Date>)
  {
    v == Null || v == Text("") || strptime(v).Some?
  }

  /** What a DATE column stores for a cell it accepts. */
  function CoercedDate(v: Value, strptime: Value -> Option<Date>): Value
    requires DateCellOk(v, strptime)
  {
    if v == Null || v == Text("") then Null else DateV(strptime(v).value)
  }

  /** The `CASE WHEN ... STRPTIME ... END` of one cell; cells of other columns pass through. */
  function CoerceCell(v: Value, ty: SqlType, strptime: Value -> Option<Date>): Result<Value>
  {
    if ty != SqlDate then Success(v)
    else if DateCellOk(v, strptime) then Success(CoercedDate(v, strptime))
    else Failure(TypeCoercionError("STRPTIME with format %m/%d/%Y"))
  }

  /** One row of the `INSERT ... SELECT`. */
  function CoerceRow(row: seq<Value>, defs: seq<ColumnDef>, strptime: Value -> Option<Date>): (r: Result<seq<Value>>)
    requires |row| == |defs|
    ensures r.Success? <==> forall j :: 0 <= j < |row| && defs[j].sqlType == SqlDate ==> DateCellOk(row[j], strptime)
    ensures r.Success? ==> |r.value| == |row|
    ensures r.Success? ==> forall j :: 0 <= j < |row| ==>
      r.value[j] == if defs[j].sqlType == SqlDate then CoercedDate(row[j], strptime) else row[j]
    decreases |row|
  {
    if |row| == 0 then Success([])
    else
      var head :- CoerceCell(row[0], defs[0].sqlType, strptime);
      var tail :- CoerceRow(row[1..], defs[1..], strptime);
      Success([head] + tail)
  }

  /** Every DATE cell of the table is one the insert accepts. */
  predicate DatesParse(t: Table, defs: seq<ColumnDef>, strptime: Value -> Option<Date>)
    requires WellFormed(t) && |defs| == |t.columns|
  {
    forall i, j :: 0 <= i < |t.rows| && 0 <= j < |defs| && defs[j].sqlType == SqlDate ==>
      DateCellOk(t.rows[i][j], strptime)
  }

  /** The whole `INSERT INTO ... SELECT ... FROM temp_table`; the first bad DATE cell aborts it. */
  function CoerceRows(rows: seq<seq<Value>>, defs: seq<ColumnDef>, strptime: Value -> Option<Date>)
    : (r: Result<seq<seq<Value>>>)
    requires forall i :: 0 <= i < |rows| ==> |rows[i]| == |defs|
    ensures r.Success? <==> DatesParse(Table(ColumnNames(defs), rows), defs, strptime)
    ensures r.Success? ==> |r.value| == |rows|
    ensures r.Success? ==> forall i :: 0 <= i < |rows| ==> |r.value[i]| == |defs|
    ensures r.Success? ==> forall i, j :: 0 <= i < |rows| && 0 <= j < |defs| ==>
      r.value[i][j] == if defs[j].sqlType == SqlDate then CoercedDate(rows[i][j], strptime) else rows[i][j]
    decreases |rows|
  {
    if |rows| == 0 then Success([])
    else
      var head :- CoerceRow(rows[0], defs, strptime);
      var tail :- CoerceRows(rows[1..], defs, strptime);
      Success([head] + tail)
  }

  /** The typed table the insert produces: the catalog's names, DATE cells coerced. */
  function TypedTable(t: Table, defs: seq<ColumnDef>, strptime: Value -> Option<Date>): (r: Result<Table>)
    requires WellFormed(t)
    ensures r.Success? <==>
      |t.columns| == |defs| && DatesParse(Table(ColumnNames(defs), t.rows), defs, strptime)
    ensures r.Success? ==>
      && WellFormed(r.value) && r.value.columns == ColumnNames(defs) && |r.value.rows| == |t.rows|
      && forall i, j :: 0 <= i < |t.rows| && 0 <= j < |defs| ==>
        r.value.rows[i][j] == if defs[j].sqlType == SqlDate then CoercedDate(t.rows[i][j], strptime) else t.rows[i][j]
  {
    var renamed :- RenameColumns(t, ColumnNames(defs));
    var rows :- CoerceRows(renamed.rows, defs, strptime);
    Success(Table(ColumnNames(defs), rows))
  }

  /** `directory.replace("raw", "clean")`: no "raw" is left, and the path changes iff it held one. */
  function CleanDir(dir: string): (r: string)
    ensures !Contains(r, "raw")
    ensures r == dir <==> !Contains(dir, "raw")
  {
    ReplaceRemovesAll(dir);
    ReplaceIdentityIff(dir);
    ReplaceAll(dir, "raw", "clean")
  }

  /** The table `load_data_from_pandas` creates for a frame: f"{dataframe_name}_{extraction_period}". */
  function DuckTableName(f: Frame<string>): string
  {
    KindName(f.kind) + "_" + f.period
  }

  /**
   * `load_data_from_pandas`: rename to the catalog's columns (a sheet of the
   * wrong width raises), coerce the DATE columns, name the table
   * f"{dataframe_name}_{extraction_period}", and derive the export
   * directory by replacing every "raw" in the directory with "clean".
   */
  function LoadData(f: Frame<string>, strptime: Value -> Option<Date>): (r: Result<DuckTable>)
    requires WellFormed(f.table)
    ensures r.Success? <==>
      |f.table.columns| == ExpectedWidth(f.kind)
      && DatesParse(Table(ColumnNames(TableAttributes(f.kind)), f.table.rows), TableAttributes(f.kind), strptime)
    ensures r.Success? ==>
      r.value == DuckTable(f.kind, f.period, DuckTableName(f), CleanDir(f.dir), r.value.table)
    ensures r.Success? ==> TypedTable(f.table, TableAttributes(f.kind), strptime) == Success(r.value.table)
  {
    ColumnCounts(f.kind);
    var t :- TypedTable(f.table, TableAttributes(f.kind), strptime);
    Success(DuckTable(f.kind, f.period, DuckTableName(f), CleanDir(f.dir), t))
  }

  // ---------------------------------------------------------------------
  // pandas: translate_cols and convert_column_types
  // ---------------------------------------------------------------------

  /** `translate_cols`: the catalog's names, positionally; a sheet of the wrong width raises. */
  function TranslateCols(f: Frame<seq<string>>): (r: Result<Frame<seq<string>>>)
    ensures r.Success? <==> |f.table.columns| == |TranslatedColumns(f.kind)|
    ensures r.Success? ==> r.value == f.(table := Table(TranslatedColumns(f.kind), f.table.rows))
  {
    var t :- RenameColumns(f.table, TranslatedColumns(f.kind));
    Success(f.(table := t))
  }

  /** A cell `pd.to_datetime` accepts: missing, already a date, or one the parser reads. */
  predicate Convertible(v: Value, parse: Value -> Option<Date>)
  {
    v.Null? || v.DateV? || parse(v).Some?
  }

  /** The cell `pd.to_datetime` produces: NaT for missing, dates unchanged, everything else parsed. */
  function Converted(v: Value, parse: Value -> Option<Date>): (w: Value)
    requires Convertible(v, parse)
    ensures w.Null? || w.DateV?
  {
    if v.Null? || v.DateV? then v else DateV(parse(v).value)
  }

  /** `pd.to_datetime` over one column's cells; any unreadable cell raises. */
  function ToDatetime(vals: seq<Value>, parse: Value -> Option<Date>): (r: Result<seq<Value>>)
    ensures r.Success? <==> forall i :: 0 <= i < |vals| ==> Convertible(vals[i], parse)
    ensures r.Success? ==> |r.value| == |vals| && forall i :: 0 <= i < |vals| ==> r.value[i] == Converted(vals[i], parse)
    decreases |vals|
  {
    if |vals| == 0 then Success([])
    else if !Convertible(vals[0], parse) then Failure(TypeCoercionError("pd.to_datetime"))
    else
      var tail :- ToDatetime(vals[1..], parse);
      Success([Converted(vals[0], parse)] + tail)
  }

  /** Every named column, read where `df[name]` reads it, holds only cells `pd.to_datetime` accepts. */
  predicate CellsConvertible(t: Table, names: seq<string>, parse: Value -> Option<Date>)
    requires WellFormed(t)
  {
    forall i, j :: 0 <= i < |t.rows| && 0 <= j < |t.columns| && FirstOfName(t.columns, j) && t.columns[j] in names ==>
      Convertible(t.rows[i][j], parse)
  }

  /**
   * `for column in names: df[column] = pd.to_datetime(df[column])`. A
   * missing column raises KeyError; an unreadable cell raises as well.
   */
  function ConvertColumns(t: Table, names: seq<string>, parse: Value -> Option<Date>): (r: Result<Table>)
    requires WellFormed(t)
    ensures r.Success? <==> (forall n :: n in names ==> n in t.columns) && CellsConvertible(t, names, parse)
    ensures r.Success? ==> forall n :: n in names ==> n in t.columns
    ensures r.Success? ==> WellFormed(r.value) && r.value.columns == t.columns && |r.value.rows| == |t.rows|
    ensures r.Success? ==> forall i, j :: 0 <= i < |t.rows| && FirstOfName(t.columns, j) && t.columns[j] in names ==>
      Convertible(t.rows[i][j], parse) && r.value.rows[i][j] == Converted(t.rows[i][j], parse)
    ensures r.Success? ==> forall i, j :: 0 <= i < |t.rows| && 0 <= j < |t.columns| && t.columns[j] !in names ==>
      r.value.rows[i][j] == t.rows[i][j]
    decreases |names|
  {
    if |names| == 0 then Success(t)
    else
      var k :- ColumnIndex(t, names[0]);
      var vals :- ToDatetime(Column(t, k), parse);
      var t1 := SetColumn(t, k, vals);
      ConvertedStable(vals, parse);
      ConvertRestConvertible(t, names, parse, k, vals);
      ConvertColumns(t1, names[1..], parse)
  }

  /**
   * After the first named column is converted, the rest are convertible in
   * the new table exactly when they were in the old one.
   */
  lemma ConvertRestConvertible(t: Table, names: seq<string>, parse: Value -> Option<Date>, k: nat, vals: seq<Value>)
    requires WellFormed(t) && |names| > 0 && k < |t.columns| && FirstOfName(t.columns, k) && t.columns[k] == names[0]
    requires |vals| == |t.rows| && forall i :: 0 <= i < |t.rows| ==> Convertible(t.rows[i][k], parse) && vals[i] == Converted(t.rows[i][k], parse)
    ensures CellsConvertible(SetColumn(t, k, vals), names[1..], parse) <==> CellsConvertible(t, names, parse)
  {
    var t1 := SetColumn(t, k, vals);
    ConvertedStable(vals, parse);
    if CellsConvertible(t, names, parse) {
      forall i, j | 0 <= i < |t1.rows| && 0 <= j < |t1.columns| && FirstOfName(t1.columns, j) && t1.columns[j] in names[1..]
        ensures Convertible(t1.rows[i][j], parse)
      {
        if j != k {
          assert t1.rows[i][j] == t.rows[i][j];
          assert t.columns[j] in names;
        }
      }
    } else {
      var i, j :| 0 <= i < |t.rows| && 0 <= j < |t.columns| && FirstOfName(t.columns, j) && t.columns[j] in names &&
        !Convertible(t.rows[i][j], parse);
      assert j != k;
      assert t1.rows[i][j] == t.rows[i][j];
      assert t.columns[j] != names[0];
      assert t1.columns[j] in names[1..];
    }
  }

  /** Converting an already converted cell changes nothing. */
  lemma ConvertedStable(vals: seq<Value>, parse: Value -> Option<Date>)
    ensures forall i :: 0 <= i < |vals| && (vals[i].Null? || vals[i].DateV?) ==>
      Convertible(vals[i], parse) && Converted(vals[i], parse) == vals[i]
  {
  }

  /** The columns `convert_column_types` converts: the sheet's date columns (none for most kinds) and "Extraction Range". */
  function ConvertedNames(k: SheetKind): (names: seq<string>)
    ensures ExtractionRange in names
    ensures forall n :: n in names <==> n in PandasDateColumns(k) || n == ExtractionRange
  {
    PandasDateColumns(k) + [ExtractionRange]
  }

  /**
   * `convert_column_types`: it succeeds exactly when every converted column
   * exists and holds only readable cells; each converted column, read where
   * `df[name]` reads it, holds the converted cells, and every column of
   * another name is unchanged.
   */
  function ConvertColumnTypes(f: Frame<seq<string>>, parse: Value -> Option<Date>): (r: Result<Frame<seq<string>>>)
    requires WellFormed(f.table)
    ensures r.Success? <==>
      (forall n :: n in ConvertedNames(f.kind) ==> n in f.table.columns) && CellsConvertible(f.table, ConvertedNames(f.kind), parse)
    ensures r.Success? ==> ExtractionRange in f.table.columns
    ensures r.Success? ==> r.value.kind == f.kind && r.value.dir == f.dir && r.value.period == f.period
    ensures r.Success? ==> WellFormed(r.value.table) && r.value.table.columns == f.table.columns
    ensures r.Success? ==> |r.value.table.rows| == |f.table.rows|
    ensures r.Success? ==> forall i, j :: 0 <= i < |f.table.rows| && FirstOfName(f.table.columns, j) && f.table.columns[j] in ConvertedNames(f.kind) ==>
      r.value.table.rows[i][j] == Converted(f.table.rows[i][j], parse)
    ensures r.Success? ==> forall i, j :: 0 <= i < |f.table.rows| && 0 <= j < |f.table.columns| && f.table.columns[j] !in ConvertedNames(f.kind) ==>
      r.value.table.rows[i][j] == f.table.rows[i][j]
  {
    var t :- ConvertColumns(f.table, ConvertedNames(f.kind), parse);
    Success(f.(table := t))
  }

  /** A table whose named columns hold only missing values and dates is left alone by the conversion. */
  lemma {:induction false} ConvertColumnsFixed(t: Table, names: seq<string>, parse: Value -> Option<Date>)
    requires WellFormed(t)
    requires forall n :: n in names ==> n in t.columns
    requires forall i, j :: 0 <= i < |t.rows| && FirstOfName(t.columns, j) && t.columns[j] in names ==>
      t.rows[i][j].Null? || t.rows[i][j].DateV?
    ensures ConvertColumns(t, names, parse) == Success(t)
    decreases |names|
  {
    if |names| > 0 {
      var k := IndexOf(t.columns, names[0]).value;
      assert FirstOfName(t.columns, k);
      var col := Column(t, k);
      assert ToDatetime(col, parse) == Success(col) by {
        ToDatetimeFixed(col, parse);
      }
      assert SetColumn(t, k, col) == t by {
        var t1 := SetColumn(t, k, col);
        forall i | 0 <= i < |t.rows|
          ensures t1.rows[i] == t.rows[i]
        {
        }
      }
      ConvertColumnsFixed(t, names[1..], parse);
    }
  }

  lemma {:induction false} ToDatetimeFixed(vals: seq<Value>, parse: Value -> Option<Date>)
    requires forall i :: 0 <= i < |vals| ==> vals[i].Null? || vals[i].DateV?
    ensures ToDatetime(vals, parse) == Success(vals)
    decreases |vals|
  {
    if |vals| > 0 {
      ToDatetimeFixed(vals[1..], parse);
      assert [vals[0]] + vals[1..] == vals;
    }
  }

  /** Running the type conversion a second time is a no-op. */
  lemma ConvertColumnsIdempotent(t: Table, names: seq<string>, parse: Value -> Option<Date>)
    requires WellFormed(t)
    requires ConvertColumns(t, names, parse).Success?
    ensures ConvertColumns(ConvertColumns(t, names, parse).value, names, parse) == ConvertColumns(t, names, parse)
  {
    var r := ConvertColumns(t, names, parse).value;
    ConvertColumnsFixed(r, names, parse);
  }
}

=== FILE: periods.dfy ===
/**
 * Turning an extraction period into the date its data runs up to. A month's
 * first export (sequence 1) covers the days up to the 15th, its second
 * (sequence 2) the rest of the month.
 *
 * The DuckDB pipeline looks the period up in a hard-coded table of the 48
 * periods of 2023 and 2024 (keys like "2023_Fev_2", with "Mai" for May);
 * the pandas pipeline splits "2023-Fev-2" on '-' and applies the Gregorian
 * month-length rule itself (with "Maio" for May). The lemmas check the table
 * against the rule and say where the two resolvers agree.
 */
module Periods {

  import opened Common
  import opened Strings
  import opened Calendar

  /** The day a period ends on: the month's last day for the second half, the 15th otherwise. */
  function PeriodEndDay(y: int, m: int, secondHalf: bool): (d: int)
    requires 1 <= m <= 12
    ensures 15 <= d <= DaysInMonth(y, m)
    ensures secondHalf ==> d == DaysInMonth(y, m)
  {
    if secondHalf then DaysInMonth(y, m) else 15
  }

  // ---------------------------------------------------------------------
  // DuckDB: the hard-coded `map_months_period` table
  // ---------------------------------------------------------------------

  /** The month directory names the DuckDB table knows, January first. */
  const DuckMonthTokens: seq<string> :=
    ["Jan", "Fev", "Mar", "Abr", "Mai", "Jun", "Jul", "Ago", "Set", "Out", "Nov", "Dez"]

  /** The period string the DuckDB pipeline builds: f"{year}_{month}_{i+1}". */
  function DuckPeriod(yearDir: string, monthDir: string, seqNo: nat): string
  {
    yearDir + "_" + monthDir + "_" + NatToString(seqNo)
  }

  /**
   * One entry of the table. Its key is the period string of year `year`,
   * month directory `token` and sequence `seqNo`; `date` is the value the
   * source writes for that key.
   */
  datatype PeriodEntry = PeriodEntry(year: nat, token: string, seqNo: nat, date: Date)

  function EntryKey(e: PeriodEntry): string
  {
    DuckPeriod(NatToString(e.year), e.token, e.seqNo)
  }

  /** `map_months_period`, entry by entry in the order written (2023, then 2024). */
  const MapMonthsPeriod: seq<PeriodEntry> := Periods2023 + Periods2024

  const Periods2023: seq<PeriodEntry> := [
      PeriodEntry(2023, "Jan", 1, Date(2023, 1, 15)),
      PeriodEntry(2023, "Jan", 2, Date(2023, 1, 31)),
      PeriodEntry(2023, "Fev", 1, Date(2023, 2, 15)),
      PeriodEntry(2023, "Fev", 2, Date(2023, 2, 28)),
      PeriodEntry(2023, "Mar", 1, Date(2023, 3, 15)),
      PeriodEntry(2023, "Mar", 2, Date(2023, 3, 31)),
      PeriodEntry(2023, "Abr", 1, Date(2023, 4, 15)),
      PeriodEntry(2023, "Abr", 2, Date(2023, 4, 30)),
      PeriodEntry(2023, "Mai", 1, Date(2023, 5, 15)),
      PeriodEntry(2023, "Mai", 2, Date(2023, 5, 31)),
      PeriodEntry(2023, "Jun", 1, Date(2023, 6, 15)),
      PeriodEntry(2023, "Jun", 2, Date(2023, 6, 30)),
      PeriodEntry(2023, "Jul", 1, Date(2023, 7, 15)),
      PeriodEntry(2023, "Jul", 2, Date(2023, 7, 31)),
      PeriodEntry(2023, "Ago", 1, Date(2023, 8, 15)),
      PeriodEntry(2023, "Ago", 2, Date(2023, 8, 31)),
      PeriodEntry(2023, "Set", 1, Date(2023, 9, 15)),
      PeriodEntry(2023, "Set", 2, Date(2023, 9, 30)),
      PeriodEntry(2023, "Out", 1, Date(2023, 10, 15)),
      PeriodEntry(2023, "Out", 2, Date(2023, 10, 31)),
      PeriodEntry(2023, "Nov", 1, Date(2023, 11, 15)),
      PeriodEntry(2023, "Nov", 2, Date(2023, 11, 30)),
      PeriodEntry(2023, "Dez", 1, Date(2023, 12, 15)),
      PeriodEntry(2023, "Dez", 2, Date(2023, 12, 31))
    ]

  const Periods2024: seq<PeriodEntry> := [
      PeriodEntry(2024, "Jan", 1, Date(2024, 1, 15)),
      PeriodEntry(2024, "Jan", 2, Date(2024, 1, 31)),
      PeriodEntry(2024, "Fev", 1, Date(2024, 2, 15)),
      PeriodEntry(2024, "Fev", 2, Date(2024, 2, 29)),
      PeriodEntry(2024, "Mar", 1, Date(2024, 3, 15)),
      PeriodEntry(2024, "Mar", 2, Date(2024, 3, 31)),
      PeriodEntry(2024, "Abr", 1, Date(2024, 4, 15)),
      PeriodEntry(2024, "Abr", 2, Date(2024, 4, 30)),
      PeriodEntry(2024, "Mai", 1, Date(2024, 5, 15)),
      PeriodEntry(2024, "Mai", 2, Date(2024, 5, 31)),
      PeriodEntry(2024, "Jun", 1, Date(2024, 6, 15)),
      PeriodEntry(2024, "Jun", 2, Date(2024, 6, 30)),
      PeriodEntry(2024, "Jul", 1, Date(2024, 7, 15)),
      PeriodEntry(2024, "Jul", 2, Date(2024, 7, 31)),
      PeriodEntry(2024, "Ago", 1, Date(2024, 8, 15)),
      PeriodEntry(2024, "Ago", 2, Date(2024, 8, 31)),
      PeriodEntry(2024, "Set", 1, Date(2024, 9, 15)),
      PeriodEntry(2024, "Set", 2, Date(2024, 9, 30)),
      PeriodEntry(2024, "Out", 1, Date(2024, 10, 15)),
      PeriodEntry(2024, "Out", 2, Date(2024, 10, 31)),
      PeriodEntry(2024, "Nov", 1, Date(2024, 11, 15)),
      PeriodEntry(2024, "Nov", 2, Date(2024, 11, 30)),
      PeriodEntry(2024, "Dez", 1, Date(2024, 12, 15)),
      PeriodEntry(2024, "Dez", 2, Date(2024, 12, 31))
    ]

  /** Dictionary lookup: the date of the entry whose key is `key`. */
  function Lookup(entries: seq<PeriodEntry>, key: string): (r: Option<Date>)
    ensures r.Some? <==> exists i :: 0 <= i < |entries| && EntryKey(entries[i]) == key
    ensures r.Some? ==> exists i :: 0 <= i < |entries| && EntryKey(entries[i]) == key && entries[i].date == r.value
  {
    if |entries| == 0 then None
    else if EntryKey(entries[0]) == key then Some(entries[0].date)
    else
      var r := Lookup(entries[1..], key);
      assert forall i :: 0 <= i < |entries| - 1 ==> entries[1..][i] == entries[i + 1];
      r
  }

  /** `map_months_period[table["extraction_period"]]`: a period outside the table raises KeyError. */
  function DuckFinalDate(period: string): (r: Result<Date>)
    ensures r.Success? <==> exists i :: 0 <= i < |MapMonthsPeriod| && EntryKey(MapMonthsPeriod[i]) == period
    ensures r.Failure? ==> r.error == InvalidPeriod(period)
  {
    match Lookup(MapMonthsPeriod, period)
    case None => Failure(InvalidPeriod(period))
    case Some(d) => Success(d)
  }

  /**
   * Entry `i` of the table is year 2023 + i / 24, month (i % 24) / 2 + 1 and
   * sequence i % 2 + 1, keyed by that month's name, and its date is the one
   * the month-length rule gives.
   */
  predicate EntryAt(i: int, e: PeriodEntry)
  {
    && e.year == 2023 + i / 24
    && e.date.year == e.year
    && e.date.month == (i % 24) / 2 + 1
    && e.seqNo == i % 2 + 1
    && e.token == DuckMonthTokens[e.date.month - 1]
    && e.date.day == PeriodEndDay(e.year, e.date.month, e.seqNo == 2)
  }

  lemma Shape2023()
    ensures |Periods2023| == 24
    ensures forall i :: 0 <= i < 24 ==> EntryAt(i, Periods2023[i])
  {
    forall i | 0 <= i < 24
      ensures EntryAt(i, Periods2023[i])
    {
      if i == 0 {}
      else if i == 1 {}
      else if i == 2 {}
      else if i == 3 {}
      else if i == 4 {}
      else if i == 5 {}
      else if i == 6 {}
      else if i == 7 {}
      else if i == 8 {}
      else if i == 9 {}
      else if i == 10 {}
      else if i == 11 {}
      else if i == 12 {}
      else if i == 13 {}
      else if i == 14 {}
      else if i == 15 {}
      else if i == 16 {}
      else if i == 17 {}
      else if i == 18 {}
      else if i == 19 {}
      else if i == 20 {}
      else if i == 21 {}
      else if i == 22 {}
      else if i == 23 {}
    }
  }

  lemma Shape2024()
    ensures |Periods2024| == 24
    ensures forall i :: 0 <= i < 24 ==> EntryAt(24 + i, Periods2024[i])
  {
    forall i | 0 <= i < 24
      ensures EntryAt(24 + i, Periods2024[i])
    {
      if i == 0 {}
      else if i == 1 {}
      else if i == 2 {}
      else if i == 3 {}
      else if i == 4 {}
      else if i == 5 {}
      else if i == 6 {}
      else if i == 7 {}
      else if i == 8 {}
      else if i == 9 {}
      else if i == 10 {}
      else if i == 11 {}
      else if i == 12 {}
      else if i == 13 {}
      else if i == 14 {}
      else if i == 15 {}
      else if i == 16 {}
      else if i == 17 {}
      else if i == 18 {}
      else if i == 19 {}
      else if i == 20 {}
      else if i == 21 {}
      else if i == 22 {}
      else if i == 23 {}
    }
  }

  /**
   * The hard-coded table is exactly the 48 half-month periods of 2023 and
   * 2024 in calendar order, and every date in it is the one the Gregorian
   * month-length rule gives (2023-02-28, 2024-02-29, ...).
   */
  lemma DuckTableFollowsCalendar()
    ensures |MapMonthsPeriod| == 48
    ensures forall i :: 0 <= i < 48 ==> EntryAt(i, MapMonthsPeriod[i])
  {
    Shape2023();
    Shape2024();
    forall i | 0 <= i < 48
      ensures EntryAt(i, MapMonthsPeriod[i])
    {
      if i >= 24 {
        assert MapMonthsPeriod[i] == Periods2024[i - 24];
      }
    }
  }

  /** The twelve month names are pairwise different. */
  lemma DuckTokensDistinct()
    ensures forall a, b :: 0 <= a < b < 12 ==> DuckMonthTokens[a] != DuckMonthTokens[b]
  {
  }

  /** The (year, month, sequence) triples the DuckDB table covers. */
  predicate DuckDomain(y: int, m: int, s: nat)
  {
    (y == 2023 || y == 2024) && 1 <= m <= 12 && (s == 1 || s == 2)
  }

  /** The parts of a period key come back out of it: distinct entries have distinct keys. */
  lemma EntryKeyInjective(a: PeriodEntry, b: PeriodEntry)
    requires '_' !in a.token && '_' !in b.token
    requires EntryKey(a) == EntryKey(b)
    ensures a.year == b.year && a.token == b.token && a.seqNo == b.seqNo
  {
    NatToStringHasNo(a.year, '_');
    NatToStringHasNo(a.seqNo, '_');
    NatToStringHasNo(b.year, '_');
    NatToStringHasNo(b.seqNo, '_');
    SplitThree(NatToString(a.year), a.token, NatToString(a.seqNo), '_');
    SplitThree(NatToString(b.year), b.token, NatToString(b.seqNo), '_');
    ParseNatToString(a.year);
    ParseNatToString(b.year);
    ParseNatToString(a.seqNo);
    ParseNatToString(b.seqNo);
  }

  lemma TableTokensPlain()
    ensures forall k :: 0 <= k < 12 ==> '_' !in DuckMonthTokens[k] && '-' !in DuckMonthTokens[k]
  {
  }

  /** Any entry whose key is the period of (y, m, s) holds that period's calendar date. */
  lemma EntryForKey(j: int, y: int, m: int, s: nat)
    requires DuckDomain(y, m, s)
    requires 0 <= j < |MapMonthsPeriod|
    requires EntryKey(MapMonthsPeriod[j]) == DuckPeriod(NatToString(y), DuckMonthTokens[m - 1], s)
    ensures MapMonthsPeriod[j].date == Date(y, m, PeriodEndDay(y, m, s == 2))
  {
    DuckTableFollowsCalendar();
    TableTokensPlain();
    DuckTokensDistinct();
    var e := MapMonthsPeriod[j];
    assert EntryAt(j, e);
    var f := PeriodEntry(y, DuckMonthTokens[m - 1], s, e.date);
    assert EntryKey(f) == EntryKey(e);
    EntryKeyInjective(e, f);
  }

  /** The key of the entry at the position of (y, m, s) is the period the pipeline builds for it. */
  lemma EntryAtKey(i: int, e: PeriodEntry, y: int, m: int, s: nat)
    requires DuckDomain(y, m, s) && i == (y - 2023) * 24 + (m - 1) * 2 + (s - 1)
    requires EntryAt(i, e)
    ensures EntryKey(e) == DuckPeriod(NatToString(y), DuckMonthTokens[m - 1], s)
  {
    assert i / 24 == y - 2023 && i % 24 == (m - 1) * 2 + (s - 1);
    assert e.year == y && e.seqNo == s && e.date.month == m;
  }

  /**
   * For every half-month of 2023 and 2024, the DuckDB lookup of the period
   * the pipeline builds returns the month's 15th or last day.
   */
  lemma DuckFinalDateResolves(y: int, m: int, s: nat)
    requires DuckDomain(y, m, s)
    ensures DuckFinalDate(DuckPeriod(NatToString(y), DuckMonthTokens[m - 1], s))
      == Success(Date(y, m, PeriodEndDay(y, m, s == 2)))
  {
    DuckTableFollowsCalendar();
    var period := DuckPeriod(NatToString(y), DuckMonthTokens[m - 1], s);
    var i := (y - 2023) * 24 + (m - 1) * 2 + (s - 1);
    EntryAtKey(i, MapMonthsPeriod[i], y, m, s);
    var r := DuckFinalDate(period);
    var j :| 0 <= j < |MapMonthsPeriod| && EntryKey(MapMonthsPeriod[j]) == period && MapMonthsPeriod[j].date == r.value;
    EntryForKey(j, y, m, s);
  }

  /** The DuckDB lookup succeeds exactly on the periods of the 48 half-months of 2023 and 2024. */
  lemma DuckFinalDateIff(period: string)
    ensures DuckFinalDate(period).Success? <==>
      exists y, m, s :: DuckDomain(y, m, s) && period == DuckPeriod(NatToString(y), DuckMonthTokens[m - 1], s)
  {
    if DuckFinalDate(period).Success? {
      DuckTableFollowsCalendar();
      var j :| 0 <= j < |MapMonthsPeriod| && EntryKey(MapMonthsPeriod[j]) == period;
      var e := MapMonthsPeriod[j];
      assert EntryAt(j, e);
      assert DuckDomain(e.year, e.date.month, e.seqNo);
    }
    if exists y, m, s :: DuckDomain(y, m, s) && period == DuckPeriod(NatToString(y), DuckMonthTokens[m - 1], s) {
      var y, m, s :| DuckDomain(y, m, s) && period == DuckPeriod(NatToString(y), DuckMonthTokens[m - 1], s);
      DuckFinalDateResolves(y, m, s);
    }
  }

  // ---------------------------------------------------------------------
  // pandas: split the period and apply the calendar rule
  // ---------------------------------------------------------------------

  /** `month_order_pt`: the month directory names the pandas pipeline knows, January first. */
  const PandasMonthTokens: seq<string> :=
    ["Jan", "Fev", "Mar", "Abr", "Maio", "Jun", "Jul", "Ago", "Set", "Out", "Nov", "Dez"]

  /** The period string the pandas pipeline builds: f"{year}-{month}-{i+1}". */
  function PandasPeriod(yearDir: string, monthDir: string, seqNo: nat): string
  {
    yearDir + "-" + monthDir + "-" + NatToString(seqNo)
  }

  /**
   * pandas' `add_final_date`: the period must split on '-' into exactly
   * three parts (ValueError otherwise), the middle one must be a known month
   * name (KeyError otherwise), and the year must be a number (`int(year)`,
   * or the later `pd.to_datetime`, rejects anything else). Sequence "2"
   * ends on the month's last day, every other sequence on the 15th.
   */
  function PandasFinalDate(period: string): (r: Result<Date>)
    ensures r.Success? ==> ValidDate(r.value)
    ensures r.Success? ==> r.value.day == 15 || r.value.day == DaysInMonth(r.value.year, r.value.month)
  {
    var parts := Split(period, '-');
    if |parts| != 3 then Failure(InvalidPeriod(period))
    else
      match IndexOf(PandasMonthTokens, parts[1])
      case None => Failure(InvalidPeriod(period))
      case Some(k) =>
        match ParseNat(parts[0])
        case None => Failure(TypeCoercionError(period))
        case Some(y) => Success(Date(y, k + 1, PeriodEndDay(y, k + 1, parts[2] == "2")))
  }

  lemma NatToStringTwo(s: nat)
    ensures NatToString(s) == "2" <==> s == 2
  {
    if NatToString(s) == "2" {
      ParseNatToString(s);
    }
  }

  /** Splitting a period string splits each of its three fields. */
  lemma SplitPeriod(a: string, b: string, c: string, sep: char)
    ensures Split(a + [sep] + b + [sep] + c, sep) == Split(a, sep) + Split(b, sep) + Split(c, sep)
  {
    SplitAround(a + [sep] + b, sep, c);
    SplitAround(a, sep, b);
  }

  lemma PandasTokensDistinct()
    ensures forall a, b :: 0 <= a < b < 12 ==> PandasMonthTokens[a] != PandasMonthTokens[b]
    ensures forall k :: 0 <= k < 12 ==> '-' !in PandasMonthTokens[k]
  {
  }

  lemma PandasTokenIndex(m: int)
    requires 1 <= m <= 12
    ensures '-' !in PandasMonthTokens[m - 1]
    ensures IndexOf(PandasMonthTokens, PandasMonthTokens[m - 1]) == Some(m - 1)
  {
    PandasTokensDistinct();
    var r := IndexOf(PandasMonthTokens, PandasMonthTokens[m - 1]);
    assert PandasMonthTokens[m - 1] in PandasMonthTokens;
    assert r.value == m - 1;
  }

  /**
   * For any numeric year, known month name and sequence number, the pandas
   * resolver returns that month's last day for sequence 2 and its 15th for
   * any other sequence: the Gregorian rule applied directly, with no year limit.
   */
  lemma PandasFinalDateResolves(y: nat, m: int, s: nat)
    requires 1 <= m <= 12
    ensures PandasFinalDate(PandasPeriod(NatToString(y), PandasMonthTokens[m - 1], s))
      == Success(Date(y, m, PeriodEndDay(y, m, s == 2)))
  {
    var yd, md, sd := NatToString(y), PandasMonthTokens[m - 1], NatToString(s);
    PandasTokenIndex(m);
    NatToStringHasNo(y, '-');
    NatToStringHasNo(s, '-');
    SplitThree(yd, md, sd, '-');
    assert Split(PandasPeriod(yd, md, s), '-') == [yd, md, sd];
    ParseNatToString(y);
    NatToStringTwo(s);
  }

  /** A '-' inside the year or month directory name makes the pandas resolver fail. */
  lemma PandasFinalDateNeedsPlainDirs(yearDir: string, monthDir: string, s: nat)
    requires '-' in yearDir || '-' in monthDir
    ensures PandasFinalDate(PandasPeriod(yearDir, monthDir, s)).Failure?
  {
    NatToStringHasNo(s, '-');
    SplitThreeCount(yearDir, monthDir, NatToString(s), '-');
  }

  /** The two pipelines spell May differently and agree on the other eleven month names. */
  lemma MonthTokensCompared()
    ensures forall k :: 0 <= k < 12 && k != 4 ==> DuckMonthTokens[k] == PandasMonthTokens[k]
    ensures DuckMonthTokens[4] == "Mai" && PandasMonthTokens[4] == "Maio"
    ensures DuckMonthTokens[4] !in PandasMonthTokens && PandasMonthTokens[4] !in DuckMonthTokens
  {
  }

  /**
   * Outside May, for the half-months of 2023 and 2024, the two resolvers
   * agree: the DuckDB table and the pandas rule give the same date.
   */
  lemma ResolversAgree(y: int, m: int, s: nat)
    requires DuckDomain(y, m, s) && m != 5
    ensures DuckFinalDate(DuckPeriod(NatToString(y), DuckMonthTokens[m - 1], s))
      == PandasFinalDate(PandasPeriod(NatToString(y), PandasMonthTokens[m - 1], s))
  {
    DuckFinalDateResolves(y, m, s);
    PandasFinalDateResolves(y, m, s);
  }

  /** A DuckDB-built period splits on '_' into its year, month name and sequence number. */
  lemma DuckPeriodParts(y: int, m: int, t: nat)
    requires DuckDomain(y, m, t)
    ensures Split(DuckPeriod(NatToString(y), DuckMonthTokens[m - 1], t), '_')
      == [NatToString(y), DuckMonthTokens[m - 1], NatToString(t)]
  {
    TableTokensPlain();
    NatToStringHasNo(y, '_');
    NatToStringHasNo(t, '_');
    SplitThree(NatToString(y), DuckMonthTokens[m - 1], NatToString(t), '_');
  }

  /** A period built from a "Maio" directory is none of the DuckDB table's keys. */
  lemma NotDuckPeriod(yearDir: string, s: nat, y: int, m: int, t: nat)
    requires DuckDomain(y, m, t)
    ensures DuckPeriod(yearDir, "Maio", s) != DuckPeriod(NatToString(y), DuckMonthTokens[m - 1], t)
  {
    var q := DuckPeriod(yearDir, "Maio", s);
    NatToStringHasNo(s, '_');
    SplitPeriod(yearDir, "Maio", NatToString(s), '_');
    SplitNoSeparator("Maio", '_');
    SplitNoSeparator(NatToString(s), '_');
    DuckPeriodParts(y, m, t);
    TableTokensPlain();
    if |Split(yearDir, '_')| == 1 {
      assert Split(q, '_')[1] == "Maio";
      assert DuckMonthTokens[m - 1] != "Maio";
    } else {
      assert |Split(q, '_')| != 3;
    }
  }

  /**
   * A May directory only works for one pipeline: "Mai" fails the pandas
   * resolver and "Maio" fails the DuckDB lookup, whatever the year directory.
   */
  lemma MayDirectoryDisagrees(yearDir: string, s: nat)
    ensures PandasFinalDate(PandasPeriod(yearDir, "Mai", s)).Failure?
    ensures DuckFinalDate(DuckPeriod(yearDir, "Maio", s)).Failure?
  {
    NatToStringHasNo(s, '-');
    SplitPeriod(yearDir, "Mai", NatToString(s), '-');
    SplitNoSeparator("Mai", '-');
    SplitNoSeparator(NatToString(s), '-');
    assert "Mai" !in PandasMonthTokens;
    var q := DuckPeriod(yearDir, "Maio", s);
    forall y, m, t | DuckDomain(y, m, t)
      ensures q != DuckPeriod(NatToString(y), DuckMonthTokens[m - 1], t)
    {
      NotDuckPeriod(yearDir, s, y, m, t);
    }
    DuckFinalDateIff(q);
  }
}

=== FILE: pipeline.dfy ===
/**
 * The two `main()` flows after extraction, stage by stage over whole lists:
 * DuckDB converts every frame into a typed table, transforms, exports and
 * concatenates; pandas transforms every frame, exports and concatenates.
 * Each stage stops at the first failing element, as the Python loops do.
 */
module Pipeline {

  import opened Common
  import opened Strings
  import opened Catalog
  import opened Calendar
  import opened Tables
  import opened Discovery
  import opened Loading
  import opened Transform
  import opened Grouping
  import opened Aggregation

  predicate FramesWellFormed<D>(fs: seq<Frame<D>>) {
    forall i :: 0 <= i < |fs| ==> WellFormed(fs[i].table)
  }

  /** The tables of a list of DuckDB tables, in order. */
  function DuckTables(ds: seq<DuckTable>): seq<Table>
  {
    TablesBy(ds, (d: DuckTable) => d.table)
  }

  // ---------------------------------------------------------------------
  // DuckDB
  // ---------------------------------------------------------------------

  /** No two frames name the same table, letters compared without regard to case as DuckDB does. */
  predicate NamesDistinct(fs: seq<Frame<string>>) {
    forall i, j :: 0 <= i < j < |fs| ==> FoldCase(DuckTableName(fs[i])) != FoldCase(DuckTableName(fs[j]))
  }

  /**
   * `convert_pandas_to_duck` on a fresh `:memory:` connection, whose catalog
   * starts empty: for each frame the column rename raises first, then a plain
   * `CREATE TABLE` of a name the catalog already holds, then the `INSERT`'s
   * date coercion.
   */
  function DuckConvert(fs: seq<Frame<string>>, strptime: Value -> Option<Date>): (r: Result<seq<DuckTable>>)
    requires FramesWellFormed(fs)
    ensures r.Success? <==> (forall i :: 0 <= i < |fs| ==> LoadData(fs[i], strptime).Success?) && NamesDistinct(fs)
    ensures r.Success? ==> |r.value| == |fs| && forall i :: 0 <= i < |fs| ==> LoadData(fs[i], strptime) == Success(r.value[i])
    ensures r.Success? ==> forall i :: 0 <= i < |fs| ==>
      WellFormed(r.value[i].table) && |r.value[i].table.rows| == |fs[i].table.rows|
    ensures r.Failure? && (forall i :: 0 <= i < |fs| ==> LoadData(fs[i], strptime).Success?) ==> r.error.TableExists?
  {
    var key := (f: Frame<string>) => FoldCase(DuckTableName(f));
    var r := MapRegister(fs, (f: Frame<string>) requires WellFormed(f.table) => LoadData(f, strptime),
                         (f: Frame<string>) => |f.table.columns| == ExpectedWidth(f.kind), key,
                         (f: Frame<string>) => TableExists(DuckTableName(f)), {});
    assert KeysDistinct(fs, key) <==> NamesDistinct(fs);
    r
  }

  /**
   * Two frames of one sheet kind for one period (the same month's workbook filed
   * under two category directories) cannot both be loaded: the second `CREATE TABLE`
   * meets the first one's table.
   */
  lemma DuckConvertRepeatedTable(fs: seq<Frame<string>>, strptime: Value -> Option<Date>, i: nat, j: nat)
    requires FramesWellFormed(fs) && i < j < |fs|
    requires fs[i].kind == fs[j].kind && fs[i].period == fs[j].period
    requires forall k :: 0 <= k < |fs| ==> LoadData(fs[k], strptime).Success?
    ensures DuckConvert(fs, strptime).Failure? && DuckConvert(fs, strptime).error.TableExists?
  {
    assert DuckTableName(fs[i]) == DuckTableName(fs[j]);
  }

  /**
   * `choose` stands for the join DuckDB's `UPDATE ... FROM` happens to
   * pick: for every table, a partner row for each row (see `Imputation.DuckFinals`).
   */
  predicate PartnerChoice(ds: seq<DuckTable>, choose: Table -> seq<nat>) {
    forall i :: 0 <= i < |ds| ==> WellFormed(ds[i].table) && PartnersFor(ds[i].table, choose(ds[i].table))
  }

  /** DuckDB's `transform_data`: every table in order. */
  function DuckTransformData(ds: seq<DuckTable>, choose: Table -> seq<nat>): (r: Result<seq<DuckTable>>)
    requires PartnerChoice(ds, choose)
    ensures r.Success? <==> forall i :: 0 <= i < |ds| ==> DuckTransform(ds[i], choose(ds[i].table)).Success?
    ensures r.Success? ==> |r.value| == |ds| && forall i :: 0 <= i < |ds| ==> DuckTransform(ds[i], choose(ds[i].table)) == Success(r.value[i])
  {
    MapResult(ds, (d: DuckTable) requires WellFormed(d.table) && PartnersFor(d.table, choose(d.table)) => DuckTransform(d, choose(d.table)))
  }

  /** What a run writes: the cleaned tables, the monthly tables and the category tables. */
  datatype Run = Run(clean: seq<Export>, monthly: seq<Export>, category: seq<Export>)

  /** The tables of a list of exports, in order. */
  function ExportTables(es: seq<Export>): seq<Table>
  {
    TablesBy(es, (e: Export) => e.table)
  }

  /** DuckDB's `main()` from the loaded tables on: transform, load to clean, then both concatenations with their exports. */
  function DuckMain(ds: seq<DuckTable>, choose: Table -> seq<nat>): (r: Result<Run>)
    requires PartnerChoice(ds, choose)
    ensures r.Success? <==>
      && DuckTransformData(ds, choose).Success?
      && DuckConcatMonthly(DuckTransformData(ds, choose).value).Success?
      && DuckConcatCategory(DuckConcatMonthly(DuckTransformData(ds, choose).value).value).Success?
    ensures r.Success? ==> ExportTables(r.value.clean) == DuckTables(DuckTransformData(ds, choose).value)
  {
    var ts :- DuckTransformData(ds, choose);
    var monthly :- DuckConcatMonthly(ts);
    var category :- DuckConcatCategory(monthly);
    var clean := DuckLoadToClean(ts);
    assert ExportTables(clean) == DuckTables(ts);
    Success(Run(clean, DuckExportTables(monthly, "month"), DuckExportTables(category, "all_extractions")))
  }

  /** DuckDB's category files hold exactly the rows of its monthly files. */
  lemma DuckMainCategoryConserves(ds: seq<DuckTable>, choose: Table -> seq<nat>)
    requires PartnerChoice(ds, choose) && DuckMain(ds, choose).Success?
    ensures var run := DuckMain(ds, choose).value;
      TotalRows(ExportTables(run.category)) == TotalRows(ExportTables(run.monthly))
  {
    var ts := DuckTransformData(ds, choose).value;
    var monthly := DuckConcatMonthly(ts).value;
    var category := DuckConcatCategory(monthly).value;
    var run := DuckMain(ds, choose).value;
    assert run.monthly == DuckExportTables(monthly, "month");
    assert run.category == DuckExportTables(category, "all_extractions");
    DuckExportsHold(monthly, "month");
    DuckExportsHold(category, "all_extractions");
    DuckCategoryConserves(monthly);
  }

  /** The files `export_tables` writes hold the combined tables, in order. */
  lemma DuckExportsHold(cs: seq<Combined>, exportType: string)
    ensures ExportTables(DuckExportTables(cs, exportType)) == TablesOf(cs)
  {
  }

  // ---------------------------------------------------------------------
  // pandas
  // ---------------------------------------------------------------------

  /** pandas' `transform_data`: every frame in order. */
  function PandasTransformData(fs: seq<Frame<seq<string>>>, parse: Value -> Option<Date>): (r: Result<seq<Frame<seq<string>>>>)
    requires FramesWellFormed(fs)
    ensures r.Success? <==> forall i :: 0 <= i < |fs| ==> PandasTransform(fs[i], parse).Success?
    ensures r.Success? ==> |r.value| == |fs| && forall i :: 0 <= i < |fs| ==> PandasTransform(fs[i], parse) == Success(r.value[i])
  {
    MapResult(fs, (f: Frame<seq<string>>) requires WellFormed(f.table) => PandasTransform(f, parse))
  }

  /** Transformed frames are well formed and keep their rows. */
  lemma PandasTransformDataKeepsRows(fs: seq<Frame<seq<string>>>, parse: Value -> Option<Date>)
    requires FramesWellFormed(fs) && PandasTransformData(fs, parse).Success?
    ensures FramesWellFormed(PandasTransformData(fs, parse).value)
    ensures TotalRows(FrameTables(PandasTransformData(fs, parse).value)) == TotalRows(FrameTables(fs))
  {
    var out := PandasTransformData(fs, parse).value;
    SameRowCounts(FrameTables(out), FrameTables(fs));
  }

  /** Tables of equal row counts, position by position, hold as many rows in all. */
  lemma {:induction false} SameRowCounts(ts: seq<Table>, us: seq<Table>)
    requires |ts| == |us| && forall i :: 0 <= i < |ts| ==> |ts[i].rows| == |us[i].rows|
    ensures TotalRows(ts) == TotalRows(us)
    decreases |ts|
  {
    if |ts| > 0 {
      SameRowCounts(ts[1..], us[1..]);
    }
  }

  /** pandas' `main()` after extraction: transform, load to clean, then both concatenations with their exports. */
  function PandasMain(cleanDir: string, fs: seq<Frame<seq<string>>>, parse: Value -> Option<Date>): (r: Result<Run>)
    requires FramesWellFormed(fs)
    ensures r.Success? <==> PandasTransformData(fs, parse).Success?
  {
    var ts :- PandasTransformData(fs, parse);
    PandasTransformDataKeepsRows(fs, parse);
    var monthly := PandasConcatMonthly(cleanDir, ts);
    var category := PandasConcatCategory(cleanDir, monthly);
    Success(Run(PandasLoadToClean(cleanDir, ts), PandasExportDataframes(monthly, "month"), PandasExportDataframes(category, "all_extractions")))
  }

  /**
   * A successful pandas run writes every extracted row exactly once at
   * each level: the cleaned files, the monthly files and the category
   * files each hold as many rows as the extracted frames.
   */
  lemma PandasMainConserves(cleanDir: string, fs: seq<Frame<seq<string>>>, parse: Value -> Option<Date>)
    requires FramesWellFormed(fs) && PandasMain(cleanDir, fs, parse).Success?
    ensures var run := PandasMain(cleanDir, fs, parse).value;
      && TotalRows(ExportTables(run.clean)) == TotalRows(FrameTables(fs))
      && TotalRows(ExportTables(run.monthly)) == TotalRows(FrameTables(fs))
      && TotalRows(ExportTables(run.category)) == TotalRows(FrameTables(fs))
  {
    var ts := PandasTransformData(fs, parse).value;
    PandasTransformDataKeepsRows(fs, parse);
    var monthly := PandasConcatMonthly(cleanDir, ts);
    PandasMonthlyConserves(cleanDir, ts);
    PandasCategoryConserves(cleanDir, monthly);
    var run := PandasMain(cleanDir, fs, parse).value;
    assert ExportTables(run.clean) == FrameTables(ts);
    assert ExportTables(run.monthly) == TablesOf(monthly);
    assert ExportTables(run.category) == TablesOf(PandasConcatCategory(cleanDir, monthly));
  }
}

=== FILE: strings.dfy ===
/**
 * The few pieces of Python string behaviour the pipelines depend on:
 * substring tests (`x in s`), `str.split` on one separator character,
 * `sep.join`, `str.replace`, `str(n)` and `int(s)` for natural numbers, and
 * `os.path.join` on POSIX paths.
 */
module Strings {

  import opened Common

  predicate StartsWith(s: string, prefix: string) {
    |prefix| <= |s| && s[..|prefix|] == prefix
  }

  /** Python's `sub in s`. */
  predicate Contains(s: string, sub: string)
    decreases |s|
  {
    StartsWith(s, sub) || (|s| > 0 && Contains(s[1..], sub))
  }

  /** `sub` occurs in `s` starting at position `i`. */
  predicate OccursAt(s: string, sub: string, i: nat) {
    i + |sub| <= |s| && s[i..i + |sub|] == sub
  }

  lemma {:induction false} ContainsAt(s: string, sub: string, i: nat)
    requires OccursAt(s, sub, i)
    ensures Contains(s, sub)
    decreases i
  {
    if i == 0 {
      assert s[..|sub|] == sub;
    } else {
      assert s[1..][i - 1..i - 1 + |sub|] == s[i..i + |sub|];
      ContainsAt(s[1..], sub, i - 1);
    }
  }

  lemma {:induction false} ContainsWitness(s: string, sub: string) returns (i: nat)
    requires Contains(s, sub)
    ensures OccursAt(s, sub, i)
    decreases |s|
  {
    if StartsWith(s, sub) {
      i := 0;
    } else {
      var j := ContainsWitness(s[1..], sub);
      i := j + 1;
      assert s[i..i + |sub|] == s[1..][j..j + |sub|];
    }
  }

  /** `sub in s` holds exactly when `sub` occurs at some position of `s`. */
  lemma ContainsIff(s: string, sub: string)
    ensures Contains(s, sub) <==> exists i: nat :: OccursAt(s, sub, i)
  {
    if Contains(s, sub) {
      var i := ContainsWitness(s, sub);
    }
    if exists i: nat :: OccursAt(s, sub, i) {
      var i: nat :| OccursAt(s, sub, i);
      ContainsAt(s, sub, i);
    }
  }

  // ---------------------------------------------------------------------
  // str.split(c) and sep.join(parts)
  // ---------------------------------------------------------------------

  /** Python's `s.split(c)` for a one-character separator: never empty. */
  function Split(s: string, c: char): (parts: seq<string>)
    ensures |parts| >= 1
    decreases |s|
  {
    if |s| == 0 then [""]
    else if s[0] == c then [""] + Split(s[1..], c)
    else
      var rest := Split(s[1..], c);
      [[s[0]] + rest[0]] + rest[1..]
  }

  /** Python's `sep.join(parts)`. */
  function Join(parts: seq<string>, sep: string): string
  {
    if |parts| == 0 then ""
    else if |parts| == 1 then parts[0]
    else parts[0] + sep + Join(parts[1..], sep)
  }

  lemma {:induction false} SplitNoSeparator(s: string, c: char)
    requires c !in s
    ensures Split(s, c) == [s]
    decreases |s|
  {
    if |s| > 0 {
      SplitNoSeparator(s[1..], c);
      assert [s[0]] + s[1..] == s;
    }
  }

  /** Splitting at a separator splits the two sides independently. */
  lemma {:induction false} SplitAround(a: string, c: char, b: string)
    ensures Split(a + [c] + b, c) == Split(a, c) + Split(b, c)
    decreases |a|
  {
    if |a| == 0 {
      assert a + [c] + b == [c] + b;
      assert ([c] + b)[1..] == b;
    } else {
      assert (a + [c] + b)[0] == a[0];
      assert (a + [c] + b)[1..] == a[1..] + [c] + b;
      SplitAround(a[1..], c, b);
    }
  }

  /** `s.split(c)` has a single part exactly when `c` does not occur in `s`. */
  lemma {:induction false} SplitSinglePartIff(s: string, c: char)
    ensures |Split(s, c)| == 1 <==> c !in s
    decreases |s|
  {
    if c !in s {
      SplitNoSeparator(s, c);
    } else {
      var i :| 0 <= i < |s| && s[i] == c;
      assert s == s[..i] + [c] + s[i + 1..];
      SplitAround(s[..i], c, s[i + 1..]);
    }
  }

  /** Splitting three separator-free fields joined by the separator gives them back. */
  lemma SplitThree(x: string, y: string, z: string, c: char)
    requires c !in x && c !in y && c !in z
    ensures Split(x + [c] + y + [c] + z, c) == [x, y, z]
  {
    SplitAround(x + [c] + y, c, z);
    SplitAround(x, c, y);
    SplitNoSeparator(x, c);
    SplitNoSeparator(y, c);
    SplitNoSeparator(z, c);
  }

  /** A string made of three fields splits into exactly three parts iff no field holds the separator. */
  lemma SplitThreeCount(x: string, y: string, z: string, c: char)
    ensures |Split(x + [c] + y + [c] + z, c)| == 3 <==> (c !in x && c !in y && c !in z)
  {
    SplitAround(x + [c] + y, c, z);
    SplitAround(x, c, y);
    SplitSinglePartIff(x, c);
    SplitSinglePartIff(y, c);
    SplitSinglePartIff(z, c);
  }

  /** The last part of a split is whatever follows the last separator. */
  lemma SplitLastField(x: string, y: string, z: string, c: char)
    requires c !in z
    ensures var parts := Split(x + [c] + y + [c] + z, c); parts[|parts| - 1] == z
  {
    SplitAround(x + [c] + y, c, z);
    SplitNoSeparator(z, c);
  }

  /** `sep.join(s.split(sep)) == s`. */
  lemma {:induction false} JoinSplit(s: string, c: char)
    ensures Join(Split(s, c), [c]) == s
    decreases |s|
  {
    if |s| > 0 {
      JoinSplit(s[1..], c);
      var rest := Split(s[1..], c);
      if s[0] == c {
        assert Split(s, c) == [""] + rest;
        assert s == [c] + s[1..];
      } else {
        if |rest| == 1 {
          assert s == [s[0]] + rest[0];
        } else {
          assert Join(rest, [c]) == rest[0] + [c] + Join(rest[1..], [c]);
          var parts := [[s[0]] + rest[0]] + rest[1..];
          assert parts[1..] == rest[1..];
          assert s == [s[0]] + s[1..];
        }
      }
    }
  }

  // ---------------------------------------------------------------------
  // str.replace(old, new)
  // ---------------------------------------------------------------------

  /** Python's `s.replace(pat, rep)`: every non-overlapping occurrence, scanning left to right. */
  function ReplaceAll(s: string, pat: string, rep: string): (r: string)
    requires |pat| > 0
    ensures !Contains(s, pat) ==> r == s
    decreases |s|
  {
    if |s| < |pat| then s
    else if s[..|pat|] == pat then rep + ReplaceAll(s[|pat|..], pat, rep)
    else [s[0]] + ReplaceAll(s[1..], pat, rep)
  }

  /** Occurrences of the replaced text can only be absent when nothing was replaced. */
  lemma ReplaceIdentityIff(s: string)
    ensures ReplaceAll(s, "raw", "clean") == s <==> !Contains(s, "raw")
  {
    if Contains(s, "raw") {
      ReplaceGrows(s);
    }
  }

  lemma {:induction false} ReplaceGrows(s: string)
    requires Contains(s, "raw")
    ensures |ReplaceAll(s, "raw", "clean")| > |s|
    decreases |s|
  {
    if !StartsWith(s, "raw") {
      assert |s| > 0 && Contains(s[1..], "raw");
      ReplaceGrows(s[1..]);
    } else {
      ReplaceLength(s[3..]);
    }
  }

  lemma {:induction false} ReplaceLength(s: string)
    ensures |ReplaceAll(s, "raw", "clean")| >= |s|
    decreases |s|
  {
    if |s| >= 3 {
      if s[..3] == "raw" {
        ReplaceLength(s[3..]);
      } else {
        ReplaceLength(s[1..]);
      }
    }
  }

  /** After `d.replace("raw", "clean")` no "raw" is left. */
  lemma {:induction false} ReplaceRemovesAll(s: string)
    ensures !Contains(ReplaceAll(s, "raw", "clean"), "raw")
    decreases |s|
  {
    if |s| < 3 {
      NotContainsShort(s, "raw");
    } else if s[..3] == "raw" {
      var t := ReplaceAll(s[3..], "raw", "clean");
      ReplaceRemovesAll(s[3..]);
      NoRPrefix("clean", t);
    } else {
      var t := ReplaceAll(s[1..], "raw", "clean");
      ReplaceRemovesAll(s[1..]);
      var r := [s[0]] + t;
      assert r[1..] == t;
      assert !StartsWith(r, "raw") by {
        if |s| >= 4 && s[1..][..3] == "raw" {
          assert r[1] == 'c';
        } else if |s| >= 4 {
          var t2 := ReplaceAll(s[2..], "raw", "clean");
          assert t == [s[1]] + t2;
          if |s| >= 5 && s[2..][..3] == "raw" {
            assert r[2] == 'c';
          } else if |s| >= 5 {
            assert t2 == [s[2]] + ReplaceAll(s[3..], "raw", "clean");
            assert r[..3] == s[..3];
          } else {
            assert t2 == s[2..];
            assert r[..3] == s[..3];
          }
        } else {
          assert t == s[1..];
          assert r == s;
        }
      }
    }
  }

  /** Text without an 'r' in front of a "raw"-free string cannot start a "raw". */
  lemma {:induction false} NoRPrefix(p: string, t: string)
    requires 'r' !in p && !Contains(t, "raw")
    ensures !Contains(p + t, "raw")
    decreases |p|
  {
    if |p| == 0 {
      assert p + t == t;
    } else {
      assert (p + t)[1..] == p[1..] + t;
      assert (p + t)[0] == p[0];
      NoRPrefix(p[1..], t);
    }
  }

  lemma NotContainsShort(s: string, sub: string)
    requires |s| < |sub|
    ensures !Contains(s, sub)
  {
    if Contains(s, sub) {
      var i := ContainsWitness(s, sub);
    }
  }

  // ---------------------------------------------------------------------
  // str(n) and int(s) for natural numbers
  // ---------------------------------------------------------------------

  predicate IsDigit(ch: char) {
    '0' <= ch <= '9'
  }

  function DigitChar(d: nat): char
    requires d < 10
  {
    "0123456789"[d]
  }

  /** Python's `str(n)` for a natural number. */
  function NatToString(n: nat): (s: string)
    ensures |s| > 0
    ensures forall i :: 0 <= i < |s| ==> IsDigit(s[i])
  {
    if n < 10 then [DigitChar(n)] else NatToString(n / 10) + [DigitChar(n % 10)]
  }

  /** Python's `int(s)` restricted to plain decimal digit strings; anything else fails. */
  function ParseNat(s: string): Option<nat>
  {
    if |s| == 0 then None
    else if !IsDigit(s[|s| - 1]) then None
    else if |s| == 1 then Some((s[0] as int - '0' as int) as nat)
    else
      match ParseNat(s[..|s| - 1])
      case None => None
      case Some(p) => Some(p * 10 + (s[|s| - 1] as int - '0' as int))
  }

  /** `int(str(n)) == n`. */
  lemma {:induction false} ParseNatToString(n: nat)
    ensures ParseNat(NatToString(n)) == Some(n)
  {
    if n >= 10 {
      ParseNatToString(n / 10);
      var s := NatToString(n);
      assert s[..|s| - 1] == NatToString(n / 10);
    }
  }

  lemma NatToStringHasNo(n: nat, c: char)
    requires !IsDigit(c)
    ensures c !in NatToString(n)
  {
  }

  // ---------------------------------------------------------------------
  // Case-insensitive identifiers
  // ---------------------------------------------------------------------

  predicate IsUpper(ch: char) {
    'A' <= ch <= 'Z'
  }

  /** An ASCII capital letter becomes its small letter; every other character stays. */
  function LowerChar(ch: char): (r: char)
    ensures !IsUpper(r)
    ensures IsUpper(ch) ==> r as int == ch as int + 32
    ensures !IsUpper(ch) ==> r == ch
  {
    if IsUpper(ch) then (ch as int + 32) as char else ch
  }

  /** The form under which DuckDB compares unquoted identifiers. */
  function FoldCase(s: string): (r: string)
    ensures |r| == |s|
    ensures forall i :: 0 <= i < |s| ==> r[i] == LowerChar(s[i])
  {
    seq(|s|, i requires 0 <= i < |s| => LowerChar(s[i]))
  }

  /** Folding leaves no capital letter, changes exactly the strings that have one, and is idempotent. */
  lemma FoldCaseFixedIff(s: string)
    ensures forall i :: 0 <= i < |s| ==> !IsUpper(FoldCase(s)[i])
    ensures FoldCase(s) == s <==> forall i :: 0 <= i < |s| ==> !IsUpper(s[i])
    ensures FoldCase(FoldCase(s)) == FoldCase(s)
  {
    if FoldCase(s) == s {
      forall i | 0 <= i < |s|
        ensures !IsUpper(s[i])
      {
        assert FoldCase(s)[i] == s[i];
      }
    }
  }

  // ---------------------------------------------------------------------
  // os.path.join on POSIX
  // ---------------------------------------------------------------------

  /** `os.path.join(a, b)`: an absolute `b` wins; otherwise one '/' separates the two. */
  function PathJoin(a: string, b: string): (p: string)
    ensures |b| > 0 && b[0] == '/' ==> p == b
    ensures (|b| == 0 || b[0] != '/') ==> StartsWith(p, a) && |b| <= |p| && p[|p| - |b|..] == b
  {
    if |b| > 0 && b[0] == '/' then b
    else if |a| == 0 || a[|a| - 1] == '/' then a + b
    else a + "/" + b
  }
}

=== FILE: tables.dfy ===
/**
 * A pandas DataFrame or a DuckDB table: an ordered list of column names and
 * rows of cells. The operations here are the table manipulations both
 * pipelines perform: look a column up by name, set a column to one value on
 * every row, project onto named columns, and stack tables (DuckDB's
 * `UNION ALL`, pandas' `pd.concat`).
 */
module Tables {

  import opened Common
  import opened Calendar

  /** A cell: NULL (pandas NaN or NaT), an integer, a float, text, or a date. */
  datatype Value = Null | Int(i: int) | Real(r: real) | Text(s: string) | DateV(date: Date)

  datatype Table = Table(columns: seq<string>, rows: seq<seq<Value>>)

  /** Every row has one cell per column. */
  predicate WellFormed(t: Table) {
    forall i :: 0 <= i < |t.rows| ==> |t.rows[i]| == |t.columns|
  }

  /** Position of column `name`; fails as `df[name]` or an unknown SQL column does. */
  function ColumnIndex(t: Table, name: string): (r: Result<nat>)
    ensures r.Success? <==> name in t.columns
    ensures r.Success? ==> r.value < |t.columns| && t.columns[r.value] == name
  {
    match IndexOf(t.columns, name)
    case None => Failure(MissingColumn(name))
    case Some(j) => Success(j)
  }

  /** The cells of column `k`, top to bottom. */
  function Column(t: Table, k: nat): (vals: seq<Value>)
    requires WellFormed(t) && k < |t.columns|
    ensures |vals| == |t.rows| && forall i :: 0 <= i < |t.rows| ==> vals[i] == t.rows[i][k]
  {
    seq(|t.rows|, i requires 0 <= i < |t.rows| => t.rows[i][k])
  }

  /** Column `j` is the first column of its name, the one `df[name]` or a SQL column reference reaches. */
  predicate FirstOfName(cols: seq<string>, j: int)
  {
    0 <= j < |cols| && IndexOf(cols, cols[j]) == Some(j)
  }

  /** Replaces the cells of column `k` by `vals`, one per row. */
  function SetColumn(t: Table, k: nat, vals: seq<Value>): (r: Table)
    requires WellFormed(t) && k < |t.columns| && |vals| == |t.rows|
    ensures WellFormed(r) && r.columns == t.columns && |r.rows| == |t.rows|
    ensures forall i :: 0 <= i < |r.rows| ==> r.rows[i][k] == vals[i]
    ensures forall i, j :: 0 <= i < |r.rows| && 0 <= j < |r.columns| && j != k ==> r.rows[i][j] == t.rows[i][j]
  {
    Table(t.columns, seq(|t.rows|, i requires 0 <= i < |t.rows| => t.rows[i][k := vals[i]]))
  }

  /**
   * `df[name] = v` in pandas, and `ADD COLUMN IF NOT EXISTS name` followed by
   * `UPDATE ... SET name = v` in DuckDB: an absent column is appended, an
   * existing one is overwritten, and every row holds `v` in it afterwards.
   */
  function SetConstColumn(t: Table, name: string, v: Value): (r: Table)
    requires WellFormed(t)
    ensures WellFormed(r) && |r.rows| == |t.rows|
    ensures name in t.columns ==> r.columns == t.columns
    ensures name !in t.columns ==> r.columns == t.columns + [name]
    ensures name in r.columns
    ensures forall i :: 0 <= i < |r.rows| ==> r.rows[i][IndexOf(r.columns, name).value] == v
    ensures forall i, j :: 0 <= i < |r.rows| && 0 <= j < |t.columns| && t.columns[j] != name ==>
      r.rows[i][j] == t.rows[i][j]
  {
    match IndexOf(t.columns, name)
    case None =>
      assert IndexOf(t.columns + [name], name) == Some(|t.columns|) by {
        IndexOfAppend(t.columns, name);
      }
      Table(t.columns + [name], seq(|t.rows|, i requires 0 <= i < |t.rows| => t.rows[i] + [v]))
    case Some(k) =>
      SetColumn(t, k, seq(|t.rows|, i => v))
  }

  lemma {:induction false} IndexOfAppend(xs: seq<string>, x: string)
    requires x !in xs
    ensures IndexOf(xs + [x], x) == Some(|xs|)
    decreases |xs|
  {
    if |xs| > 0 {
      assert (xs + [x])[1..] == xs[1..] + [x];
      IndexOfAppend(xs[1..], x);
    }
  }

  /** `df.columns = names`: renames positionally; a length mismatch raises ValueError. */
  function RenameColumns(t: Table, names: seq<string>): (r: Result<Table>)
    ensures r.Success? <==> |names| == |t.columns|
    ensures r.Success? ==> r.value.columns == names && r.value.rows == t.rows
    ensures r.Failure? ==> r.error == ColumnCountMismatch(|names|, |t.columns|)
  {
    if |names| != |t.columns| then Failure(ColumnCountMismatch(|names|, |t.columns|))
    else Success(Table(names, t.rows))
  }

  // ---------------------------------------------------------------------
  // Projection: pandas `df[[c1, c2, ...]]`
  // ---------------------------------------------------------------------

  /** The positions of `names` among `cols`, failing on the first name that is absent. */
  function Positions(cols: seq<string>, names: seq<string>): (r: Result<seq<nat>>)
    ensures r.Success? <==> forall n :: n in names ==> n in cols
    ensures r.Success? ==> |r.value| == |names|
    ensures r.Success? ==> forall j :: 0 <= j < |names| ==> r.value[j] == IndexOf(cols, names[j]).value
    ensures r.Failure? ==> exists n :: n in names && n !in cols && r.error == MissingColumn(n)
  {
    if |names| == 0 then Success([])
    else
      match IndexOf(cols, names[0])
      case None => Failure(MissingColumn(names[0]))
      case Some(k) =>
        var rest :- Positions(cols, names[1..]);
        Success([k] + rest)
  }

  /** `df[names]`: the named columns in the requested order; a missing name raises KeyError. */
  function Select(t: Table, names: seq<string>): (r: Result<Table>)
    requires WellFormed(t)
    ensures r.Success? <==> forall n :: n in names ==> n in t.columns
    ensures r.Success? ==> WellFormed(r.value) && r.value.columns == names && |r.value.rows| == |t.rows|
    ensures r.Success? ==> forall i, j :: 0 <= i < |t.rows| && 0 <= j < |names| ==>
      r.value.rows[i][j] == t.rows[i][IndexOf(t.columns, names[j]).value]
  {
    var ks :- Positions(t.columns, names);
    Success(Table(names, seq(|t.rows|, i requires 0 <= i < |t.rows| =>
      seq(|ks|, j requires 0 <= j < |ks| => t.rows[i][ks[j]]))))
  }

  // ---------------------------------------------------------------------
  // DuckDB `SELECT * FROM a UNION ALL SELECT * FROM b ...`
  // ---------------------------------------------------------------------

  /** `UNION ALL`: positional, so the widths must agree; the column names come from the first table. */
  function UnionAll(a: Table, b: Table): (r: Result<Table>)
    ensures r.Success? <==> |a.columns| == |b.columns|
    ensures r.Success? ==> r.value.columns == a.columns && r.value.rows == a.rows + b.rows
  {
    if |a.columns| != |b.columns| then Failure(SchemaMismatch("UNION ALL of tables of different widths"))
    else Success(Table(a.columns, a.rows + b.rows))
  }

  /** The tables held by a list of records, in order; `table` reads one record's table. */
  function TablesBy<T>(xs: seq<T>, table: T -> Table): (ts: seq<Table>)
    ensures |ts| == |xs|
    ensures forall i :: 0 <= i < |xs| ==> ts[i] == table(xs[i])
  {
    seq(|xs|, i requires 0 <= i < |xs| => table(xs[i]))
  }

  /** Total number of rows of a list of tables. */
  function TotalRows(ts: seq<Table>): nat
  {
    if |ts| == 0 then 0 else |ts[0].rows| + TotalRows(ts[1..])
  }

  /** All rows of all tables, in order. */
  function AllRows(ts: seq<Table>): (rows: seq<seq<Value>>)
    ensures |rows| == TotalRows(ts)
  {
    if |ts| == 0 then [] else ts[0].rows + AllRows(ts[1..])
  }

  /** `t1 UNION ALL t2 UNION ALL ...` over a non-empty list. */
  function UnionAllSeq(ts: seq<Table>): (r: Result<Table>)
    requires |ts| >= 1
    ensures r.Success? <==> forall i :: 0 <= i < |ts| ==> |ts[i].columns| == |ts[0].columns|
    ensures r.Success? ==> r.value.columns == ts[0].columns && r.value.rows == AllRows(ts)
  {
    if |ts| == 1 then Success(ts[0])
    else
      match UnionAllSeq(ts[1..])
      case Failure(e) => Failure(e)
      case Success(rest) => UnionAll(ts[0], rest)
  }

  /** Stacking keeps every table's well-formedness. */
  lemma {:induction false} AllRowsWellFormed(ts: seq<Table>, cols: seq<string>)
    requires forall i :: 0 <= i < |ts| ==> WellFormed(ts[i]) && |ts[i].columns| == |cols|
    ensures WellFormed(Table(cols, AllRows(ts)))
  {
    if |ts| > 0 {
      AllRowsWellFormed(ts[1..], cols);
    }
  }

  // ---------------------------------------------------------------------
  // pandas `pd.concat(frames)`: rows stacked, columns aligned by name
  // ---------------------------------------------------------------------

  /** `cols` followed by the names of `more` it lacks, in first-appearance order. */
  function AddNew(cols: seq<string>, more: seq<string>): (r: seq<string>)
    ensures |r| >= |cols| && r[..|cols|] == cols
    ensures forall n :: n in r <==> n in cols || n in more
    decreases |more|
  {
    if |more| == 0 then cols
    else AddNew(if more[0] in cols then cols else cols + [more[0]], more[1..])
  }

  /** The union of the frames' columns in order of first appearance (`pd.concat` with `sort=False`). */
  function ConcatColumns(ts: seq<Table>): (cols: seq<string>)
    requires |ts| >= 1
    ensures forall n :: n in cols <==> exists i :: 0 <= i < |ts| && n in ts[i].columns
  {
    if |ts| == 1 then ts[0].columns
    else
      var cols := AddNew(ConcatColumns(ts[..|ts| - 1]), ts[|ts| - 1].columns);
      assert forall i :: 0 <= i < |ts| - 1 ==> ts[..|ts| - 1][i] == ts[i];
      cols
  }

  /** One row re-laid onto `cols`: the cell of the same-named column, NaN where the frame lacks it. */
  function ReindexRow(from: seq<string>, row: seq<Value>, cols: seq<string>): (r: seq<Value>)
    requires |row| == |from|
    ensures |r| == |cols|
  {
    seq(|cols|, j requires 0 <= j < |cols| =>
      match IndexOf(from, cols[j])
      case None => Null
      case Some(k) => row[k])
  }

  /** The rows of every frame re-laid onto `cols`, frame after frame. */
  function ConcatRows(ts: seq<Table>, cols: seq<string>): (rows: seq<seq<Value>>)
    requires forall i :: 0 <= i < |ts| ==> WellFormed(ts[i])
    ensures |rows| == TotalRows(ts)
    ensures forall i :: 0 <= i < |rows| ==> |rows[i]| == |cols|
  {
    if |ts| == 0 then []
    else
      assert WellFormed(ts[0]);
      seq(|ts[0].rows|, i requires 0 <= i < |ts[0].rows| => ReindexRow(ts[0].columns, ts[0].rows[i], cols))
        + ConcatRows(ts[1..], cols)
  }

  /** `pd.concat(frames)` of a non-empty list. */
  function Concat(ts: seq<Table>): (r: Table)
    requires |ts| >= 1
    requires forall i :: 0 <= i < |ts| ==> WellFormed(ts[i])
    ensures WellFormed(r)
    ensures |r.rows| == TotalRows(ts)
    ensures forall n :: n in r.columns <==> exists i :: 0 <= i < |ts| && n in ts[i].columns
  {
    var cols := ConcatColumns(ts);
    Table(cols, ConcatRows(ts, cols))
  }

  /** Re-laying a row onto its own, duplicate-free columns changes nothing. */
  lemma ReindexSame(from: seq<string>, row: seq<Value>)
    requires |row| == |from|
    requires forall a, b :: 0 <= a < b < |from| ==> from[a] != from[b]
    ensures ReindexRow(from, row, from) == row
  {
    forall j | 0 <= j < |from|
      ensures ReindexRow(from, row, from)[j] == row[j]
    {
      var k := IndexOf(from, from[j]).value;
      assert k == j;
    }
  }

  lemma {:induction false} AddNewSame(cols: seq<string>)
    ensures AddNew(cols, cols) == cols
  {
    AddNewPresent(cols, cols);
  }

  lemma {:induction false} AddNewPresent(cols: seq<string>, more: seq<string>)
    requires forall n :: n in more ==> n in cols
    ensures AddNew(cols, more) == cols
    decreases |more|
  {
    if |more| > 0 {
      assert more[0] in cols;
      AddNewPresent(cols, more[1..]);
    }
  }

  lemma {:induction false} ConcatColumnsAligned(ts: seq<Table>, cols: seq<string>)
    requires |ts| >= 1
    requires forall i :: 0 <= i < |ts| ==> ts[i].columns == cols
    ensures ConcatColumns(ts) == cols
    decreases |ts|
  {
    if |ts| > 1 {
      ConcatColumnsAligned(ts[..|ts| - 1], cols);
      AddNewSame(cols);
    }
  }

  lemma {:induction false} ConcatRowsAligned(ts: seq<Table>, cols: seq<string>)
    requires forall i :: 0 <= i < |ts| ==> WellFormed(ts[i]) && ts[i].columns == cols
    requires forall a, b :: 0 <= a < b < |cols| ==> cols[a] != cols[b]
    ensures ConcatRows(ts, cols) == AllRows(ts)
    decreases |ts|
  {
    if |ts| > 0 {
      ConcatRowsAligned(ts[1..], cols);
      forall i | 0 <= i < |ts[0].rows|
        ensures ReindexRow(cols, ts[0].rows[i], cols) == ts[0].rows[i]
      {
        ReindexSame(cols, ts[0].rows[i]);
      }
    }
  }

  /**
   * Frames that share one duplicate-free column list concatenate to plain
   * stacking: the same columns, and the rows of each frame in order.
   */
  lemma ConcatAligned(ts: seq<Table>, cols: seq<string>)
    requires |ts| >= 1
    requires forall i :: 0 <= i < |ts| ==> WellFormed(ts[i]) && ts[i].columns == cols
    requires forall a, b :: 0 <= a < b < |cols| ==> cols[a] != cols[b]
    ensures Concat(ts) == Table(cols, AllRows(ts))
  {
    ConcatColumnsAligned(ts, cols);
    ConcatRowsAligned(ts, cols);
  }

  /** Where the rows of frame `t` start in the stacked result. */
  function RowOffset(ts: seq<Table>, t: nat): (off: nat)
    requires t < |ts|
    ensures off + |ts[t].rows| <= TotalRows(ts)
  {
    if t == 0 then 0 else |ts[0].rows| + RowOffset(ts[1..], t - 1)
  }

  /** Every cell of every input row reappears under its column name in the concatenation. */
  lemma {:induction false} ConcatKeepsCells(ts: seq<Table>, cols: seq<string>, t: nat, i: nat, c: nat)
    requires forall k :: 0 <= k < |ts| ==> WellFormed(ts[k])
    requires t < |ts| && i < |ts[t].rows| && c < |ts[t].columns|
    requires IndexOf(ts[t].columns, ts[t].columns[c]) == Some(c)
    requires ts[t].columns[c] in cols
    ensures var row := ConcatRows(ts, cols)[RowOffset(ts, t) + i];
      row[IndexOf(cols, ts[t].columns[c]).value] == ts[t].rows[i][c]
    decreases t
  {
    if t > 0 {
      ConcatKeepsCells(ts[1..], cols, t - 1, i, c);
    } else {
      assert WellFormed(ts[0]);
    }
  }
}

=== FILE: transform.dfy ===
/**
 * The transform and load steps of both pipelines: stamping every row with
 * the date its extraction period ends on ("Extraction Range"), repairing
 * the content-metrics counts, and naming the per-sheet CSV file written to
 * the clean directory. The files themselves are not written here: the load
 * step is modelled as the path and the table it would write.
 */
module Transform {

  import opened Common
  import opened Strings
  import opened Calendar
  import opened Catalog
  import opened Tables
  import opened Periods
  import opened Discovery
  import opened Loading
  import opened Imputation

  /**
   * `r` is `t` with the column "Extraction Range" set to `v` in every row:
   * appended when `t` lacks it, overwritten when it has it, and every other
   * cell kept.
   */
  predicate Stamped(t: Table, r: Table, v: Value)
    requires WellFormed(t)
  {
    && WellFormed(r) && |r.rows| == |t.rows|
    && ExtractionRange in r.columns
    && (ExtractionRange in t.columns ==> r.columns == t.columns)
    && (ExtractionRange !in t.columns ==> r.columns == t.columns + [ExtractionRange])
    && (forall i :: 0 <= i < |r.rows| ==> r.rows[i][IndexOf(r.columns, ExtractionRange).value] == v)
    && (forall i, j :: 0 <= i < |t.rows| && 0 <= j < |t.columns| && t.columns[j] != ExtractionRange ==>
          r.rows[i][j] == t.rows[i][j])
  }

  // ---------------------------------------------------------------------
  // add_final_date
  // ---------------------------------------------------------------------

  /**
   * DuckDB's `add_final_date`: look the period up in `map_months_period`
   * (an unknown period raises KeyError), then `ADD COLUMN IF NOT EXISTS
   * "Extraction Range" DATE` and set it to that date in every row.
   */
  function DuckAddFinalDate(d: DuckTable): (r: Result<DuckTable>)
    requires WellFormed(d.table)
    ensures r.Success? <==> DuckFinalDate(d.period).Success?
    ensures r.Failure? ==> r.error == InvalidPeriod(d.period)
    ensures r.Success? ==> r.value == d.(table := r.value.table)
    ensures r.Success? ==> Stamped(d.table, r.value.table, DateV(DuckFinalDate(d.period).value))
  {
    var date :- DuckFinalDate(d.period);
    Success(d.(table := SetConstColumn(d.table, ExtractionRange, DateV(date))))
  }

  /**
   * pandas' `add_final_date`: resolve the period by the calendar rule and
   * assign the date to the column "Extraction Range" of every row.
   */
  function PandasAddFinalDate(f: Frame<seq<string>>): (r: Result<Frame<seq<string>>>)
    requires WellFormed(f.table)
    ensures r.Success? <==> PandasFinalDate(f.period).Success?
    ensures r.Success? ==> r.value == f.(table := r.value.table)
    ensures r.Success? ==> Stamped(f.table, r.value.table, DateV(PandasFinalDate(f.period).value))
  {
    var date :- PandasFinalDate(f.period);
    Success(f.(table := SetConstColumn(f.table, ExtractionRange, DateV(date))))
  }

  // ---------------------------------------------------------------------
  // transform_data
  // ---------------------------------------------------------------------

  /** A join-partner choice for every row of `t` (see the Imputation module). */
  predicate PartnersFor(t: Table, partner: seq<nat>) {
    |partner| == |t.rows| && forall i :: 0 <= i < |partner| ==> partner[i] < |t.rows|
  }

  /** DuckDB's `transform_data` for one table: repair the counts of a content-metrics table, then stamp the date. */
  function DuckTransform(d: DuckTable, partner: seq<nat>): (r: Result<DuckTable>)
    requires WellFormed(d.table) && PartnersFor(d.table, partner)
    ensures r.Success? ==> DuckFinalDate(d.period).Success?
    ensures r.Success? ==> r.value == d.(table := r.value.table)
    ensures d.kind != ContentMetrics ==>
      (r.Success? <==> DuckFinalDate(d.period).Success?) &&
      (r.Success? ==> Stamped(d.table, r.value.table, DateV(DuckFinalDate(d.period).value)))
    ensures d.kind == ContentMetrics ==>
      (r.Success? <==> DuckProcessContentMetrics(d.table, partner).Success? && DuckFinalDate(d.period).Success?) &&
      (r.Success? ==> Stamped(DuckProcessContentMetrics(d.table, partner).value, r.value.table, DateV(DuckFinalDate(d.period).value)))
  {
    if d.kind == ContentMetrics then
      var t :- DuckProcessContentMetrics(d.table, partner);
      DuckAddFinalDate(d.(table := t))
    else DuckAddFinalDate(d)
  }

  /** A stamped content-metrics table still has no negative count in a dated row. */
  lemma DuckTransformNoNegativeCounts(d: DuckTable, partner: seq<nat>, i: nat, j: nat)
    requires WellFormed(d.table) && PartnersFor(d.table, partner)
    requires d.kind == ContentMetrics && DuckTransform(d, partner).Success?
    requires i < |d.table.rows| && j < |d.table.columns|
    requires d.table.columns[j] in MetricColumns && IndexOf(d.table.columns, d.table.columns[j]) == Some(j)
    requires DateColumn in d.table.columns && d.table.rows[i][IndexOf(d.table.columns, DateColumn).value].DateV?
    ensures j < |DuckTransform(d, partner).value.table.columns|
    ensures DuckTransform(d, partner).value.table.columns[j] == d.table.columns[j]
    ensures NotNegative(DuckTransform(d, partner).value.table.rows[i][j])
  {
    DuckProcessContentMetricsColumn(d.table, partner, j);
    MetricColumnNotRange(d.table.columns[j]);
    assert ContentDates(d.table).value[i].Some?;
  }

  /** Every row of `t` holds `v` in its "Extraction Range" column. */
  predicate RangeStamp(t: Table, v: Value)
    requires WellFormed(t)
  {
    ExtractionRange in t.columns &&
    forall i :: 0 <= i < |t.rows| ==> t.rows[i][IndexOf(t.columns, ExtractionRange).value] == v
  }

  /**
   * The first three steps of pandas' `transform_data`: translate the column
   * names, stamp the date, convert the date columns. The stamped date
   * survives the conversion, since a date converts to itself.
   */
  function PandasPrepare(f: Frame<seq<string>>, parse: Value -> Option<Date>): (r: Result<Frame<seq<string>>>)
    requires WellFormed(f.table)
    ensures r.Success? ==> |f.table.columns| == |TranslatedColumns(f.kind)| && PandasFinalDate(f.period).Success?
    ensures r.Success? ==> r.value.kind == f.kind && r.value.dir == f.dir && r.value.period == f.period
    ensures r.Success? ==> WellFormed(r.value.table) && |r.value.table.rows| == |f.table.rows|
    ensures r.Success? ==> r.value.table.columns == TranslatedColumns(f.kind) + [ExtractionRange]
    ensures r.Success? ==> forall i :: 0 <= i < |r.value.table.rows| ==> |r.value.table.rows[i]| == |f.table.columns| + 1
    ensures r.Success? ==> RangeStamp(r.value.table, DateV(PandasFinalDate(f.period).value))
  {
    var t1 :- TranslateCols(f);
    var t2 :- PandasAddFinalDate(t1);
    var t3 :- ConvertColumnTypes(t2, parse);
    RangeNotTranslated(f.kind);
    var k := IndexOf(t2.table.columns, ExtractionRange).value;
    assert FirstOfName(t2.table.columns, k);
    Success(t3)
  }

  /**
   * The columns of `t` named `cols` (positionally) that are among `dates`,
   * read where `df[name]` reads them, hold only cells `pd.to_datetime` reads.
   */
  predicate DatesReadable(t: Table, cols: seq<string>, dates: seq<string>, parse: Value -> Option<Date>)
    requires WellFormed(t) && |t.columns| == |cols|
  {
    forall i, j :: (0 <= i < |t.rows| && 0 <= j < |cols| && FirstOfName(cols, j) && cols[j] in dates) ==>
      Convertible(t.rows[i][j], parse)
  }

  /** The translated date columns of a frame of the sheet's width hold only readable cells. */
  predicate TranslatedDatesReadable(f: Frame<seq<string>>, parse: Value -> Option<Date>)
    requires WellFormed(f.table) && |f.table.columns| == |TranslatedColumns(f.kind)|
  {
    DatesReadable(f.table, TranslatedColumns(f.kind), PandasDateColumns(f.kind), parse)
  }

  /** Appending names never changes which column a name already present first reaches. */
  lemma FirstOfNameAppend(xs: seq<string>, ys: seq<string>, j: nat)
    requires j < |xs|
    ensures FirstOfName(xs + ys, j) <==> FirstOfName(xs, j)
  {
    var x := xs[j];
    assert (xs + ys)[j] == x;
    var p := IndexOf(xs, x).value;
    assert (xs + ys)[p] == x;
    var q := IndexOf(xs + ys, x).value;
    assert q <= p;
    assert xs[q] == x;
  }

  /**
   * `s` is `g` with the columns named `cols`, then "Extraction Range" added
   * holding `v` on every row: what the first two steps make of a sheet.
   */
  predicate StampedAs(g: Table, s: Table, cols: seq<string>, v: Value)
    requires WellFormed(g) && |g.columns| == |cols|
  {
    && WellFormed(s) && |s.rows| == |g.rows|
    && s.columns == cols + [ExtractionRange]
    && (forall i, j :: 0 <= i < |g.rows| && 0 <= j < |cols| ==> s.rows[i][j] == g.rows[i][j])
    && (forall i :: 0 <= i < |g.rows| ==> s.rows[i][|cols|] == v)
  }

  /** The first two steps applied to a sheet of the catalog's width whose period resolves. */
  lemma TranslatedStamp(f: Frame<seq<string>>)
    requires WellFormed(f.table) && |f.table.columns| == |TranslatedColumns(f.kind)|
    requires PandasFinalDate(f.period).Success?
    ensures PandasAddFinalDate(TranslateCols(f).value).Success?
    ensures PandasAddFinalDate(TranslateCols(f).value).value.kind == f.kind
    ensures StampedAs(f.table, PandasAddFinalDate(TranslateCols(f).value).value.table, TranslatedColumns(f.kind),
                      DateV(PandasFinalDate(f.period).value))
  {
    var cols := TranslatedColumns(f.kind);
    var t1 := TranslateCols(f).value;
    var t2 := PandasAddFinalDate(t1).value.table;
    RangeNotTranslated(f.kind);
    IndexOfAppend(cols, ExtractionRange);
    assert t2.columns == cols + [ExtractionRange];
    forall i, j | 0 <= i < |f.table.rows| && 0 <= j < |cols|
      ensures t2.rows[i][j] == f.table.rows[i][j]
    {
      assert t1.table.columns[j] != ExtractionRange;
    }
  }

  /**
   * Converting a stamped sheet succeeds exactly when its date columns hold
   * only readable cells (the stamped column always converts).
   */
  lemma ConvertStampedSucceeds(g: Frame<seq<string>>, s: Frame<seq<string>>, cols: seq<string>, v: Value, parse: Value -> Option<Date>)
    requires WellFormed(g.table) && |g.table.columns| == |cols| && s.kind == g.kind
    requires StampedAs(g.table, s.table, cols, v) && v.DateV?
    requires ExtractionRange !in cols && forall n :: n in PandasDateColumns(g.kind) ==> n in cols
    ensures ConvertColumnTypes(s, parse).Success? <==> DatesReadable(g.table, cols, PandasDateColumns(g.kind), parse)
  {
    var names := ConvertedNames(g.kind);
    IndexOfAppend(cols, ExtractionRange);
    assert forall n :: n in names ==> n in s.table.columns;
    if DatesReadable(g.table, cols, PandasDateColumns(g.kind), parse) {
      forall i, j | 0 <= i < |s.table.rows| && 0 <= j < |s.table.columns| && FirstOfName(s.table.columns, j) && s.table.columns[j] in names
        ensures Convertible(s.table.rows[i][j], parse)
      {
        if j < |cols| {
          FirstOfNameAppend(cols, [ExtractionRange], j);
          assert cols[j] in cols;
        }
      }
    } else {
      var i, j :| 0 <= i < |g.table.rows| && 0 <= j < |cols| &&
        FirstOfName(cols, j) && cols[j] in PandasDateColumns(g.kind) && !Convertible(g.table.rows[i][j], parse);
      FirstOfNameAppend(cols, [ExtractionRange], j);
      assert FirstOfName(s.table.columns, j) && s.table.columns[j] in names;
      assert !CellsConvertible(s.table, names, parse);
    }
  }

  /** Converting a stamped sheet converts the cells of its date columns. */
  lemma ConvertStampedDates(g: Frame<seq<string>>, s: Frame<seq<string>>, cols: seq<string>, v: Value, parse: Value -> Option<Date>)
    requires WellFormed(g.table) && |g.table.columns| == |cols| && s.kind == g.kind
    requires StampedAs(g.table, s.table, cols, v)
    requires ConvertColumnTypes(s, parse).Success?
    ensures forall i, j :: (0 <= i < |g.table.rows| && 0 <= j < |cols| && FirstOfName(cols, j) && cols[j] in PandasDateColumns(g.kind)) ==>
      Convertible(g.table.rows[i][j], parse) && ConvertColumnTypes(s, parse).value.table.rows[i][j] == Converted(g.table.rows[i][j], parse)
  {
    var names := ConvertedNames(g.kind);
    var r := ConvertColumnTypes(s, parse).value.table;
    forall i, j | 0 <= i < |g.table.rows| && 0 <= j < |cols| && FirstOfName(cols, j) && cols[j] in PandasDateColumns(g.kind)
      ensures Convertible(g.table.rows[i][j], parse) && r.rows[i][j] == Converted(g.table.rows[i][j], parse)
    {
      FirstOfNameAppend(cols, [ExtractionRange], j);
      assert s.table.columns[j] == cols[j] && s.table.columns[j] in names;
      assert s.table.rows[i][j] == g.table.rows[i][j];
      assert Convertible(s.table.rows[i][j], parse);
    }
  }

  /** Converting a stamped sheet keeps the cells of every column it does not convert. */
  lemma ConvertStampedOthers(g: Frame<seq<string>>, s: Frame<seq<string>>, cols: seq<string>, v: Value, parse: Value -> Option<Date>)
    requires WellFormed(g.table) && |g.table.columns| == |cols| && s.kind == g.kind
    requires StampedAs(g.table, s.table, cols, v)
    requires ExtractionRange !in cols
    requires ConvertColumnTypes(s, parse).Success?
    ensures forall i, j :: (0 <= i < |g.table.rows| && 0 <= j < |cols| && cols[j] !in PandasDateColumns(g.kind)) ==>
      ConvertColumnTypes(s, parse).value.table.rows[i][j] == g.table.rows[i][j]
  {
    var names := ConvertedNames(g.kind);
    var r := ConvertColumnTypes(s, parse).value.table;
    forall i, j | 0 <= i < |g.table.rows| && 0 <= j < |cols| && cols[j] !in PandasDateColumns(g.kind)
      ensures r.rows[i][j] == g.table.rows[i][j]
    {
      assert cols[j] in cols;
      assert s.table.columns[j] == cols[j] && s.table.columns[j] !in names;
      assert s.table.rows[i][j] == g.table.rows[i][j];
    }
  }

  /**
   * The first three steps succeed exactly when the sheet has the catalog's
   * width, the period resolves, and the translated date columns hold only
   * readable cells.
   */
  lemma PandasPrepareSucceeds(f: Frame<seq<string>>, parse: Value -> Option<Date>)
    requires WellFormed(f.table)
    ensures PandasPrepare(f, parse).Success? <==>
      && |f.table.columns| == |TranslatedColumns(f.kind)|
      && PandasFinalDate(f.period).Success?
      && TranslatedDatesReadable(f, parse)
  {
    if |f.table.columns| == |TranslatedColumns(f.kind)| && PandasFinalDate(f.period).Success? {
      var t2 := PandasAddFinalDate(TranslateCols(f).value).value;
      TranslatedStamp(f);
      DateColumnsTranslated(f.kind);
      RangeNotTranslated(f.kind);
      ConvertStampedSucceeds(f, t2, TranslatedColumns(f.kind), DateV(PandasFinalDate(f.period).value), parse);
      assert PandasPrepare(f, parse).Success? <==> ConvertColumnTypes(t2, parse).Success?;
    }
  }

  /** The first three steps, once the width matches and the period resolves, are the conversion of the stamped sheet. */
  lemma PandasPrepareStages(f: Frame<seq<string>>, parse: Value -> Option<Date>)
    requires WellFormed(f.table) && |f.table.columns| == |TranslatedColumns(f.kind)|
    requires PandasFinalDate(f.period).Success?
    ensures PandasAddFinalDate(TranslateCols(f).value).Success?
    ensures PandasPrepare(f, parse) == ConvertColumnTypes(PandasAddFinalDate(TranslateCols(f).value).value, parse)
  {
  }

  /**
   * After the first three steps each translated date column, read where
   * `df[name]` reads it, holds its converted cells.
   */
  lemma PandasPrepareDateCells(f: Frame<seq<string>>, parse: Value -> Option<Date>)
    requires WellFormed(f.table) && PandasPrepare(f, parse).Success?
    ensures |f.table.columns| == |TranslatedColumns(f.kind)|
    ensures forall i, j ::
      (0 <= i < |f.table.rows| && 0 <= j < |TranslatedColumns(f.kind)| &&
       FirstOfName(TranslatedColumns(f.kind), j) && TranslatedColumns(f.kind)[j] in PandasDateColumns(f.kind)) ==>
      Convertible(f.table.rows[i][j], parse) &&
      PandasPrepare(f, parse).value.table.rows[i][j] == Converted(f.table.rows[i][j], parse)
  {
    PandasPrepareStages(f, parse);
    TranslatedStamp(f);
    ConvertStampedDates(f, PandasAddFinalDate(TranslateCols(f).value).value, TranslatedColumns(f.kind),
                        DateV(PandasFinalDate(f.period).value), parse);
  }

  /** After the first three steps every translated column that is not a date column keeps the sheet's cells. */
  lemma PandasPrepareOtherCells(f: Frame<seq<string>>, parse: Value -> Option<Date>)
    requires WellFormed(f.table) && PandasPrepare(f, parse).Success?
    ensures |f.table.columns| == |TranslatedColumns(f.kind)|
    ensures forall i, j ::
      (0 <= i < |f.table.rows| && 0 <= j < |TranslatedColumns(f.kind)| && TranslatedColumns(f.kind)[j] !in PandasDateColumns(f.kind)) ==>
      PandasPrepare(f, parse).value.table.rows[i][j] == f.table.rows[i][j]
  {
    PandasPrepareStages(f, parse);
    TranslatedStamp(f);
    RangeNotTranslated(f.kind);
    ConvertStampedOthers(f, PandasAddFinalDate(TranslateCols(f).value).value, TranslatedColumns(f.kind),
                         DateV(PandasFinalDate(f.period).value), parse);
  }

  /**
   * pandas' `transform_data` for one frame: the three steps above, then the
   * cleaning of a content-metrics frame.
   */
  function PandasTransform(f: Frame<seq<string>>, parse: Value -> Option<Date>): (r: Result<Frame<seq<string>>>)
    requires WellFormed(f.table)
    ensures r.Success? ==> PandasPrepare(f, parse).Success?
    ensures r.Success? ==> r.value.kind == f.kind && r.value.dir == f.dir && r.value.period == f.period
    ensures r.Success? ==> WellFormed(r.value.table) && |r.value.table.rows| == |f.table.rows|
    ensures f.kind != ContentMetrics ==> r == PandasPrepare(f, parse)
    ensures f.kind == ContentMetrics ==>
      (r.Success? <==> PandasPrepare(f, parse).Success? && PandasCleanContentMetrics(PandasPrepare(f, parse).value.table).Success?)
    ensures f.kind == ContentMetrics && r.Success? ==>
      PandasCleanContentMetrics(PandasPrepare(f, parse).value.table) == Success(r.value.table)
  {
    var t3 :- PandasPrepare(f, parse);
    if f.kind == ContentMetrics then
      var t :- PandasCleanContentMetrics(t3.table);
      Success(t3.(table := t))
    else Success(t3)
  }

  lemma OutputRangeColumn()
    ensures IndexOf(PandasOutputColumns, ExtractionRange) == Some(7)
  {
    assert ExtractionRange[1] == 'x';
    assert forall k :: 0 <= k < 7 ==> PandasOutputColumns[k][1] != 'x';
  }

  /** Every frame pandas transforms carries its period's date in "Extraction Range", cleaned or not. */
  lemma PandasTransformStamps(f: Frame<seq<string>>, parse: Value -> Option<Date>)
    requires WellFormed(f.table) && PandasTransform(f, parse).Success?
    ensures RangeStamp(PandasTransform(f, parse).value.table, DateV(PandasFinalDate(f.period).value))
  {
    if f.kind == ContentMetrics {
      var t3 := PandasPrepare(f, parse).value.table;
      var s := Select(t3, PandasInputColumns).value;
      var r := PandasTransform(f, parse).value.table;
      assert PandasInputColumns[7] == ExtractionRange;
      OutputRangeColumn();
      forall i | 0 <= i < |r.rows|
        ensures r.rows[i][7] == t3.rows[i][IndexOf(t3.columns, ExtractionRange).value]
      {
        assert r.rows[i][7] == s.rows[i][7];
      }
    }
  }

  // ---------------------------------------------------------------------
  // load_to_clean
  // ---------------------------------------------------------------------

  /** The last component of a '/'-separated path. */
  function BaseName(path: string): string
  {
    var parts := Split(path, '/');
    parts[|parts| - 1]
  }

  /** DuckDB's `COPY ... TO '{export_dir}/{db_table_name}.csv'`. */
  function DuckExportPath(d: DuckTable): string
  {
    d.exportDir + "/" + d.dbName + ".csv"
  }

  /** A name without '/' written under a directory is the last component of the path. */
  lemma BaseNameUnder(dir: string, name: string)
    requires '/' !in name
    ensures BaseName(dir + "/" + name) == name
  {
    assert dir + "/" + name == dir + ['/'] + name;
    SplitAround(dir, '/', name);
    SplitNoSeparator(name, '/');
  }

  /** `os.path.join(dir, name)` of a non-empty name without '/' ends in that name. */
  lemma BaseNameOfJoin(dir: string, name: string)
    requires |name| > 0 && '/' !in name
    ensures BaseName(PathJoin(dir, name)) == name
  {
    if |dir| == 0 {
      SplitNoSeparator(name, '/');
    } else if dir[|dir| - 1] == '/' {
      var front := dir[..|dir| - 1];
      assert dir == front + "/";
      assert PathJoin(dir, name) == front + "/" + name;
      BaseNameUnder(front, name);
    } else {
      BaseNameUnder(dir, name);
    }
  }

  /** The file DuckDB writes for a table is named after the table. */
  lemma DuckExportFileName(d: DuckTable)
    requires '/' !in d.dbName
    ensures BaseName(DuckExportPath(d)) == d.dbName + ".csv"
  {
    var name := d.dbName + ".csv";
    assert '/' !in name;
    assert DuckExportPath(d) == d.exportDir + "/" + name;
    BaseNameUnder(d.exportDir, name);
  }

  /** `os.path.join(base, *parts)`. */
  function PathJoinAll(base: string, parts: seq<string>): (p: string)
    ensures (forall k :: 0 <= k < |parts| ==> |parts[k]| == 0 || parts[k][0] != '/') ==> StartsWith(p, base)
    decreases |parts|
  {
    if |parts| == 0 then base
    else
      var next := PathJoin(base, parts[0]);
      var p := PathJoinAll(next, parts[1..]);
      if (forall k :: 0 <= k < |parts| ==> |parts[k]| == 0 || parts[k][0] != '/') then
        StartsWithTrans(p, next, base);
        p
      else p
  }

  lemma StartsWithTrans(s: string, t: string, u: string)
    requires StartsWith(s, t) && StartsWith(t, u)
    ensures StartsWith(s, u)
  {
    assert s[..|u|] == s[..|t|][..|u|];
  }

  /** pandas' export file name: f"{dataframe_name}_{last '-' part of the period}.csv". */
  function PandasExportFileName(f: Frame<seq<string>>): string
  {
    var parts := Split(f.period, '-');
    KindName(f.kind) + "_" + parts[|parts| - 1] + ".csv"
  }

  /** pandas' `load_to_clean` path: the frame's three directory names under the clean directory. */
  function PandasExportPath(cleanDir: string, f: Frame<seq<string>>): string
  {
    PathJoin(PathJoinAll(cleanDir, f.dir), PandasExportFileName(f))
  }

  /**
   * The pandas file name carries only the sequence number of the period,
   * whatever the year and month directories are called: the month is in
   * the directory instead.
   */
  lemma PandasExportFileNameOfPeriod(f: Frame<seq<string>>, yearDir: string, monthDir: string, s: nat)
    requires f.period == PandasPeriod(yearDir, monthDir, s)
    ensures PandasExportFileName(f) == KindName(f.kind) + "_" + NatToString(s) + ".csv"
  {
    NatToStringHasNo(s, '-');
    assert f.period == yearDir + ['-'] + monthDir + ['-'] + NatToString(s);
    SplitLastField(yearDir, monthDir, NatToString(s), '-');
  }

  /** What `load_to_clean` writes: a path and a table per entry. */
  datatype Export = Export(path: string, table: Table)

  /**
   * DuckDB's `load_to_clean`: each table goes to a file directly inside
   * its export directory, named after the table.
   */
  function DuckLoadToClean(ds: seq<DuckTable>): (r: seq<Export>)
    ensures |r| == |ds|
    ensures forall k :: 0 <= k < |ds| ==> r[k].table == ds[k].table && r[k].path == DuckExportPath(ds[k])
    ensures forall k :: 0 <= k < |ds| ==> StartsWith(r[k].path, ds[k].exportDir + "/")
    ensures forall k :: 0 <= k < |ds| && '/' !in ds[k].dbName ==> BaseName(r[k].path) == ds[k].dbName + ".csv"
  {
    forall k | 0 <= k < |ds| && '/' !in ds[k].dbName
      ensures BaseName(DuckExportPath(ds[k])) == ds[k].dbName + ".csv"
    {
      DuckExportFileName(ds[k]);
    }
    seq(|ds|, k requires 0 <= k < |ds| => Export(DuckExportPath(ds[k]), ds[k].table))
  }

  /**
   * pandas' `load_to_clean`: each frame goes under the clean directory,
   * in its category, year and month directories, to a file named after
   * its sheet kind and sequence number.
   */
  function PandasLoadToClean(cleanDir: string, fs: seq<Frame<seq<string>>>): (r: seq<Export>)
    ensures |r| == |fs|
    ensures forall k :: 0 <= k < |fs| ==> r[k].table == fs[k].table && r[k].path == PandasExportPath(cleanDir, fs[k])
    ensures forall k :: 0 <= k < |fs| && '/' !in PandasExportFileName(fs[k]) ==>
      BaseName(r[k].path) == PandasExportFileName(fs[k])
    ensures forall k :: 0 <= k < |fs| && (forall d :: d in fs[k].dir ==> |d| == 0 || d[0] != '/') ==>
      StartsWith(r[k].path, cleanDir)
  {
    forall k | 0 <= k < |fs| {
      PandasExportPathShape(cleanDir, fs[k]);
    }
    seq(|fs|, k requires 0 <= k < |fs| => Export(PandasExportPath(cleanDir, fs[k]), fs[k].table))
  }

  /** The pandas path of a frame ends in its file name and, for relative directory names, starts with the clean directory. */
  lemma PandasExportPathShape(cleanDir: string, f: Frame<seq<string>>)
    ensures '/' !in PandasExportFileName(f) ==> BaseName(PandasExportPath(cleanDir, f)) == PandasExportFileName(f)
    ensures (forall d :: d in f.dir ==> |d| == 0 || d[0] != '/') ==> StartsWith(PandasExportPath(cleanDir, f), cleanDir)
  {
    var parts := Split(f.period, '-');
    var kind := KindName(f.kind);
    var name := kind + "_" + parts[|parts| - 1] + ".csv";
    assert PandasExportFileName(f) == name;
    var dir := PathJoinAll(cleanDir, f.dir);
    assert PandasExportPath(cleanDir, f) == PathJoin(dir, name);
    if '/' !in name {
      BaseNameOfJoin(dir, name);
    }
    assert name[0] == kind[0] != '/';
    if forall d :: d in f.dir ==> |d| == 0 || d[0] != '/' {
      assert forall j :: 0 <= j < |f.dir| ==> |f.dir[j]| == 0 || f.dir[j][0] != '/';
      StartsWithTrans(PathJoin(dir, name), dir, cleanDir);
    }
  }

  /**
   * For a walk frame with plain names, pandas writes to
   * `<clean>/<category>/<year>/<month>/<kind>_<seq>.csv`.
   */
  lemma PandasExportPathPlain(cleanDir: string, f: Frame<seq<string>>, cat: string, year: string, month: string, s: nat)
    requires |cleanDir| > 0 && cleanDir[|cleanDir| - 1] != '/'
    requires |cat| > 0 && |year| > 0 && |month| > 0 && '/' !in cat && '/' !in year && '/' !in month
    requires f.dir == [cat, year, month] && f.period == PandasPeriod(year, month, s)
    ensures PandasExportPath(cleanDir, f) == cleanDir + "/" + cat + "/" + year + "/" + month + "/" + PandasExportFileName(f)
    ensures PandasExportFileName(f) == KindName(f.kind) + "_" + NatToString(s) + ".csv"
  {
    PandasExportFileNameOfPeriod(f, year, month, s);
    PathJoinAllPlain(cleanDir, cat, year, month);
    var dir := cleanDir + "/" + cat + "/" + year + "/" + month;
    var name := PandasExportFileName(f);
    assert PandasExportPath(cleanDir, f) == PathJoin(dir, name);
    assert dir[|dir| - 1] == month[|month| - 1];
    assert name[0] == KindName(f.kind)[0];
  }

  /** Joining three plain directory names under a base puts one '/' before each. */
  lemma PathJoinAllPlain(base: string, x: string, y: string, z: string)
    requires |base| > 0 && base[|base| - 1] != '/'
    requires |x| > 0 && |y| > 0 && |z| > 0 && '/' !in x && '/' !in y && '/' !in z
    ensures PathJoinAll(base, [x, y, z]) == base + "/" + x + "/" + y + "/" + z
  {
    var a := JoinPlain(base, x);
    var b := JoinPlain(a, y);
    var c := JoinPlain(b, z);
    PathJoinAllStep(base, [x, y, z]);
    PathJoinAllStep(a, [y, z]);
    PathJoinAllStep(b, [z]);
  }

  /** `os.path.join(a, b)` of a base without a trailing '/' and a relative name puts one '/' between them. */
  lemma JoinPlain(a: string, b: string) returns (p: string)
    requires |a| > 0 && a[|a| - 1] != '/' && |b| > 0 && '/' !in b
    ensures p == a + "/" + b && PathJoin(a, b) == p && |p| > 0 && p[|p| - 1] != '/'
  {
    p := a + "/" + b;
    assert p[|p| - 1] == b[|b| - 1];
  }

  lemma PathJoinAllStep(base: string, parts: seq<string>)
    requires |parts| > 0
    ensures PathJoinAll(base, parts) == PathJoinAll(PathJoin(base, parts[0]), parts[1..])
  {
  }
}
